=== FILE: README.md ===
# Marketplace order core in Dafny

A model of the order-processing core of a small marketplace. It has a
FastAPI backend with a SQL database and a React frontend. Customers browse
partners' products, put them in a cart and check out. Checkout sends one
order per partner. Partners see their orders, move them through the statuses
`in_queue`, `in_process`, `ready` and `completed`, delete completed ones and
read statistics. Both sides are pushed an `order_update` message over a
websocket when an order is created or changed.

The database is one immutable `Model.Store`. It holds a map per table, keyed
by primary key. A new row takes SQLite's next row id: one more than the
largest id in its table, or 1 when the table is empty. An id freed by
deleting the newest row is therefore handed out again.
`Model.Valid` collects the integrity rules the schema promises:
- each row sits under its own id;
- items point at existing orders;
- QR codes are unique;
- each user has at most one partner profile;
- emails and usernames are unique.

Request handlers are pure functions. Each returns a `Result` holding either
the new store or the `ApiError` the handler raises; `Errors.StatusCode` gives
that error's HTTP code. Values the program draws from outside are parameters:
- `uuid4()` values;
- the clock;
- whether the password hash verifies;
- whether a file write succeeds;
- which websocket sends fail.

Modules, following the program's structure:

- `Common`, `Errors`: option/result/patch types and the error table.
- `Model` (`backend/models.py`): enums, tables, integrity, the cascades, and
  the newest-first listing used by both order lists.
- `CustomerApi` (`backend/routers/customer.py`): catalog filters,
  `create_order`, the customer's order list and order lookup.
- `PartnerApi` (`backend/routers/partner.py`): profile lookup, the order
  list, lookup, update and delete, partial updates, product and promotion
  deletion, and statistics.
- `Registry` (`backend/routers/websocket.py`): the connection registry,
  fan-out, the endpoint and `notify_order_update` as written.
- `Notify`: the corrected `notify_order_update` (see Findings).
- `Auth` (`backend/routers/auth.py`): registration and partner-profile
  registration.
- `Uploads` (`backend/routers/uploads.py`): the extension whitelist, the
  stored name and the returned URL.
- `Cart` (`frontend/src/contexts/CartContext.jsx`): the cart operations and
  the total.
- `Checkout` (`frontend/src/pages/customer/CartPage.jsx`): grouping by
  partner, sequential submission and clearing.
- `OrdersPage` (`frontend/src/pages/partner/OrdersPage.jsx`): the status
  buttons, the status labels and the refetch rule.
- `Frontend` (`frontend/src/api/api.js`, `frontend/src/App.jsx`):
  `getImageUrl` and the route guards.

Five behaviours are modelled as the code has them, not as a reader might expect:
- `create_order` totals the prices the client sends, not catalog prices.
  `CustomerApi.TotalIgnoresCatalogPrice` states this.
- Checkout clears the whole cart after the first accepted group, not just
  that group's lines. `Checkout.PartialCheckoutDropsLines` states this.
- The server accepts any status change. Only the partner page's buttons are
  forward-only.
- Every field of a partial update is optional, so an explicit `null` passes
  validation. On a NOT NULL column the commit then fails (500). On the
  nullable availability and active flags NULL is stored, and the row counts as
  unavailable or inactive. `PartnerApi.NullAvailabilityHidesProduct` states this.
  An order with an item of such a product then fails response validation, so
  every read of it and every status update of it is answered 500;
  `PartnerApi.NullAvailabilityBreaksOrderReads` states this.
- Relationships without a cascade make deletes fail. Deleting a product that an
  order item names, or a partner that has orders, nulls a NOT NULL foreign key,
  and the commit fails. `Model.DeleteProductRow` and
  `Model.DeletePartnerCascade` state when.

## Model

| member | source | states |
|---|---|---|
| Model.UserTypeValue | backend/models.py:7-9 | a user type is serialised as "customer" or "partner", and as "customer" exactly for customers |
| Model.StatusValue | backend/models.py:11-16 | every status is serialised as one of the five values in_queue, in_process, ready, completed, cancelled |
| Model.ParseStatus | backend/models.py:11-16 | a string parses to a status exactly when it is one of the five values, and the parsed status is serialised as that same string |
| Model.StatusRoundTrip | backend/models.py:11-16 | parsing a status's serialised value gives the status back, and no two statuses share a serialised value |
| Model.DeleteOrderCascade | backend/models.py:101 | deleting an order removes it and every item of it, keeps every other item unchanged, and touches no other table |
| Model.DeletePartnerCascade | backend/models.py:50-52 | deleting a partner fails with a NOT NULL violation exactly when one of its orders, or an item of one of its products, exists; otherwise it removes the partner with its products and promotions, keeps everyone else's, and leaves orders and items alone |
| Model.DeletePartnerCascadeValid | backend/models.py:50-52 | a partner deletion that commits keeps every integrity rule and leaves no order naming the partner and no item naming a deleted product |
| Model.DeleteProductRow | backend/models.py:68 | deleting a product fails with a NOT NULL violation exactly when some order item names it; otherwise only that product row goes |
| Model.DeleteProductRowValid | backend/models.py:68 | a product deletion that commits keeps every integrity rule and leaves no item naming the deleted product |
| Model.NextRowId | backend/models.py:89 | a new id is used by no row, exceeds every id in the table, is 1 for an empty table and otherwise follows the largest id directly |
| Model.DeletedNewestIdReused | backend/models.py:89 | after the order with the largest id is deleted, the next order id is at most the deleted one, and equal to it when the id below was taken or it was 1 |
| Model.DeleteOrderCascadeValid | backend/models.py:101 | the order-delete cascade keeps every integrity rule of the database |
| Model.InsertNewestFirst | backend/routers/partner.py:48 | inserting an order into a newest-first list gives a newest-first list one longer, holding the old orders and the new one |
| Model.InsertKeepsIdsDistinct | backend/routers/partner.py:48 | inserting an order with a fresh id keeps the ids in the list distinct |
| Model.ListNewestFirst | backend/routers/customer.py:118 | the listing is sorted by creation time, newest first, has no duplicates, and holds exactly the selected orders of the table |
| CustomerApi.GetProducts | backend/routers/customer.py:27-32 | only products whose availability flag is true (not false, not NULL) are returned, only the given partner's when a non-zero id is given, and every such product is returned |
| CustomerApi.GetPromotions | backend/routers/customer.py:34-42 | exactly the unexpired promotions whose active flag is true (not false, not NULL) are returned, restricted to the given partner when a non-zero id is given |
| CustomerApi.ZeroPartnerFilterIsNoFilter | backend/routers/customer.py:28-39 | a partner id of 0 is falsy and filters nothing, and any filter gives a subset of the unfiltered answer |
| CustomerApi.FirstItemError | backend/routers/customer.py:61-68 | the item check passes exactly when every line passes; otherwise it reports the error of the first failing line |
| CustomerApi.AccumulateTotal | backend/routers/customer.py:59-70 | the loop's running total equals the sum of price times quantity over the request lines |
| CustomerApi.NewItems | backend/routers/customer.py:71-92 | line i becomes item base+i of the new order, with the line's product, quantity and price, and nothing else is created |
| CustomerApi.CreateOrder | backend/routers/customer.py:44-108 | rejections come in this order: non-customer (403), unknown partner (404), first failing line, taken QR code; nothing is written on any rejection; on success the order is in_queue with the caller, partner, summed client total and fresh QR code and takes the next row id (largest order id + 1), its items take consecutive ids from the next item id, and the customer and the partner's user are notified |
| CustomerApi.CreateOrderItemsExact | backend/routers/customer.py:71-92 | after a successful create the new order has exactly one item per request line |
| CustomerApi.CreateOrderValid | backend/routers/customer.py:78-92 | creating an order keeps every integrity rule, including QR-code uniqueness |
| CustomerApi.TotalIgnoresCatalogPrice | backend/routers/customer.py:70 | changing catalog prices changes neither whether an order is accepted nor the order created, because the total uses the client's prices |
| CustomerApi.GetOrder | backend/routers/customer.py:121-132 | an unknown order is a 404, someone else's order is a 403, an own order that fails `OrderResponse` validation is a 500, and otherwise the stored order is returned |
| CustomerApi.GetMyOrders | backend/routers/customer.py:110-119 | a non-customer gets 403; a customer gets a 500 exactly when one of their orders fails `OrderResponse` validation; otherwise the result is exactly the caller's orders, newest first and without duplicates, and an order is listed exactly when the single-order lookup returns it |
| PartnerApi.GetPartnerProfile | backend/routers/partner.py:19-26 | a non-partner gets 403, a partner without a profile gets 404, and otherwise the caller's own profile is returned |
| PartnerApi.GetOrder | backend/routers/partner.py:51-60 | profile errors pass through, an order not owned by the caller's profile is a 404, an owned order that fails `OrderResponse` validation is a 500, and the lookup succeeds exactly for an owned order that passes it, returning the stored row |
| PartnerApi.GetOrders | backend/routers/partner.py:46-49 | profile errors pass through; the reply is a 500 exactly when one of the profile's orders fails `OrderResponse` validation; otherwise the result is exactly the profile's orders, newest first and without duplicates, and an order is listed exactly when the single-order lookup returns it |
| PartnerApi.UpdateOrder | backend/routers/partner.py:62-89 | an order not owned gives 404 and changes nothing; otherwise any requested status is written (an absent one keeps the old), no other column changes, and the order's customer and the partner's user id are notified; the reply is the updated order, or a 500 after the commit and broadcast when the order fails `OrderResponse` validation |
| PartnerApi.UpdateIgnoresTransition | backend/routers/partner.py:73-74 | whether an update is accepted does not depend on the requested status |
| PartnerApi.UpdateOrderValid | backend/routers/partner.py:73-76 | a status update keeps every integrity rule |
| PartnerApi.DeleteOrder | backend/routers/partner.py:91-106 | an order not owned gives 404; an order that is not completed gives 400 and is kept; the delete succeeds exactly for an owned completed order, which is removed with its items while every other row of every table stays |
| PartnerApi.DeleteOrderValid | backend/routers/partner.py:104-105 | deleting an order keeps every integrity rule |
| PartnerApi.PatchPartner | backend/routers/partner.py:39-41 | an explicit null for the NOT NULL name fails the commit (500); otherwise the fields present are set, a null stored in a nullable column, and every other field keeps its value |
| PartnerApi.PatchProduct | backend/routers/partner.py:143-145 | an explicit null for the NOT NULL name or price fails the commit (500); otherwise the fields present are set, a null availability stored as NULL, and every other field keeps its value |
| PartnerApi.PatchPromotion | backend/routers/partner.py:199-201 | an explicit null for the NOT NULL title fails the commit (500); otherwise the fields present are set, a null active flag stored as NULL, and every other field keeps its value |
| PartnerApi.PatchesIdempotent | backend/routers/partner.py:39-201 | an update with every field absent (`NoProductChange`, `NoPromotionChange`) changes nothing, and an accepted update applied twice is applied once |
| PartnerApi.UpdateProfile | backend/routers/partner.py:33-43 | profile errors pass through; a null name is a 500; the update succeeds exactly otherwise, and then only the caller's own profile row is patched |
| PartnerApi.UpdateProduct | backend/routers/partner.py:132-147 | a product that is missing or someone else's gives 404; a null name or price is a 500; the update succeeds exactly otherwise, and then only that product row is patched |
| PartnerApi.UpdateReplyIsRead | backend/routers/partner.py:73-89 | the reply of a status update, order or 500, is exactly what reading the order back afterwards gives |
| PartnerApi.NullAvailabilityBreaksOrderReads | backend/schemas.py:125-149 | once a product an order item names has its availability nulled, that order fails validation, its partner lookup is never Ok, and a status update of it is answered 500 |
| Model.NullAvailabilityBreaksOrder | backend/schemas.py:125-133 | an order with an item whose product has a NULL availability fails `OrderResponse` validation |
| Model.FlagsSetOrderSerialises | backend/schemas.py:125-149 | an order of an existing partner, whose items all name existing products, passes validation when no product has a NULL availability |
| PartnerApi.NullAvailabilityHidesProduct | backend/routers/partner.py:143-145 | a null availability is committed and leaves the product unavailable, so customers can neither list nor order it |
| PartnerApi.UpdatePromotion | backend/routers/partner.py:188-203 | a promotion that is missing or someone else's gives 404; a null title is a 500; the update succeeds exactly otherwise, and then only that promotion row is patched |
| PartnerApi.DeleteProduct | backend/routers/partner.py:149-161 | a product that is missing or someone else's gives 404; one that an order item names fails the commit (500) and stays; the delete succeeds exactly otherwise and removes that product row alone |
| PartnerApi.DeletePromotion | backend/routers/partner.py:205-217 | a promotion that is missing or someone else's gives 404; the delete succeeds exactly otherwise and removes that promotion row alone |
| PartnerApi.SumRevenue | backend/routers/partner.py:227-230 | the loop's sum equals the revenue of the given orders |
| PartnerApi.GetStatistics | backend/routers/partner.py:220-243 | the counts are those of the partner's orders, completed orders, active promotions and products; completed ≤ total; revenue is the sum over completed orders, 0 when there are none |
| PartnerApi.CompletingAddsRevenue | backend/routers/partner.py:73-230 | moving an order to completed raises the partner's revenue by exactly that order's total |
| Registry.Connect | backend/routers/websocket.py:15-19 | the connection is appended to the user's list, which is created if missing; other users' lists are unchanged; no list becomes empty |
| Registry.RemoveFirst | backend/routers/websocket.py:23 | `list.remove` drops exactly the first occurrence: one element fewer, and the multiset loses one copy |
| Registry.Disconnect | backend/routers/websocket.py:21-25 | a user without an entry is a no-op; a connection not in the list is an error; otherwise the first copy is removed and the remaining connections keep their order, the key goes when the list empties, other users are unchanged, and no list is left empty |
| Registry.ConnectDisconnectRoundTrip | backend/routers/websocket.py:15-25 | connecting a new connection and then disconnecting it gives the registry back |
| Registry.SendPersonalMessage | backend/routers/websocket.py:27-33 | the message is handed, in order, to every connection of the user whose send does not fail; a failing send is skipped; an absent user gets nothing |
| Registry.DeliveredMembers | backend/routers/websocket.py:27-33 | a delivery happens exactly for the user's connections whose send does not fail |
| Registry.BroadcastOrderUpdate | backend/routers/websocket.py:35-46 | the same order_update message goes first to the customer's connections and then to those of the id given for the partner |
| Registry.Endpoint | backend/routers/websocket.py:50-59 | the connection is appended to the list of the path's user id and every other user's connections stay; the credential plays no part |
| Registry.NoCredentialNeeded | backend/routers/websocket.py:50-52 | a connection opened under any user id receives that user's messages |
| Registry.NotifyMissesPartner | backend/routers/websocket.py:71 | a partner user connected under its user id, whose id differs from its profile id, does not receive the helper's message |
| Notify.NotifyRecipientsFixed | backend/routers/websocket.py:62-71 | the corrected helper addresses the order's customer and the user id of the order's partner profile, and nothing when the profile is gone |
| Notify.FixedAgreesWithUpdate | backend/routers/partner.py:87 | after a status update the corrected helper addresses exactly the update endpoint's recipients |
| Notify.FixedAgreesWithCreate | backend/routers/customer.py:106 | after an order is created the corrected helper addresses exactly the create endpoint's recipients |
| Notify.FixedReachesPartner | backend/routers/websocket.py:35-46 | with the corrected addressing, a partner connected under its user id receives the order's message unless its send fails |
| Auth.Register | backend/routers/auth.py:15-42 | a used email is rejected first, then a taken username, then a hash that fails to verify (500); otherwise one active user is added under the next id with the request's fields |
| Auth.RegisterValid | backend/routers/auth.py:18-40 | registration keeps every integrity rule, and the new user is the only one with its email and the only one with its username |
| Auth.RegisterPartner | backend/routers/auth.py:44-71 | a non-partner gets 403, a user who already has a profile gets 400, and otherwise a profile owned by the caller is added |
| Auth.RegisterPartnerValid | backend/routers/auth.py:54-69 | creating a profile keeps every integrity rule, and afterwards the caller's profile resolves to the new one |
| Auth.SecondProfileRefused | backend/routers/auth.py:54-55 | a second profile request by the same user is refused with 400 |
| Uploads.AsciiLower | backend/routers/uploads.py:19 | lowering keeps the length and lowers each character |
| Uploads.BaseName | backend/routers/uploads.py:19 | the final path component contains no slash and is never "." |
| Uploads.Suffix | backend/routers/uploads.py:19-31 | a non-empty suffix is a proper ending of the name, starts with its only dot, and has at least one more character |
| Uploads.AllowedIffEndsWithExtension | backend/routers/uploads.py:16-19 | a file is allowed exactly when its final component, lowered, ends with one of .jpg .jpeg .png .gif .webp after a non-empty stem |
| Uploads.HiddenFileRefused | backend/routers/uploads.py:19 | ".png" alone has no suffix and is refused |
| Uploads.LastExtensionCounts | backend/routers/uploads.py:19 | only the last extension counts: "a.png.exe" is refused |
| Uploads.AllowedIgnoresCase | backend/routers/uploads.py:19 | names equal up to ASCII case get the same answer |
| Uploads.SuffixLower | backend/routers/uploads.py:19 | the suffix of the lowered name is the lowered suffix |
| Uploads.BaseNameLower | backend/routers/uploads.py:19 | the final component of the lowered path is the lowered final component |
| Uploads.UploadImage | backend/routers/uploads.py:21-44 | a refused name gives 400 before any name is generated or written; a failed write gives 500; otherwise the stored name starts with the uuid and the URL is "/api/uploads/" followed by it |
| Uploads.StoredNameKeepsSuffix | backend/routers/uploads.py:31-32 | the stored name is its own final component, carries the original suffix with its case, and is itself allowed |
| Frontend.ApiUrl | frontend/src/api/api.js:3 | the configured backend address is used unless it is missing or empty, and then the default is used |
| Frontend.GetImageUrl | frontend/src/api/api.js:6-12 | nothing for a missing or empty URL, the backend address put in front of an uploads path, any other URL unchanged |
| Frontend.GetImageUrlIdempotent | frontend/src/api/api.js:3-12 | applying getImageUrl twice is applying it once, when the backend address neither starts with "/api/uploads/" nor equals "/api/uploads" |
| Frontend.GetImageUrlNotIdempotentUnderUploadsPath | frontend/src/api/api.js:6-12 | with the backend address "/api/uploads" a second application changes the URL again |
| Frontend.UploadedImageUrl | frontend/src/api/api.js:8-10 | the URL an upload returns is loaded from the backend address in front of it |
| Frontend.ProtectedRoute | frontend/src/App.jsx:28-44 | loading shows the placeholder, no user goes to /login, a mismatched required type goes to the user's home, and the page shows exactly otherwise |
| Frontend.PublicRoute | frontend/src/App.jsx:51-53 | a visitor sees the public page; a signed-in user is sent to the home route of their type |
| Frontend.HomeOf | frontend/src/App.jsx:40 | the home route is /customer exactly for the type "customer", and /partner for anything else |
| Frontend.RedirectsSettle | frontend/src/App.jsx:39-53 | for either server-side user type one redirect lands on a route that shows its page |
| Frontend.UnknownTypeLoops | frontend/src/App.jsx:39-40 | a stored type that is neither customer nor partner is sent from /partner to /partner again |
| Cart.AddToCart | frontend/src/contexts/CartContext.jsx:19-31 | a pair already in the cart has its quantity raised by one, with length and order unchanged; a new pair is appended with quantity 1 |
| Cart.RemoveMembers | frontend/src/contexts/CartContext.jsx:33-35 | the lines left are exactly the old lines that are not for the pair |
| Cart.RemoveConcat | frontend/src/contexts/CartContext.jsx:34 | removing from a concatenation removes from each part, so the order of the other lines is kept |
| Cart.RemoveExactlyOne | frontend/src/contexts/CartContext.jsx:33-35 | in a cart with unique pairs, removing a line's pair removes that line alone and keeps the rest in order |
| Cart.RemoveMissing | frontend/src/contexts/CartContext.jsx:33-35 | removing a pair not in the cart leaves the cart unchanged |
| Cart.UpdateQuantity | frontend/src/contexts/CartContext.jsx:37-49 | a quantity of 0 or less is the same as removing the pair; otherwise only the pair's quantity is set, with length and order unchanged |
| Cart.ClearCart | frontend/src/contexts/CartContext.jsx:51-53 | the cleared cart holds no line, is well formed and totals zero |
| Cart.ClearThenAdd | frontend/src/contexts/CartContext.jsx:19-53 | adding a product after a clear gives the one line for it with quantity 1, and a total of its price |
| Cart.OperationsKeepWellFormed | frontend/src/contexts/CartContext.jsx:19-49 | add, remove and update keep pairs unique and every quantity at least 1 |
| Cart.AddToCartTotal | frontend/src/contexts/CartContext.jsx:19-57 | adding a product raises the total by that product's price in the cart, whether it is a new line or a bumped one |
| Cart.TotalAppend | frontend/src/contexts/CartContext.jsx:55-57 | the total of two carts put together is the sum of their totals |
| Checkout.PartnerKeys | frontend/src/pages/customer/CartPage.jsx:39-53 | the partner keys are strictly ascending, as Object.entries lists integer keys, and are exactly the partners in the cart |
| Checkout.GroupedPartition | frontend/src/pages/customer/CartPage.jsx:39-49 | taken group by group, the submitted lines are exactly the cart's lines as a multiset, and their total is the cart's total |
| Checkout.RequestsPartitionCart | frontend/src/pages/customer/CartPage.jsx:39-58 | there is one non-empty request per partner in the cart, in ascending partner order, and together they carry exactly the cart's lines |
| Checkout.Submit | frontend/src/pages/customer/CartPage.jsx:51-67 | requests are sent in order and each accepted one is stored under the next row id of the orders table (largest id + 1), so the created ids are consecutive; a rejection stops the loop; orders created earlier stay, and no earlier order is changed |
| Checkout.SubmitStopsAtRejection | frontend/src/pages/customer/CartPage.jsx:58-66 | when the loop stops, it stops at the first request the server rejects, and it reports that request's error |
| Checkout.HandleCheckout | frontend/src/pages/customer/CartPage.jsx:32-68 | an empty cart sends nothing; the cart ends empty exactly when some order was created, and is untouched otherwise; the displayed order is the last one created; every created order is stored |
| Checkout.CheckoutAllAccepted | frontend/src/pages/customer/CartPage.jsx:32-68 | when every request is accepted, the cart is cleared and exactly one order is made per partner, in ascending partner order, and the totals add up to the cart's total |
| Checkout.PartialCheckoutDropsLines | frontend/src/pages/customer/CartPage.jsx:59-66 | when a later request is rejected after an earlier one was accepted, the cart is still emptied, although some line's partner got no order |
| OrdersPage.ActionsFollowChain | frontend/src/pages/partner/OrdersPage.jsx:133-166 | each status gets at most one button; the advance buttons are exactly in_queue to in_process, in_process to ready, and ready to completed; delete is offered for completed alone; cancelled and unknown strings get nothing |
| OrdersPage.NoBackwardAction | frontend/src/pages/partner/OrdersPage.jsx:134-157 | no button moves an order to itself or back along the chain |
| OrdersPage.ServerAcceptsOfferedActions | frontend/src/pages/partner/OrdersPage.jsx:133-166 | every offered button is accepted by the server for an order the caller owns |
| OrdersPage.ServerAllowsBackwardStep | backend/routers/partner.py:73-74 | the server puts a completed order back into the queue, a step no button offers |
| OrdersPage.StatusTextFaithful | frontend/src/pages/partner/OrdersPage.jsx:81-90 | the five statuses get five different labels; any other string is shown as it is, and a known status never is |
| OrdersPage.ShouldRefetch | frontend/src/pages/partner/OrdersPage.jsx:26-31 | the page reloads exactly for messages of kind order_update |
| OrdersPage.BroadcastTriggersRefetch | frontend/src/pages/partner/OrdersPage.jsx:26-31 | every message the order broadcast delivers makes the page reload |
| Errors.StatusCode | backend/routers/customer.py:50-68 | every error is raised with 400, 403, 404 or 500 |

## Left out

- Database sessions, `flush`, `commit` and `refresh`, and dependency injection. The store is a value, and a handler's result is what it returns or raises.
- Floating-point prices, totals, revenue and coordinates. They are integers in minor units, so rounding is not modelled.
- Timestamps. Creation time is an integer parameter; `updated_at` and the `server_default` clock are left out. A checkout stamps all of its orders with one `now`.
- `uuid4()`, password hashing and file writes. Their outcomes are parameters: the QR code per order id, the hash, whether it verifies, and whether the write succeeds.
- Login, JWT tokens and `get_current_user`. The authenticated caller is a parameter.
- The order list is sorted by creation time, and ties are broken by insertion. The database's tie order is not specified.
- Websocket transport: accepting, async sends, the receive loop and its ping reply. Only the registry map and the sequence of send attempts are modelled.
- `notify_order_update` is not called by any router, and checkout sends one notification per created order. Neither is modelled as a call sequence.
- `localStorage` persistence of the cart, token and user. This is browser I/O.
- Unicode lower-casing. `str.lower` is modelled on ASCII letters; for the whitelist test this gives the same answer.
- Python `pathlib` details beyond the final component and its suffix.
- Product and promotion creation, the partner's product and promotion lists, and the customer's partner list. They are plain inserts and queries with no decision logic.
- Response validation of product and promotion replies. `ProductResponse` and `PromotionResponse` declare the availability and active flags as `bool`, so a row holding NULL there fails validation with a 500. For order replies this is modelled: `OrderResponse` nests a `ProductResponse` per item, and `Model.OrderSerialises` decides the 500 of both order lookups, both order lists and the status update. The partner's product and promotion lists are not modelled, and for the two update handlers see the next two lines.
- PartnerApi.UpdateProduct: a null availability is committed and the model returns the new store, but the reply itself fails response validation with a 500. The model does not separate "committed" from "answered 200".
- PartnerApi.UpdatePromotion: likewise for a null active flag. The row is committed, and the reply is a 500 the model does not return.
- OrdersPage.StatusTextFaithful: the label lookup is modelled over the five own keys of `statusMap`. In JavaScript, a string naming an inherited `Object.prototype` property (`constructor`, `toString`, `__proto__`, ...) resolves to that property and would not be shown as is. The server only ever sends the five enum values.
- Enum columns. SQLAlchemy's `Enum` column stores the member names (`IN_QUEUE`, `CUSTOMER`). The model represents statuses and user types by their JSON values, which is what the API and the websocket carry.
- The `OrderItem.quantity` default of 1. `create_order` always passes the request's quantity, so the default never applies.
- Checkout's display grouping (`cartByPartner`). It is the same grouping as the submission grouping, applied to whole lines.
- Cart.RemoveFromCart: its own contract states only that the cart does not grow. What it removes and keeps is stated by Cart.RemoveMembers, Cart.RemoveConcat and Cart.RemoveExactlyOne.
- JavaScript number width and object-key coercion. Partner ids in the cart are natural numbers.
- Negative request ids. FastAPI accepts any `int` for path and body ids; the model takes them as natural numbers. Row ids are never negative, so a negative id would be answered like any absent one (404).
- Validation of the other fields of an order reply. They come from NOT NULL columns or server defaults, so they cannot fail; only a missing partner or product row and a NULL availability flag are modelled.

## Findings

| source | as written | input that shows it | evidently intended | confidence | as-written member | corrected member |
|---|---|---|---|---|---|---|
| backend/routers/websocket.py:71 | `notify_order_update` passes `order.partner_id`, a partner profile id, as the partner recipient, while registry keys are user ids | a partner profile with id 1 owned by user 7; the partner's browser is connected under 7; the helper sends to 1 and the partner gets nothing | address the partner's user id, `partner.user_id`, as both routers do (partner.py:87, customer.py:106) | not executed | Registry.NotifyMissesPartner | Notify.FixedAgreesWithUpdate |

=== FILE: auth.dfy ===
/** Account registration and partner-profile registration. Password hashing
    is a foreign library: the hash it produces and whether it verifies
    against the password are parameters. */
module Auth {
  import opened Common
  import opened Errors
  import opened Model
  import opened PartnerApi

  /** The fields of a registration request. */
  datatype Registration = Registration(
    email: string, username: string, password: string, userType: UserType,
    fullName: Option<string>, phone: Option<string>)

  /** Some user has this email. */
  predicate HasEmail(users: map<nat, User>, email: string)
  {
    exists k :: k in users && users[k].email == email
  }

  /** Some user has this username. */
  predicate HasUsername(users: map<nat, User>, username: string)
  {
    exists k :: k in users && users[k].username == username
  }

  /** A new row and the database holding it. */
  datatype Registered = Registered(store: Store, user: User)

  /** `POST /register`: an email already in use is reported before a taken
      username, and a hash that does not verify is a 500; otherwise one user
      row is added under the next row id, active, with the request's fields. */
  function Register(st: Store, req: Registration, hashed: string, hashVerifies: bool): (r: Result<Registered, ApiError>)
    ensures HasEmail(st.users, req.email) ==> r == Err(EmailRegistered)
    ensures !HasEmail(st.users, req.email) && HasUsername(st.users, req.username) ==> r == Err(UsernameTaken)
    ensures !HasEmail(st.users, req.email) && !HasUsername(st.users, req.username) && !hashVerifies
            ==> r == Err(HashingFailed)
    ensures r.Ok? <==> !HasEmail(st.users, req.email) && !HasUsername(st.users, req.username) && hashVerifies
    ensures r.Ok? ==>
              var u := r.value.user;
              && u.id == NextUserId(st) && u.email == req.email && u.username == req.username
              && u.hashedPassword == hashed && u.userType == req.userType
              && u.fullName == req.fullName && u.phone == req.phone && u.isActive
              && r.value.store == st.(users := st.users[NextUserId(st) := u])
  {
    if HasEmail(st.users, req.email) then Err(EmailRegistered)
    else if HasUsername(st.users, req.username) then Err(UsernameTaken)
    else if !hashVerifies then Err(HashingFailed)
    else
      var u := User(NextUserId(st), req.email, req.username, hashed, req.userType, req.fullName, req.phone, true);
      Ok(Registered(st.(users := st.users[NextUserId(st) := u]), u))
  }

  /** A registration keeps every database constraint; in particular emails and
      usernames stay unique, and the new user is the only one with its email
      and the only one with its username. */
  lemma RegisterValid(st: Store, req: Registration, hashed: string, hashVerifies: bool)
    requires Valid(st)
    requires Register(st, req, hashed, hashVerifies).Ok?
    ensures var reg := Register(st, req, hashed, hashVerifies).value;
            && Valid(reg.store)
            && (forall k :: k in reg.store.users && reg.store.users[k].email == req.email ==> k == reg.user.id)
            && (forall k :: k in reg.store.users && reg.store.users[k].username == req.username ==> k == reg.user.id)
  {
    var reg := Register(st, req, hashed, hashVerifies).value;
    var users' := reg.store.users;
    forall a, b | a in users' && b in users' && a != b
      ensures users'[a].email != users'[b].email && users'[a].username != users'[b].username
    {
      if a == NextUserId(st) {
        assert b in st.users;
      } else if b == NextUserId(st) {
        assert a in st.users;
      }
    }
  }

  /** The fields of a partner-profile request. */
  datatype ProfileRequest = ProfileRequest(
    name: string, description: Option<string>, latitude: int, longitude: int,
    address: Option<string>, phone: Option<string>)

  /** A new profile and the database holding it. */
  datatype ProfileCreated = ProfileCreated(store: Store, partner: Partner)

  /** `POST /register-partner`: only a partner user (403), and only one
      profile per user (400); the new profile belongs to the caller. */
  function RegisterPartner(st: Store, caller: User, req: ProfileRequest): (r: Result<ProfileCreated, ApiError>)
    ensures caller.userType != PartnerUser ==> r == Err(OnlyPartnersCreateProfile)
    ensures caller.userType == PartnerUser && (exists k :: k in st.partners && st.partners[k].userId == caller.id)
            ==> r == Err(ProfileExists)
    ensures r.Ok? <==> caller.userType == PartnerUser && forall k :: k in st.partners ==> st.partners[k].userId != caller.id
    ensures r.Ok? ==>
              var p := r.value.partner;
              && p.id == NextPartnerId(st) && p.userId == caller.id && p.name == req.name
              && p.description == req.description && p.latitude == req.latitude && p.longitude == req.longitude
              && p.address == req.address && p.phone == req.phone
              && r.value.store == st.(partners := st.partners[NextPartnerId(st) := p])
  {
    if caller.userType != PartnerUser then Err(OnlyPartnersCreateProfile)
    else if exists k :: k in st.partners && st.partners[k].userId == caller.id then Err(ProfileExists)
    else
      var p := Partner(NextPartnerId(st), caller.id, req.name, req.description, req.latitude, req.longitude,
                       req.address, req.phone);
      Ok(ProfileCreated(st.(partners := st.partners[NextPartnerId(st) := p]), p))
  }

  /** Creating a profile keeps every database constraint (so still at most
      one profile per user), and afterwards the caller's profile resolves to
      the new one. */
  lemma RegisterPartnerValid(st: Store, caller: User, req: ProfileRequest)
    requires Valid(st)
    requires RegisterPartner(st, caller, req).Ok?
    ensures var c := RegisterPartner(st, caller, req).value;
            && Valid(c.store)
            && GetPartnerProfile(c.store, caller) == Ok(c.partner)
  {
    var c := RegisterPartner(st, caller, req).value;
    var partners' := c.store.partners;
    forall a, b | a in partners' && b in partners' && a != b ensures partners'[a].userId != partners'[b].userId {
      if a == NextPartnerId(st) {
        assert b in st.partners;
      } else if b == NextPartnerId(st) {
        assert a in st.partners;
      }
    }
    assert ProfilesUnique(partners');
    assert partners'[NextPartnerId(st)].userId == caller.id;
  }

  /** A second profile request by the same user is refused. */
  lemma SecondProfileRefused(st: Store, caller: User, req: ProfileRequest, req2: ProfileRequest)
    requires RegisterPartner(st, caller, req).Ok?
    ensures RegisterPartner(RegisterPartner(st, caller, req).value.store, caller, req2) == Err(ProfileExists)
  {
    var c := RegisterPartner(st, caller, req).value;
    assert c.store.partners[NextPartnerId(st)].userId == caller.id;
  }
}

=== FILE: cart.dfy ===
/** The client-held shopping cart: a sequence of lines keyed by the pair
    (product id, partner id), with add, remove, update-quantity, clear and
    total. */
module Cart {

  /** The product object stored in a line; only its id and price are read. */
  datatype CartProduct = CartProduct(id: nat, price: int)

  datatype CartLine = CartLine(product: CartProduct, partnerId: nat, quantity: int)

  /** The line is the one for the given pair. */
  predicate Matches(l: CartLine, productId: int, partnerId: nat)
  {
    l.product.id == productId && l.partnerId == partnerId
  }

  /** Some line of the cart is the one for the given pair (`prev.find`). */
  predicate Contains(cart: seq<CartLine>, productId: int, partnerId: nat)
  {
    exists i :: 0 <= i < |cart| && Matches(cart[i], productId, partnerId)
  }

  /** No pair occurs in two lines. */
  ghost predicate KeysUnique(cart: seq<CartLine>)
  {
    forall i, j :: 0 <= i < j < |cart| ==> !Matches(cart[j], cart[i].product.id, cart[i].partnerId)
  }

  /** Every quantity is at least one. */
  ghost predicate QuantitiesPositive(cart: seq<CartLine>)
  {
    forall i :: 0 <= i < |cart| ==> cart[i].quantity >= 1
  }

  /** The invariant the three editing operations keep. */
  ghost predicate WellFormed(cart: seq<CartLine>)
  {
    KeysUnique(cart) && QuantitiesPositive(cart)
  }

  // ---------------------------------------------------------------------------
  // Operations
  // ---------------------------------------------------------------------------

  /** `prev.map(...)`: raise the quantity of the matching lines by one. */
  function Bump(cart: seq<CartLine>, productId: int, partnerId: nat): (r: seq<CartLine>)
    ensures |r| == |cart|
    ensures forall i :: 0 <= i < |cart| ==>
              r[i] == if Matches(cart[i], productId, partnerId) then cart[i].(quantity := cart[i].quantity + 1) else cart[i]
  {
    if |cart| == 0 then []
    else
      var head := if Matches(cart[0], productId, partnerId) then cart[0].(quantity := cart[0].quantity + 1) else cart[0];
      [head] + Bump(cart[1..], productId, partnerId)
  }

  /** `addToCart`: a pair already in the cart gets one more unit, in place
      (the stored product object is kept); a new pair is appended with
      quantity 1. */
  function AddToCart(cart: seq<CartLine>, product: CartProduct, partnerId: nat): (r: seq<CartLine>)
    ensures Contains(cart, product.id, partnerId) ==>
              && |r| == |cart|
              && forall i :: 0 <= i < |cart| ==>
                   && r[i].product == cart[i].product && r[i].partnerId == cart[i].partnerId
                   && r[i].quantity == cart[i].quantity + (if Matches(cart[i], product.id, partnerId) then 1 else 0)
    ensures !Contains(cart, product.id, partnerId) ==> r == cart + [CartLine(product, partnerId, 1)]
  {
    if Contains(cart, product.id, partnerId) then Bump(cart, product.id, partnerId)
    else cart + [CartLine(product, partnerId, 1)]
  }

  /** `removeFromCart`: keep the lines that are not for the pair. */
  function RemoveFromCart(cart: seq<CartLine>, productId: int, partnerId: nat): (r: seq<CartLine>)
    ensures |r| <= |cart|
  {
    if |cart| == 0 then []
    else (if Matches(cart[0], productId, partnerId) then [] else [cart[0]]) + RemoveFromCart(cart[1..], productId, partnerId)
  }

  /** The lines removal keeps are exactly the cart's lines not for the pair. */
  lemma {:induction false} RemoveMembers(cart: seq<CartLine>, productId: int, partnerId: nat)
    ensures forall l :: l in RemoveFromCart(cart, productId, partnerId) <==> l in cart && !Matches(l, productId, partnerId)
  {
    if |cart| > 0 {
      RemoveMembers(cart[1..], productId, partnerId);
      assert cart == [cart[0]] + cart[1..];
    }
  }

  /** `prev.map(...)`: set the quantity of the matching lines. */
  function SetQuantity(cart: seq<CartLine>, productId: int, partnerId: nat, quantity: int): (r: seq<CartLine>)
    ensures |r| == |cart|
    ensures forall i :: 0 <= i < |cart| ==>
              r[i] == if Matches(cart[i], productId, partnerId) then cart[i].(quantity := quantity) else cart[i]
  {
    if |cart| == 0 then []
    else
      var head := if Matches(cart[0], productId, partnerId) then cart[0].(quantity := quantity) else cart[0];
      [head] + SetQuantity(cart[1..], productId, partnerId, quantity)
  }

  /** `updateQuantity`: a quantity of zero or less removes the pair, any
      other replaces the matching line's quantity. */
  function UpdateQuantity(cart: seq<CartLine>, productId: int, partnerId: nat, quantity: int): (r: seq<CartLine>)
    ensures quantity <= 0 ==> r == RemoveFromCart(cart, productId, partnerId)
    ensures quantity > 0 ==> |r| == |cart| && forall i :: 0 <= i < |cart| ==>
              && r[i].product == cart[i].product && r[i].partnerId == cart[i].partnerId
              && r[i].quantity == (if Matches(cart[i], productId, partnerId) then quantity else cart[i].quantity)
  {
    if quantity <= 0 then RemoveFromCart(cart, productId, partnerId)
    else SetQuantity(cart, productId, partnerId, quantity)
  }

  /** `clearCart`: the result is the empty cart, which is well formed, holds
      no pair and totals zero. */
  function ClearCart(cart: seq<CartLine>): (r: seq<CartLine>)
    ensures |r| == 0
    ensures WellFormed(r) && Total(r) == 0
    ensures forall productId: int, partnerId: nat :: !Contains(r, productId, partnerId)
  {
    []
  }

  /** `getTotal`: the sum of price times quantity over the lines. */
  function Total(cart: seq<CartLine>): int
  {
    if |cart| == 0 then 0 else cart[0].product.price * cart[0].quantity + Total(cart[1..])
  }

  // ---------------------------------------------------------------------------
  // Properties
  // ---------------------------------------------------------------------------

  /** Removing lines none of which is for the pair changes nothing. */
  lemma {:induction false} RemoveAbsent(cart: seq<CartLine>, productId: int, partnerId: nat)
    requires forall i :: 0 <= i < |cart| ==> !Matches(cart[i], productId, partnerId)
    ensures RemoveFromCart(cart, productId, partnerId) == cart
  {
    if |cart| > 0 {
      RemoveAbsent(cart[1..], productId, partnerId);
    }
  }

  /** Removal works line by line, so it distributes over concatenation. */
  lemma {:induction false} RemoveConcat(a: seq<CartLine>, b: seq<CartLine>, productId: int, partnerId: nat)
    ensures RemoveFromCart(a + b, productId, partnerId)
            == RemoveFromCart(a, productId, partnerId) + RemoveFromCart(b, productId, partnerId)
  {
    if |a| == 0 {
      assert a + b == b;
    } else {
      RemoveConcat(a[1..], b, productId, partnerId);
      var head := if Matches(a[0], productId, partnerId) then [] else [a[0]];
      var x, y := RemoveFromCart(a[1..], productId, partnerId), RemoveFromCart(b, productId, partnerId);
      assert (a + b)[1..] == a[1..] + b;
      assert RemoveFromCart(a + b, productId, partnerId) == head + (x + y);
      ConcatAssoc(head, x, y);
    }
  }

  /** Concatenation is associative. */
  lemma ConcatAssoc(a: seq<CartLine>, b: seq<CartLine>, c: seq<CartLine>)
    ensures a + (b + c) == (a + b) + c
  {
  }

  /** In a cart with unique pairs, removing the pair of line `i` deletes
      exactly that line and keeps the others in their original order. */
  lemma RemoveExactlyOne(cart: seq<CartLine>, i: nat)
    requires KeysUnique(cart) && i < |cart|
    ensures RemoveFromCart(cart, cart[i].product.id, cart[i].partnerId) == cart[..i] + cart[i + 1..]
  {
    NothingBefore(cart, i);
    NothingAfter(cart, i);
    RemoveSplit(cart, i);
  }

  /** Removing the pair of line `i`, when the lines around it hold no such
      pair, leaves the lines around it. */
  lemma RemoveSplit(cart: seq<CartLine>, i: nat)
    requires i < |cart|
    requires RemoveFromCart(cart[..i], cart[i].product.id, cart[i].partnerId) == cart[..i]
    requires RemoveFromCart(cart[i + 1..], cart[i].product.id, cart[i].partnerId) == cart[i + 1..]
    ensures RemoveFromCart(cart, cart[i].product.id, cart[i].partnerId) == cart[..i] + cart[i + 1..]
  {
    SplitAt(cart, i);
    RemoveAround(cart[..i], cart[i], cart[i + 1..]);
  }

  /** A sequence is its part before position `i`, the element there, and
      its part after. */
  lemma SplitAt(s: seq<CartLine>, i: nat)
    requires i < |s|
    ensures s == s[..i] + [s[i]] + s[i + 1..]
  {
  }

  /** Removing the pair of `x` from `before + [x] + after`, where neither
      side holds that pair, leaves `before + after`. */
  lemma RemoveAround(before: seq<CartLine>, x: CartLine, after: seq<CartLine>)
    requires RemoveFromCart(before, x.product.id, x.partnerId) == before
    requires RemoveFromCart(after, x.product.id, x.partnerId) == after
    ensures RemoveFromCart(before + [x] + after, x.product.id, x.partnerId) == before + after
  {
    var id, p := x.product.id, x.partnerId;
    RemoveConcat(before + [x], after, id, p);
    RemoveConcat(before, [x], id, p);
    RemoveSingle(x);
    assert before + [] == before;
  }

  /** Removing the pair of a one-line cart empties it. */
  lemma RemoveSingle(l: CartLine)
    ensures RemoveFromCart([l], l.product.id, l.partnerId) == []
  {
    assert [l][1..] == [];
  }

  /** With unique pairs, no line before line `i` has its pair. */
  lemma NothingBefore(cart: seq<CartLine>, i: nat)
    requires KeysUnique(cart) && i < |cart|
    ensures RemoveFromCart(cart[..i], cart[i].product.id, cart[i].partnerId) == cart[..i]
  {
    var before := cart[..i];
    forall j | 0 <= j < |before| ensures !Matches(before[j], cart[i].product.id, cart[i].partnerId) {
      assert before[j] == cart[j];
    }
    RemoveAbsent(before, cart[i].product.id, cart[i].partnerId);
  }

  /** With unique pairs, no line after line `i` has its pair. */
  lemma NothingAfter(cart: seq<CartLine>, i: nat)
    requires KeysUnique(cart) && i < |cart|
    ensures RemoveFromCart(cart[i + 1..], cart[i].product.id, cart[i].partnerId) == cart[i + 1..]
  {
    var after := cart[i + 1..];
    forall j | 0 <= j < |after| ensures !Matches(after[j], cart[i].product.id, cart[i].partnerId) {
      assert after[j] == cart[i + 1 + j];
    }
    RemoveAbsent(after, cart[i].product.id, cart[i].partnerId);
  }

  /** Removing a pair that is not in the cart changes nothing. */
  lemma RemoveMissing(cart: seq<CartLine>, productId: int, partnerId: nat)
    requires !Contains(cart, productId, partnerId)
    ensures RemoveFromCart(cart, productId, partnerId) == cart
  {
    RemoveAbsent(cart, productId, partnerId);
  }

  /** Adding, removing and updating keep pairs unique and quantities positive. */
  lemma OperationsKeepWellFormed(cart: seq<CartLine>, product: CartProduct, productId: int, partnerId: nat, quantity: int)
    requires WellFormed(cart)
    ensures WellFormed(AddToCart(cart, product, partnerId))
    ensures WellFormed(RemoveFromCart(cart, productId, partnerId))
    ensures WellFormed(UpdateQuantity(cart, productId, partnerId, quantity))
  {
    var added := AddToCart(cart, product, partnerId);
    if !Contains(cart, product.id, partnerId) {
      forall i, j | 0 <= i < j < |added| ensures !Matches(added[j], added[i].product.id, added[i].partnerId) {
        if j == |cart| {
          assert added[i] == cart[i];
        }
      }
    }
    RemoveKeepsWellFormed(cart, productId, partnerId);
  }

  /** Removal keeps the invariant: the result is a subsequence of the cart. */
  lemma {:induction false} RemoveKeepsWellFormed(cart: seq<CartLine>, productId: int, partnerId: nat)
    requires WellFormed(cart)
    ensures WellFormed(RemoveFromCart(cart, productId, partnerId))
  {
    if |cart| > 0 {
      RemoveKeepsWellFormed(cart[1..], productId, partnerId);
      var rest := RemoveFromCart(cart[1..], productId, partnerId);
      var r := RemoveFromCart(cart, productId, partnerId);
      if !Matches(cart[0], productId, partnerId) {
        assert r == [cart[0]] + rest;
        forall j | 0 < j < |r| ensures !Matches(r[j], r[0].product.id, r[0].partnerId) {
          RemoveMembers(cart[1..], productId, partnerId);
          assert r[j] == rest[j - 1] && rest[j - 1] in rest;
          assert r[j] in cart[1..];
        }
      }
    }
  }

  /** After a clear, adding a product gives a one-line cart with quantity 1,
      whatever the cart held before. */
  lemma ClearThenAdd(cart: seq<CartLine>, product: CartProduct, partnerId: nat)
    ensures AddToCart(ClearCart(cart), product, partnerId) == [CartLine(product, partnerId, 1)]
    ensures Total(AddToCart(ClearCart(cart), product, partnerId)) == product.price
  {
  }

  /** Adding a pair raises the total by one unit of the price held in the
      cart: the stored product's price when the pair is already present,
      otherwise the given product's price. */
  lemma AddToCartTotal(cart: seq<CartLine>, product: CartProduct, partnerId: nat)
    requires KeysUnique(cart)
    ensures !Contains(cart, product.id, partnerId) ==>
              Total(AddToCart(cart, product, partnerId)) == Total(cart) + product.price
    ensures forall i :: 0 <= i < |cart| && Matches(cart[i], product.id, partnerId) ==>
              Total(AddToCart(cart, product, partnerId)) == Total(cart) + cart[i].product.price
  {
    if !Contains(cart, product.id, partnerId) {
      AddNewTotal(cart, product, partnerId);
    }
    forall i | 0 <= i < |cart| && Matches(cart[i], product.id, partnerId)
      ensures Total(AddToCart(cart, product, partnerId)) == Total(cart) + cart[i].product.price
    {
      AddExistingTotal(cart, product, partnerId, i);
    }
  }

  /** A new pair adds one unit at the product's price. */
  lemma AddNewTotal(cart: seq<CartLine>, product: CartProduct, partnerId: nat)
    requires !Contains(cart, product.id, partnerId)
    ensures Total(AddToCart(cart, product, partnerId)) == Total(cart) + product.price
  {
    var line := CartLine(product, partnerId, 1);
    TotalAppend(cart, [line]);
    assert Total([line]) == product.price by {
      assert [line][1..] == [];
    }
  }

  /** A pair already held adds one unit at the price stored in its line. */
  lemma AddExistingTotal(cart: seq<CartLine>, product: CartProduct, partnerId: nat, i: nat)
    requires KeysUnique(cart) && i < |cart| && Matches(cart[i], product.id, partnerId)
    ensures Total(AddToCart(cart, product, partnerId)) == Total(cart) + cart[i].product.price
  {
    assert Contains(cart, product.id, partnerId);
    assert AddToCart(cart, product, partnerId) == Bump(cart, product.id, partnerId);
    BumpTotal(cart, product.id, partnerId, i);
  }

  /** Total of a concatenation. */
  lemma {:induction false} TotalAppend(a: seq<CartLine>, b: seq<CartLine>)
    ensures Total(a + b) == Total(a) + Total(b)
  {
    if |a| == 0 {
      assert a + b == b;
    } else {
      TotalAppend(a[1..], b);
      assert (a + b)[1..] == a[1..] + b;
    }
  }

  /** Bumping the one line for a pair adds that line's price to the total. */
  lemma {:induction false} BumpTotal(cart: seq<CartLine>, productId: int, partnerId: nat, i: nat)
    requires KeysUnique(cart)
    requires i < |cart| && Matches(cart[i], productId, partnerId)
    ensures Total(Bump(cart, productId, partnerId)) == Total(cart) + cart[i].product.price
  {
    var r := Bump(cart, productId, partnerId);
    if i == 0 {
      assert r[1..] == Bump(cart[1..], productId, partnerId);
      BumpAbsent(cart[1..], productId, partnerId);
    } else {
      assert !Matches(cart[0], productId, partnerId);
      BumpTotal(cart[1..], productId, partnerId, i - 1);
      assert r == [cart[0]] + Bump(cart[1..], productId, partnerId);
    }
  }

  /** Bumping a pair that no line is for changes nothing. */
  lemma {:induction false} BumpAbsent(cart: seq<CartLine>, productId: int, partnerId: nat)
    requires forall j :: 0 <= j < |cart| ==> !Matches(cart[j], productId, partnerId)
    ensures Bump(cart, productId, partnerId) == cart
  {
    if |cart| > 0 {
      BumpAbsent(cart[1..], productId, partnerId);
    }
  }
}

=== FILE: checkout.dfy ===
/** Checkout from the cart page: the cart's lines are grouped by partner, one
    order request per partner is posted in turn, the whole cart is cleared
    after the first accepted request, and the first rejected request ends the
    loop. */
module Checkout {
  import opened Common
  import opened Errors
  import opened Model
  import opened Cart
  import opened CustomerApi

  // ---------------------------------------------------------------------------
  // Grouping
  // ---------------------------------------------------------------------------

  /** Strictly ascending, hence also free of duplicates. */
  predicate Ascending(s: seq<nat>)
  {
    forall i, j :: 0 <= i < j < |s| ==> s[i] < s[j]
  }

  /** Add `p` to an ascending sequence, keeping it ascending. */
  function InsertAscending(p: nat, s: seq<nat>): (r: seq<nat>)
    requires Ascending(s)
    ensures Ascending(r)
    ensures forall x :: x in r <==> x == p || x in s
  {
    if |s| == 0 then [p]
    else if p < s[0] then
      ConsAscending(p, s);
      [p] + s
    else if p == s[0] then s
    else
      AscendingTail(s);
      var rest := InsertAscending(p, s[1..]);
      assert rest[0] in rest;
      ConsAscending(s[0], rest);
      assert s == [s[0]] + s[1..];
      [s[0]] + rest
  }

  /** An element below the head of an ascending sequence can be put in front. */
  lemma ConsAscending(h: nat, s: seq<nat>)
    requires Ascending(s) && (|s| > 0 ==> h < s[0])
    ensures Ascending([h] + s)
  {
    var r := [h] + s;
    forall i, j | 0 <= i < j < |r| ensures r[i] < r[j] {
      assert r[j] == s[j - 1];
      if i > 0 {
        assert r[i] == s[i - 1];
      } else if j > 1 {
        assert s[0] < s[j - 1];
      }
    }
  }

  /** The tail of an ascending sequence is ascending, and misses the head. */
  lemma AscendingTail(s: seq<nat>)
    requires Ascending(s) && |s| > 0
    ensures Ascending(s[1..]) && s[0] !in s[1..]
  {
    forall i, j | 0 <= i < j < |s[1..]| ensures s[1..][i] < s[1..][j] {
      assert s[1..][i] == s[i + 1] && s[1..][j] == s[j + 1];
    }
    forall j | 0 <= j < |s[1..]| ensures s[1..][j] != s[0] {
      assert s[1..][j] == s[j + 1];
    }
  }

  /** Some line of the cart belongs to partner `p`. */
  predicate HasPartner(cart: seq<CartLine>, p: nat)
  {
    exists i :: 0 <= i < |cart| && cart[i].partnerId == p
  }

  /** The keys of the grouping object in the order `Object.entries` yields
      them: the partner ids are integer-like keys, which come out ascending. */
  function PartnerKeys(cart: seq<CartLine>): (ks: seq<nat>)
    ensures Ascending(ks)
    ensures forall p :: p in ks <==> HasPartner(cart, p)
  {
    if |cart| == 0 then []
    else
      var init := cart[..|cart| - 1];
      var ks := InsertAscending(cart[|cart| - 1].partnerId, PartnerKeys(init));
      assert forall p :: HasPartner(init, p) ==> HasPartner(cart, p) by {
        forall p | HasPartner(init, p) ensures HasPartner(cart, p) {
          var i :| 0 <= i < |init| && init[i].partnerId == p;
          assert cart[i] == init[i];
        }
      }
      assert forall p :: HasPartner(cart, p) ==> HasPartner(init, p) || p == cart[|cart| - 1].partnerId by {
        forall p | HasPartner(cart, p) ensures HasPartner(init, p) || p == cart[|cart| - 1].partnerId {
          var i :| 0 <= i < |cart| && cart[i].partnerId == p;
          if i < |cart| - 1 {
            assert init[i] == cart[i];
          }
        }
      }
      ks
  }

  /** The request line sent for a cart line: the price is the one the cart holds. */
  function ToItem(l: CartLine): ItemRequest
  {
    ItemRequest(l.product.id, l.quantity, l.product.price)
  }

  /** Every cart line as a request line, in cart order. */
  function Items(cart: seq<CartLine>): seq<ItemRequest>
  {
    if |cart| == 0 then [] else [ToItem(cart[0])] + Items(cart[1..])
  }

  /** `ordersByPartner[p]`: the request lines of partner `p`, in cart order. */
  function Group(cart: seq<CartLine>, p: nat): seq<ItemRequest>
  {
    if |cart| == 0 then []
    else (if cart[0].partnerId == p then [ToItem(cart[0])] else []) + Group(cart[1..], p)
  }

  /** The order requests, one per partner key. */
  function Requests(cart: seq<CartLine>): seq<OrderRequest>
  {
    var ks := PartnerKeys(cart);
    seq(|ks|, i requires 0 <= i < |ks| => OrderRequest(ks[i], Group(cart, ks[i])))
  }

  /** The request lines of a sequence of requests, concatenated. */
  function Flat(reqs: seq<OrderRequest>): seq<ItemRequest>
  {
    if |reqs| == 0 then [] else reqs[0].items + Flat(reqs[1..])
  }

  /** The groups for the keys `ks`, concatenated. */
  function Grouped(cart: seq<CartLine>, ks: seq<nat>): seq<ItemRequest>
  {
    if |ks| == 0 then [] else Group(cart, ks[0]) + Grouped(cart, ks[1..])
  }

  /** The sum of the groups' line totals. */
  function GroupedTotal(cart: seq<CartLine>, ks: seq<nat>): int
  {
    if |ks| == 0 then 0 else LineTotal(Group(cart, ks[0])) + GroupedTotal(cart, ks[1..])
  }

  /** A group of a partner that has a line in the cart is not empty. */
  lemma {:induction false} GroupNonEmpty(cart: seq<CartLine>, p: nat)
    requires HasPartner(cart, p)
    ensures |Group(cart, p)| > 0
  {
    if cart[0].partnerId != p {
      var i :| 0 <= i < |cart| && cart[i].partnerId == p;
      assert cart[1..][i - 1] == cart[i];
      GroupNonEmpty(cart[1..], p);
    }
  }

  /** The group of a cart with one more line in front. */
  lemma GroupCons(l: CartLine, rest: seq<CartLine>, k: nat)
    ensures Group([l] + rest, k) == (if l.partnerId == k then [ToItem(l)] else []) + Group(rest, k)
  {
    assert ([l] + rest)[1..] == rest;
  }

  /** Adding one line in front adds it to the grouped lines exactly when its
      partner is a key. */
  lemma {:induction false} GroupedCons(l: CartLine, rest: seq<CartLine>, ks: seq<nat>)
    requires Ascending(ks)
    ensures multiset(Grouped([l] + rest, ks))
            == multiset(Grouped(rest, ks)) + (if l.partnerId in ks then multiset{ToItem(l)} else multiset{})
  {
    if |ks| > 0 {
      AscendingTail(ks);
      GroupedCons(l, rest, ks[1..]);
      GroupCons(l, rest, ks[0]);
      GroupedConsHead(l, rest, ks);
      GroupedHead(rest, ks);
      InHeadOrTail(ks, l.partnerId);
    }
  }

  /** `Grouped` split at the first key. */
  lemma GroupedHead(cart: seq<CartLine>, ks: seq<nat>)
    requires |ks| > 0
    ensures multiset(Grouped(cart, ks)) == multiset(Group(cart, ks[0])) + multiset(Grouped(cart, ks[1..]))
  {
  }

  /** Membership in a non-empty sequence is membership at its head or in its tail. */
  lemma InHeadOrTail(ks: seq<nat>, p: nat)
    requires |ks| > 0
    ensures p in ks <==> p == ks[0] || p in ks[1..]
  {
    assert ks == [ks[0]] + ks[1..];
  }

  /** `Grouped` of a cart with one more line in front, split at the first key. */
  lemma GroupedConsHead(l: CartLine, rest: seq<CartLine>, ks: seq<nat>)
    requires |ks| > 0
    ensures multiset(Grouped([l] + rest, ks))
            == (if l.partnerId == ks[0] then multiset{ToItem(l)} else multiset{})
               + multiset(Group(rest, ks[0])) + multiset(Grouped([l] + rest, ks[1..]))
  {
    GroupCons(l, rest, ks[0]);
  }

  /** Adding one line in front adds its amount to the groups' total exactly
      when its partner is a key. */
  lemma {:induction false} GroupedTotalCons(l: CartLine, rest: seq<CartLine>, ks: seq<nat>)
    requires Ascending(ks)
    ensures GroupedTotal([l] + rest, ks)
            == GroupedTotal(rest, ks) + (if l.partnerId in ks then l.product.price * l.quantity else 0)
  {
    if |ks| > 0 {
      AscendingTail(ks);
      GroupedTotalCons(l, rest, ks[1..]);
      GroupCons(l, rest, ks[0]);
      InHeadOrTail(ks, l.partnerId);
      var head: seq<ItemRequest> := if l.partnerId == ks[0] then [ToItem(l)] else [];
      LineTotalAppend(head, Group(rest, ks[0]));
      assert LineTotal(head) == (if l.partnerId == ks[0] then l.product.price * l.quantity else 0) by {
        if l.partnerId == ks[0] {
          assert head == [] + [ToItem(l)];
          LineTotalAppend([], [ToItem(l)]);
        }
      }
    }
  }

  /** Grouping by keys that cover every partner of the cart, each once, is a
      partition: the grouped lines are the cart's lines rearranged, and their
      totals add up to the cart total. */
  lemma {:induction false} GroupedPartition(cart: seq<CartLine>, ks: seq<nat>)
    requires Ascending(ks)
    requires forall i :: 0 <= i < |cart| ==> cart[i].partnerId in ks
    ensures multiset(Grouped(cart, ks)) == multiset(Items(cart))
    ensures GroupedTotal(cart, ks) == Total(cart)
  {
    if |cart| == 0 {
      EmptyGroups(ks);
    } else {
      forall i | 0 <= i < |cart[1..]| ensures cart[1..][i].partnerId in ks {
        assert cart[1..][i] == cart[i + 1];
      }
      GroupedPartition(cart[1..], ks);
      ConsTail(cart);
      GroupedCons(cart[0], cart[1..], ks);
      GroupedTotalCons(cart[0], cart[1..], ks);
    }
  }

  /** A non-empty cart is its first line in front of the rest. */
  lemma ConsTail(cart: seq<CartLine>)
    requires |cart| > 0
    ensures cart == [cart[0]] + cart[1..]
  {
  }

  /** An empty cart has empty groups. */
  lemma {:induction false} EmptyGroups(ks: seq<nat>)
    ensures Grouped([], ks) == [] && GroupedTotal([], ks) == 0
  {
    if |ks| > 0 {
      EmptyGroups(ks[1..]);
    }
  }

  /** The requests are grouped per key. */
  lemma {:induction false} FlatRequests(cart: seq<CartLine>, ks: seq<nat>)
    ensures Flat(seq(|ks|, i requires 0 <= i < |ks| => OrderRequest(ks[i], Group(cart, ks[i])))) == Grouped(cart, ks)
  {
    var reqs := seq(|ks|, i requires 0 <= i < |ks| => OrderRequest(ks[i], Group(cart, ks[i])));
    if |ks| > 0 {
      FlatRequests(cart, ks[1..]);
      assert reqs[1..] == seq(|ks[1..]|, i requires 0 <= i < |ks[1..]| => OrderRequest(ks[1..][i], Group(cart, ks[1..][i])));
    }
  }

  /** The requests one checkout sends: one per partner of the cart, in
      ascending partner order, none of them empty, and together exactly the
      cart's lines (each with the price the cart holds). */
  lemma RequestsPartitionCart(cart: seq<CartLine>)
    ensures var reqs := Requests(cart);
            && (forall i, j :: 0 <= i < j < |reqs| ==> reqs[i].partnerId < reqs[j].partnerId)
            && (forall p :: (exists i :: 0 <= i < |reqs| && reqs[i].partnerId == p) <==> HasPartner(cart, p))
            && (forall i :: 0 <= i < |reqs| ==> |reqs[i].items| > 0)
            && multiset(Flat(reqs)) == multiset(Items(cart))
  {
    var ks := PartnerKeys(cart);
    var reqs := Requests(cart);
    forall i | 0 <= i < |reqs| ensures |reqs[i].items| > 0 {
      assert ks[i] in ks;
      GroupNonEmpty(cart, ks[i]);
    }
    forall p | HasPartner(cart, p) ensures exists i :: 0 <= i < |reqs| && reqs[i].partnerId == p {
      assert p in ks;
      var i :| 0 <= i < |ks| && ks[i] == p;
      assert reqs[i].partnerId == p;
    }
    forall i | 0 <= i < |cart| ensures cart[i].partnerId in ks {
      assert HasPartner(cart, cart[i].partnerId);
    }
    FlatRequests(cart, ks);
    GroupedPartition(cart, ks);
  }

  // ---------------------------------------------------------------------------
  // Submission
  // ---------------------------------------------------------------------------

  /** What the submission loop leaves: the database, the orders created in
      order, and the error of the request that stopped the loop, if any. */
  datatype Run = Run(store: Store, created: seq<Order>, failure: Option<ApiError>)

  /** `o` is the order created with id `id` for request `req` of `caller`,
      and it is stored under that id. */
  predicate PlacedFor(o: Order, id: nat, caller: User, req: OrderRequest, orders: map<nat, Order>)
  {
    && o.id == id
    && o.customerId == caller.id
    && o.partnerId == req.partnerId
    && o.totalAmount == LineTotal(req.items)
    && o.status == InQueue
    && id in orders && orders[id] == o
  }

  /** Order `i` of `created` was placed for request `i`, with id `firstId + i`. */
  predicate AllPlaced(created: seq<Order>, firstId: nat, caller: User, reqs: seq<OrderRequest>, orders: map<nat, Order>)
    decreases |created|
  {
    && |created| <= |reqs|
    && (|created| > 0 ==>
          && PlacedFor(created[0], firstId, caller, reqs[0], orders)
          && AllPlaced(created[1..], firstId + 1, caller, reqs[1..], orders))
  }

  /** `AllPlaced` grows by one order placed in front. */
  lemma AllPlacedCons(o: Order, firstId: nat, caller: User, reqs: seq<OrderRequest>, rest: seq<Order>,
                      orders: map<nat, Order>)
    requires |reqs| > 0 && PlacedFor(o, firstId, caller, reqs[0], orders)
    requires AllPlaced(rest, firstId + 1, caller, reqs[1..], orders)
    ensures AllPlaced([o] + rest, firstId, caller, reqs, orders)
  {
    assert ([o] + rest)[1..] == rest;
  }

  /** Every order `AllPlaced` lists is stored. */
  lemma {:induction false} AllPlacedStored(created: seq<Order>, firstId: nat, caller: User, reqs: seq<OrderRequest>,
                                           orders: map<nat, Order>)
    requires AllPlaced(created, firstId, caller, reqs, orders)
    ensures forall o :: o in created ==> o.id in orders && orders[o.id] == o
  {
    if |created| > 0 {
      AllPlacedStored(created[1..], firstId + 1, caller, reqs[1..], orders);
      assert forall o :: o in created ==> o == created[0] || o in created[1..];
    }
  }

  /** `AllPlaced` read at one position. */
  lemma {:induction false} AllPlacedAt(created: seq<Order>, firstId: nat, caller: User, reqs: seq<OrderRequest>,
                                       orders: map<nat, Order>, i: nat)
    requires AllPlaced(created, firstId, caller, reqs, orders) && i < |created|
    ensures i < |reqs| && PlacedFor(created[i], firstId + i, caller, reqs[i], orders)
  {
    if i > 0 {
      AllPlacedAt(created[1..], firstId + 1, caller, reqs[1..], orders, i - 1);
    }
  }

  /** What a run of the loop from database `st` over `reqs` guarantees; the
      contract of `Submit` spelled out as one predicate. */
  ghost predicate RunFrom(st: Store, caller: User, reqs: seq<OrderRequest>, r: Run)
  {
    && (r.failure.None? ==> |r.created| == |reqs|)
    && (r.failure.Some? ==> |r.created| < |reqs|)
    && AllPlaced(r.created, NextOrderId(st), caller, reqs, r.store.orders)
    && NextOrderId(r.store) == NextOrderId(st) + |r.created|
    && (forall k :: k in st.orders ==> k in r.store.orders && r.store.orders[k] == st.orders[k])
    && r.store.users == st.users && r.store.partners == st.partners && r.store.products == st.products
  }

  /** One accepted request in front of a run gives a run over one more request. */
  lemma SubmitStep(st: Store, caller: User, reqs: seq<OrderRequest>, o: Order, next: Store, rest: Run)
    requires |reqs| > 0
    requires next.orders == st.orders[NextOrderId(st) := o] && NextOrderId(next) == NextOrderId(st) + 1
    requires PlacedFor(o, NextOrderId(st), caller, reqs[0], next.orders)
    requires next.users == st.users && next.partners == st.partners && next.products == st.products
    requires RunFrom(next, caller, reqs[1..], rest)
    ensures RunFrom(st, caller, reqs, Run(rest.store, [o] + rest.created, rest.failure))
  {
    assert PlacedFor(o, NextOrderId(st), caller, reqs[0], rest.store.orders);
    AllPlacedCons(o, NextOrderId(st), caller, reqs, rest.created, rest.store.orders);
  }

  /** The `for ... of` loop: each request is posted and awaited in turn; the
      first rejection throws out of the loop and leaves the orders already
      created in place. `qr` gives the fresh token drawn for each order id. */
  function Submit(st: Store, caller: User, reqs: seq<OrderRequest>, qr: nat -> string, now: int): (r: Run)
    ensures r.failure.None? ==> |r.created| == |reqs|
    ensures r.failure.Some? ==> |r.created| < |reqs|
    ensures AllPlaced(r.created, NextOrderId(st), caller, reqs, r.store.orders)
    ensures NextOrderId(r.store) == NextOrderId(st) + |r.created|
    ensures forall k :: k in st.orders ==> k in r.store.orders && r.store.orders[k] == st.orders[k]
    ensures r.store.users == st.users && r.store.partners == st.partners && r.store.products == st.products
    decreases |reqs|
  {
    if |reqs| == 0 then Run(st, [], None)
    else
      match CreateOrder(st, caller, reqs[0], qr(NextOrderId(st)), now)
      case Err(e) => Run(st, [], Some(e))
      case Ok(c) =>
        var rest := Submit(c.store, caller, reqs[1..], qr, now);
        assert RunFrom(c.store, caller, reqs[1..], rest);
        SubmitStep(st, caller, reqs, c.order, c.store, rest);
        Run(rest.store, [c.order] + rest.created, rest.failure)
  }

  /** A run that stops early stops at the first rejected request: posting the
      next request against the final database gives the reported error. */
  lemma {:induction false} SubmitStopsAtRejection(st: Store, caller: User, reqs: seq<OrderRequest>, qr: nat -> string, now: int)
    ensures var r := Submit(st, caller, reqs, qr, now);
            r.failure.Some? ==>
              && |r.created| < |reqs|
              && CreateOrder(r.store, caller, reqs[|r.created|], qr(NextOrderId(r.store)), now) == Err(r.failure.value)
    decreases |reqs|
  {
    if |reqs| > 0 {
      var first := CreateOrder(st, caller, reqs[0], qr(NextOrderId(st)), now);
      if first.Ok? {
        var c := first.value;
        var rest := Submit(c.store, caller, reqs[1..], qr, now);
        SubmitStopsAtRejection(c.store, caller, reqs[1..], qr, now);
        if rest.failure.Some? {
          assert reqs[1 + |rest.created|] == reqs[1..][|rest.created|];
        }
      }
    }
  }

  /** What pressing the checkout button leads to. */
  datatype Outcome =
    | EmptyCart
      // the 'Корзина пуста' toast; nothing is sent
    | Submitted(store: Store, cart: seq<CartLine>, placed: Option<Order>, created: seq<Order>, failure: Option<ApiError>)
      // `placed` is the order shown on the success screen

  /** `handleCheckout`. Every accepted request sets the displayed order and
      clears the whole cart, so after one acceptance the cart is empty even if
      a later partner's request is rejected. */
  function HandleCheckout(st: Store, caller: User, cart: seq<CartLine>, qr: nat -> string, now: int): (r: Outcome)
    ensures r.EmptyCart? <==> |cart| == 0
    ensures r.Submitted? ==> (r.cart == [] <==> |r.created| > 0) && (|r.created| == 0 ==> r.cart == cart)
    ensures r.Submitted? ==> (r.placed.Some? <==> |r.created| > 0)
    ensures r.Submitted? && |r.created| > 0 ==> r.placed == Some(r.created[|r.created| - 1])
    ensures r.Submitted? ==> forall o :: o in r.created ==> o.id in r.store.orders && r.store.orders[o.id] == o
    ensures r.Submitted? ==> forall k :: k in st.orders ==> k in r.store.orders && r.store.orders[k] == st.orders[k]
  {
    if |cart| == 0 then EmptyCart
    else
      var run := Submit(st, caller, Requests(cart), qr, now);
      var n := |run.created|;
      CreatedStored(st, caller, Requests(cart), qr, now);
      Submitted(run.store, if n > 0 then [] else cart, if n > 0 then Some(run.created[n - 1]) else None,
                run.created, run.failure)
  }

  /** Every order a run reports created is in the run's final store. */
  lemma CreatedStored(st: Store, caller: User, reqs: seq<OrderRequest>, qr: nat -> string, now: int)
    ensures var run := Submit(st, caller, reqs, qr, now);
            forall o :: o in run.created ==> o.id in run.store.orders && run.store.orders[o.id] == o
  {
    var run := Submit(st, caller, reqs, qr, now);
    AllPlacedStored(run.created, NextOrderId(st), caller, reqs, run.store.orders);
  }

  /** The sum of the orders' totals. */
  function SumTotals(orders: seq<Order>): int
  {
    if |orders| == 0 then 0 else orders[0].totalAmount + SumTotals(orders[1..])
  }

  /** The totals of the orders created for the groups `ks` add up to the
      groups' line totals. */
  lemma {:induction false} SumTotalsOfGroups(created: seq<Order>, cart: seq<CartLine>, ks: seq<nat>)
    requires |created| == |ks|
    requires forall i :: 0 <= i < |ks| ==> created[i].totalAmount == LineTotal(Group(cart, ks[i]))
    ensures SumTotals(created) == GroupedTotal(cart, ks)
  {
    if |ks| > 0 {
      SumTotalsOfGroups(created[1..], cart, ks[1..]);
    }
  }

  /** When every request is accepted, order `i` is the one for the `i`-th
      partner key, with that group's total. */
  lemma AllAcceptedShape(st: Store, caller: User, cart: seq<CartLine>, qr: nat -> string, now: int)
    requires Submit(st, caller, Requests(cart), qr, now).failure.None?
    ensures var ks := PartnerKeys(cart);
            var created := Submit(st, caller, Requests(cart), qr, now).created;
            && |created| == |ks|
            && forall i :: 0 <= i < |ks| ==>
                 created[i].partnerId == ks[i] && created[i].totalAmount == LineTotal(Group(cart, ks[i]))
  {
    var ks := PartnerKeys(cart);
    var reqs := Requests(cart);
    var run := Submit(st, caller, reqs, qr, now);
    forall i | 0 <= i < |ks|
      ensures run.created[i].partnerId == ks[i] && run.created[i].totalAmount == LineTotal(Group(cart, ks[i]))
    {
      AllPlacedAt(run.created, NextOrderId(st), caller, reqs, run.store.orders, i);
    }
  }

  lemma AllAcceptedRun(st: Store, caller: User, cart: seq<CartLine>, qr: nat -> string, now: int)
    requires Submit(st, caller, Requests(cart), qr, now).failure.None?
    ensures var created := Submit(st, caller, Requests(cart), qr, now).created;
            && (forall p :: (exists o :: o in created && o.partnerId == p) <==> HasPartner(cart, p))
            && (forall i, j :: 0 <= i < j < |created| ==> created[i].partnerId < created[j].partnerId)
            && SumTotals(created) == Total(cart)
  {
    var ks := PartnerKeys(cart);
    var created := Submit(st, caller, Requests(cart), qr, now).created;
    AllAcceptedShape(st, caller, cart, qr, now);
    OnePerKeyCovers(cart, ks, created);
    OnePerKeyTotals(cart, ks, created);
  }

  /** Orders made one per partner key cover exactly the cart's partners. */
  lemma OnePerKeyCovers(cart: seq<CartLine>, ks: seq<nat>, created: seq<Order>)
    requires forall p :: p in ks <==> HasPartner(cart, p)
    requires |created| == |ks| && forall i :: 0 <= i < |ks| ==> created[i].partnerId == ks[i]
    ensures forall p :: (exists o :: o in created && o.partnerId == p) <==> HasPartner(cart, p)
  {
    forall p | HasPartner(cart, p) ensures exists o :: o in created && o.partnerId == p {
      var i :| 0 <= i < |ks| && ks[i] == p;
      assert created[i] in created;
    }
  }

  /** Orders made one per partner key, each with its group's total, add up
      to the cart total. */
  lemma OnePerKeyTotals(cart: seq<CartLine>, ks: seq<nat>, created: seq<Order>)
    requires Ascending(ks) && forall p :: p in ks <==> HasPartner(cart, p)
    requires |created| == |ks|
    requires forall i :: 0 <= i < |ks| ==> created[i].totalAmount == LineTotal(Group(cart, ks[i]))
    ensures SumTotals(created) == Total(cart)
  {
    forall i | 0 <= i < |cart| ensures cart[i].partnerId in ks {
      assert HasPartner(cart, cart[i].partnerId);
    }
    SumTotalsOfGroups(created, cart, ks);
    GroupedPartition(cart, ks);
  }

  /** A checkout in which every request is accepted empties the cart, and
      places one order per partner whose totals add up to the cart total. */
  lemma CheckoutAllAccepted(st: Store, caller: User, cart: seq<CartLine>, qr: nat -> string, now: int)
    requires var r := HandleCheckout(st, caller, cart, qr, now); r.Submitted? && r.failure.None?
    ensures var r := HandleCheckout(st, caller, cart, qr, now);
            && r.cart == []
            && (forall p :: (exists o :: o in r.created && o.partnerId == p) <==> HasPartner(cart, p))
            && (forall i, j :: 0 <= i < j < |r.created| ==> r.created[i].partnerId < r.created[j].partnerId)
            && SumTotals(r.created) == Total(cart)
  {
    AllAcceptedRun(st, caller, cart, qr, now);
    var r := HandleCheckout(st, caller, cart, qr, now);
    assert HasPartner(cart, cart[0].partnerId);
  }

  /** A checkout across several partners in which an earlier partner's
      request is accepted and a later one is rejected: the earlier order
      stays in the database, the error is reported, and the cart is emptied
      although some of its partners received no order, so their lines are
      gone from the cart without having been ordered. */
  lemma PartialCheckoutDropsLines(st: Store, caller: User, cart: seq<CartLine>, qr: nat -> string, now: int)
    requires var r := HandleCheckout(st, caller, cart, qr, now); r.Submitted? && r.failure.Some? && |r.created| > 0
    ensures var r := HandleCheckout(st, caller, cart, qr, now);
            && r.cart == []
            && r.placed.Some? && r.placed.value.id in r.store.orders
            && exists i :: 0 <= i < |cart| && forall o :: o in r.created ==> o.partnerId != cart[i].partnerId
  {
    var r := HandleCheckout(st, caller, cart, qr, now);
    var ks := PartnerKeys(cart);
    var reqs := Requests(cart);
    var run := Submit(st, caller, reqs, qr, now);
    var n := |r.created|;
    assert r.created == run.created && n < |ks|;
    var p := ks[n];
    assert p in ks;
    var i :| 0 <= i < |cart| && cart[i].partnerId == p;
    forall o | o in r.created ensures o.partnerId != p {
      var j :| 0 <= j < n && r.created[j] == o;
      AllPlacedAt(run.created, NextOrderId(st), caller, reqs, run.store.orders, j);
      assert o.partnerId == ks[j] < ks[n];
    }
    assert r.created[n - 1] in r.created;
  }
}

=== FILE: common.dfy ===
/** Failure-carrying wrappers and the partial-update patch shared by every module. */
module Common {

  /** A value that may be absent: a nullable column, an optional request field. */
  datatype Option<+T> = None | Some(value: T)

  /** The outcome of a request handler: a value, or the error the handler raises. */
  datatype Result<+T, +E> = Ok(value: T) | Err(error: E)

  /** One field of a partial-update request: either left out of the request
      body (`exclude_unset` drops it) or present with a new value. */
  datatype Patch<+T> = Keep | Set(value: T)

  /** The value a column holds after the patch is applied. */
  function Apply<T>(p: Patch<T>, current: T): (r: T)
    ensures p.Keep? ==> r == current
    ensures p.Set? ==> r == p.value
  {
    match p
    case Keep => current
    case Set(v) => v
  }

  /** The field is present in the request with an explicit JSON `null`; the
      update schemas declare every field `Optional`, so this passes validation. */
  predicate SetsNull<T>(p: Patch<Option<T>>)
  {
    p.Set? && p.value.None?
  }

  /** The value a NOT NULL column holds after a patch that does not null it. */
  function ApplyRequired<T>(p: Patch<Option<T>>, current: T): (r: T)
    requires !SetsNull(p)
    ensures p.Keep? ==> r == current
    ensures p.Set? ==> p.value == Some(r)
  {
    match p
    case Keep => current
    case Set(v) => v.value
  }

  /** True when `prefix` is an initial segment of `s` (JavaScript `startsWith`). */
  predicate StartsWith(s: string, prefix: string)
  {
    |prefix| <= |s| && s[..|prefix|] == prefix
  }
}

=== FILE: customer.dfy ===
/** The customer-facing router: catalog filters, order creation and the
    customer's own order reads. */
module CustomerApi {
  import opened Common
  import opened Errors
  import opened Model

  // ---------------------------------------------------------------------------
  // Catalog filters
  // ---------------------------------------------------------------------------

  /** The optional `partner_id` query parameter restricts a listing only when it
      is truthy: an absent parameter and `0` both mean "every partner". */
  predicate RestrictsTo(filter: Option<int>, partnerId: nat)
  {
    filter.None? || filter.value == 0 || partnerId == filter.value
  }

  /** `GET /products`: the available products, of one partner when a non-zero
      `partner_id` is given. */
  function GetProducts(products: map<nat, Product>, filter: Option<int>): (r: set<Product>)
    ensures forall p :: p in r ==> p in products.Values && Available(p)
    ensures forall p :: p in r && filter.Some? && filter.value != 0 ==> p.partnerId == filter.value
    ensures forall k :: k in products && Available(products[k]) && RestrictsTo(filter, products[k].partnerId) ==> products[k] in r
  {
    set k | k in products && Available(products[k]) && RestrictsTo(filter, products[k].partnerId) :: products[k]
  }

  /** A promotion is still running at `now` when it has no expiry or expires later. */
  predicate Running(p: Promotion, now: int)
  {
    p.expiresAt.None? || p.expiresAt.value > now
  }

  /** `GET /promotions`: the active promotions that have not expired at `now`,
      of one partner when a non-zero `partner_id` is given. */
  function GetPromotions(promotions: map<nat, Promotion>, filter: Option<int>, now: int): (r: set<Promotion>)
    ensures forall p :: p in r ==> p in promotions.Values && Active(p)
    ensures forall p :: p in r ==> p.expiresAt.None? || p.expiresAt.value > now
    ensures forall p :: p in r && filter.Some? && filter.value != 0 ==> p.partnerId == filter.value
    ensures forall k ::
              (k in promotions && Active(promotions[k]) && RestrictsTo(filter, promotions[k].partnerId)
               && Running(promotions[k], now)) ==> promotions[k] in r
  {
    set k | k in promotions && Active(promotions[k]) && RestrictsTo(filter, promotions[k].partnerId)
              && Running(promotions[k], now) :: promotions[k]
  }

  /** A `partner_id` of 0 is falsy and so filters nothing, and any filter only
      narrows the unfiltered listing. */
  lemma ZeroPartnerFilterIsNoFilter(products: map<nat, Product>, promotions: map<nat, Promotion>, p: int, now: int)
    ensures GetProducts(products, Some(0)) == GetProducts(products, None)
    ensures GetPromotions(promotions, Some(0), now) == GetPromotions(promotions, None, now)
    ensures GetProducts(products, Some(p)) <= GetProducts(products, None)
    ensures GetPromotions(promotions, Some(p), now) <= GetPromotions(promotions, None, now)
  {
  }

  // ---------------------------------------------------------------------------
  // Order creation
  // ---------------------------------------------------------------------------

  /** One line of an order request; `price` is whatever the client sent. */
  datatype ItemRequest = ItemRequest(productId: nat, quantity: int, price: int)

  datatype OrderRequest = OrderRequest(partnerId: nat, items: seq<ItemRequest>)

  /** A created order, the store after the commit, and who is notified. */
  datatype Created = Created(store: Store, order: Order, notify: Recipients)

  /** The three checks made on one request line, in the order they are made. */
  function ItemError(products: map<nat, Product>, partnerId: nat, it: ItemRequest): (r: Option<ApiError>)
    ensures r.None? <==> it.productId in products && products[it.productId].partnerId == partnerId
                         && Available(products[it.productId])
  {
    if it.productId !in products then Some(ProductNotFound(it.productId))
    else if products[it.productId].partnerId != partnerId then Some(ProductOfOtherPartner)
    else if !Available(products[it.productId]) then Some(ProductUnavailable(it.productId))
    else None
  }

  /** The error of the first failing line, in input order. */
  function FirstItemError(products: map<nat, Product>, partnerId: nat, items: seq<ItemRequest>): (r: Option<ApiError>)
    ensures r.None? <==> forall i :: 0 <= i < |items| ==> ItemError(products, partnerId, items[i]).None?
    ensures r.Some? ==> exists i :: 0 <= i < |items| && r == ItemError(products, partnerId, items[i])
                          && forall j :: 0 <= j < i ==> ItemError(products, partnerId, items[j]).None?
  {
    if |items| == 0 then None
    else match ItemError(products, partnerId, items[0])
      case Some(e) => Some(e)
      case None =>
        var rest := FirstItemError(products, partnerId, items[1..]);
        assert forall i :: 1 <= i < |items| ==> items[i] == items[1..][i - 1];
        rest
  }

  /** The sum of client price times quantity over the lines, accumulated from the left. */
  function LineTotal(items: seq<ItemRequest>): int
  {
    if |items| == 0 then 0
    else LineTotal(items[..|items| - 1]) + items[|items| - 1].price * items[|items| - 1].quantity
  }

  /** The total of a concatenation is the sum of the totals. */
  lemma {:induction false} LineTotalAppend(a: seq<ItemRequest>, b: seq<ItemRequest>)
    ensures LineTotal(a + b) == LineTotal(a) + LineTotal(b)
    decreases |b|
  {
    if |b| == 0 {
      assert a + b == a;
    } else {
      LineTotalAppend(a, b[..|b| - 1]);
      assert (a + b)[..|a + b| - 1] == a + b[..|b| - 1];
    }
  }

  /** The total is accumulated line by line, exactly as the handler's loop does. */
  method AccumulateTotal(items: seq<ItemRequest>) returns (total: int)
    ensures total == LineTotal(items)
  {
    total := 0;
    var i := 0;
    while i < |items|
      invariant 0 <= i <= |items|
      invariant total == LineTotal(items[..i])
    {
      assert items[..i + 1][..i] == items[..i];
      total := total + items[i].price * items[i].quantity;
      i := i + 1;
    }
    assert items[..|items|] == items;
  }

  /** `k` is one of the `n` keys starting at `base`. */
  predicate InRange(k: nat, base: nat, n: nat)
  {
    base <= k < base + n
  }

  /** The `n` consecutive keys starting at `base`. */
  function KeyRange(base: nat, n: nat): set<nat>
  {
    set k: nat | base <= k < base + n && InRange(k, base, n)
  }

  /** The item rows written for a request, numbered from `base`. */
  function NewItems(reqs: seq<ItemRequest>, orderId: nat, base: nat): (m: map<nat, OrderItem>)
    ensures forall i :: 0 <= i < |reqs| ==>
              (base + i in m && m[base + i] == OrderItem(base + i, orderId, reqs[i].productId, reqs[i].quantity, reqs[i].price))
    ensures forall k :: k in m ==> base <= k < base + |reqs| && m[k].orderId == orderId && m[k].id == k
  {
    map k: nat | base <= k < base + |reqs| && InRange(k, base, |reqs|) ::
      OrderItem(k, orderId, reqs[k - base].productId, reqs[k - base].quantity, reqs[k - base].price)
  }

  /** Whether some stored order already carries the token. */
  predicate QrTaken(orders: map<nat, Order>, qr: string)
  {
    exists k :: k in orders && orders[k].qrCode == Some(qr)
  }

  /** `POST /orders`. The caller must be a customer, the partner must exist,
      and every line must name an available product of that partner; the
      first failing check decides the error and nothing is written. On
      success one order row in `in_queue` and one item row per line are
      committed together, under the ids SQLite hands out next; `qr` is the
      fresh token and `now` the clock. */
  function CreateOrder(st: Store, caller: User, req: OrderRequest, qr: string, now: int): (r: Result<Created, ApiError>)
    ensures caller.userType != Customer ==> r == Err(OnlyCustomersCreate)
    ensures caller.userType == Customer && req.partnerId !in st.partners ==> r == Err(PartnerNotFound)
    ensures caller.userType == Customer && req.partnerId in st.partners
            && FirstItemError(st.products, req.partnerId, req.items).Some?
            ==> r == Err(FirstItemError(st.products, req.partnerId, req.items).value)
    ensures r.Ok? <==>
              && caller.userType == Customer && req.partnerId in st.partners
              && (forall i :: 0 <= i < |req.items| ==> ItemError(st.products, req.partnerId, req.items[i]).None?)
              && !QrTaken(st.orders, qr)
    ensures r.Ok? ==>
              var o := r.value.order;
              && o.id == NextOrderId(st)
              && o.status == InQueue
              && o.customerId == caller.id
              && o.partnerId == req.partnerId
              && o.totalAmount == LineTotal(req.items)
              && o.qrCode == Some(qr)
              && o.createdAt == now
    ensures r.Ok? ==> r.value.store.orders == st.orders[NextOrderId(st) := r.value.order]
    ensures r.Ok? ==> NextOrderId(r.value.store) == NextOrderId(st) + 1
    ensures r.Ok? ==> r.value.store.items == st.items + NewItems(req.items, NextOrderId(st), NextItemId(st))
    ensures r.Ok? ==> NextItemId(r.value.store) == NextItemId(st) + |req.items|
    ensures r.Ok? ==> r.value.notify == Recipients(caller.id, st.partners[req.partnerId].userId)
    ensures r.Ok? ==> && r.value.store.users == st.users && r.value.store.partners == st.partners
                      && r.value.store.products == st.products && r.value.store.promotions == st.promotions
  {
    if caller.userType != Customer then Err(OnlyCustomersCreate)
    else if req.partnerId !in st.partners then Err(PartnerNotFound)
    else match FirstItemError(st.products, req.partnerId, req.items)
      case Some(e) => Err(e)
      case None =>
        if QrTaken(st.orders, qr) then Err(UniqueViolation)
        else
          var oid := NextOrderId(st);
          var order := Order(oid, caller.id, req.partnerId, InQueue, LineTotal(req.items), Some(qr), now);
          var items := NewItems(req.items, oid, NextItemId(st));
          var st' := st.(orders := st.orders[oid := order], items := st.items + items);
          NewRowsAdvanceIds(st, req.items, order);
          Ok(Created(st', order, Recipients(caller.id, st.partners[req.partnerId].userId)))
  }

  /** After the order and its items are added, the next order id is one
      further on and the next item id one further per line. */
  lemma NewRowsAdvanceIds(st: Store, reqs: seq<ItemRequest>, order: Order)
    ensures NextRowId(st.orders[NextOrderId(st) := order].Keys) == NextOrderId(st) + 1
    ensures NextRowId((st.items + NewItems(reqs, NextOrderId(st), NextItemId(st))).Keys) == NextItemId(st) + |reqs|
  {
    InsertAdvancesId(st.orders, order);
    AppendAdvancesId(st.items, NewItems(reqs, NextOrderId(st), NextItemId(st)), |reqs|);
  }

  /** Inserting one row under the next id moves the next id on by one. */
  lemma InsertAdvancesId(orders: map<nat, Order>, o: Order)
    ensures NextRowId(orders[NextRowId(orders.Keys) := o].Keys) == NextRowId(orders.Keys) + 1
  {
    var b := NextRowId(orders.Keys);
    assert orders[b := o].Keys == orders.Keys + {b};
    NextRowIdAfter(orders.Keys, {b}, 1);
  }

  /** Adding `n` item rows numbered from the next id on moves it on by `n`. */
  lemma AppendAdvancesId(items: map<nat, OrderItem>, added: map<nat, OrderItem>, n: nat)
    requires forall k :: k in added ==> NextRowId(items.Keys) <= k < NextRowId(items.Keys) + n
    requires n > 0 ==> NextRowId(items.Keys) + n - 1 in added
    ensures NextRowId((items + added).Keys) == NextRowId(items.Keys) + n
  {
    assert (items + added).Keys == items.Keys + added.Keys;
    NextRowIdAfter(items.Keys, added.Keys, n);
  }

  /** `KeyRange(base, n)` has `n` elements. */
  lemma {:induction false} RangeSize(base: nat, n: nat)
    ensures |KeyRange(base, n)| == n
  {
    if n > 0 {
      RangeSize(base, n - 1);
      assert KeyRange(base, n) == KeyRange(base, n - 1) + {base + n - 1};
    }
  }

  /** A successful creation gives the new order exactly one item per request
      line and no other. */
  lemma CreateOrderItemsExact(st: Store, caller: User, req: OrderRequest, qr: string, now: int)
    requires ItemsLinked(st)
    requires CreateOrder(st, caller, req, qr, now).Ok?
    ensures var c := CreateOrder(st, caller, req, qr, now).value;
            && c.order.id !in st.orders
            && ItemsOf(c.store.items, c.order.id) == KeyRange(NextItemId(st), |req.items|)
            && |ItemsOf(c.store.items, c.order.id)| == |req.items|
  {
    var c := CreateOrder(st, caller, req, qr, now).value;
    var base := NextItemId(st);
    var oid := NextOrderId(st);
    NewItemsCover(req.items, oid, base);
    NewOrderItems(st.items, st.orders, NewItems(req.items, oid, base), oid, base, |req.items|);
    RangeSize(base, |req.items|);
  }

  /** Every key of the range holds one of the new item rows. */
  lemma NewItemsCover(reqs: seq<ItemRequest>, oid: nat, base: nat)
    ensures forall k: nat :: InRange(k, base, |reqs|) ==> k in NewItems(reqs, oid, base)
  {
    forall k: nat | InRange(k, base, |reqs|) ensures k in NewItems(reqs, oid, base) {
      assert base + (k - base) in NewItems(reqs, oid, base);
    }
  }

  /** Items numbered `base` to `base + n - 1` for an order no existing item
      can point at are exactly that order's items. */
  lemma NewOrderItems(items: map<nat, OrderItem>, orders: map<nat, Order>, added: map<nat, OrderItem>,
                      oid: nat, base: nat, n: nat)
    requires forall k :: k in items ==> items[k].orderId in orders
    requires oid !in orders
    requires forall k :: k in added ==> base <= k < base + n && added[k].orderId == oid
    requires forall k: nat :: InRange(k, base, n) ==> k in added
    ensures ItemsOf(items + added, oid) == KeyRange(base, n)
  {
    forall k | k in KeyRange(base, n) ensures k in ItemsOf(items + added, oid) {
      assert InRange(k, base, n);
    }
    forall k | k in ItemsOf(items + added, oid) ensures k in KeyRange(base, n) {
      assert InRange(k, base, n);
    }
  }

  /** A successful creation keeps every database constraint: the new rows sit
      under their own keys, the new token is unique, and every item points at
      an existing order. */
  lemma CreateOrderValid(st: Store, caller: User, req: OrderRequest, qr: string, now: int)
    requires Valid(st)
    requires CreateOrder(st, caller, req, qr, now).Ok?
    ensures Valid(CreateOrder(st, caller, req, qr, now).value.store)
  {
    var c := CreateOrder(st, caller, req, qr, now).value;
    var st' := c.store;
    var oid := c.order.id;
    var added := NewItems(req.items, oid, NextItemId(st));
    MergeItems(st.items, added, NextItemId(st), |req.items|, st'.orders, oid);
    QrInsertUnique(st.orders, oid, c.order);
  }

  /** Adding item rows numbered from `base` for order `oid` to rows below
      `base` keeps every row under its own key, below `base + n`, and
      pointing at an existing order. */
  lemma MergeItems(items: map<nat, OrderItem>, added: map<nat, OrderItem>, base: nat, n: nat,
                   orders: map<nat, Order>, oid: nat)
    requires forall k :: k in items ==> items[k].id == k && k < base && items[k].orderId in orders
    requires forall k :: k in added ==> base <= k < base + n && added[k].id == k && added[k].orderId == oid
    requires oid in orders
    ensures forall k :: k in items + added ==>
              (items + added)[k].id == k && k < base + n && (items + added)[k].orderId in orders
  {
  }

  /** Inserting an order whose token no stored order carries, under an
      unused key, keeps tokens unique. */
  lemma QrInsertUnique(orders: map<nat, Order>, k: nat, o: Order)
    requires QrCodesUnique(orders) && k !in orders
    requires o.qrCode.Some? && !QrTaken(orders, o.qrCode.value)
    ensures QrCodesUnique(orders[k := o])
  {
    var orders' := orders[k := o];
    forall a, b | a in orders' && b in orders' && a != b && orders'[a].qrCode.Some?
      ensures orders'[a].qrCode != orders'[b].qrCode
    {
      if a == k {
        assert b in orders;
      } else if b == k {
        assert orders[a].qrCode == orders'[a].qrCode;
      }
    }
  }

  /** The total depends only on what the client sent: re-pricing the catalog
      changes neither whether the order is accepted nor its total. */
  lemma TotalIgnoresCatalogPrice(st: Store, catalog: map<nat, Product>, caller: User, req: OrderRequest, qr: string, now: int)
    requires catalog.Keys == st.products.Keys
    requires forall k :: k in catalog ==> catalog[k] == st.products[k].(price := catalog[k].price)
    ensures var a := CreateOrder(st, caller, req, qr, now);
            var b := CreateOrder(st.(products := catalog), caller, req, qr, now);
            && a.Ok? == b.Ok?
            && (a.Ok? ==> a.value.order == b.value.order)
  {
    var a := CreateOrder(st, caller, req, qr, now);
    var b := CreateOrder(st.(products := catalog), caller, req, qr, now);
    forall i | 0 <= i < |req.items|
      ensures ItemError(st.products, req.partnerId, req.items[i]) == ItemError(catalog, req.partnerId, req.items[i])
    {
    }
  }

  // ---------------------------------------------------------------------------
  // Reading orders
  // ---------------------------------------------------------------------------

  /** `GET /orders/{id}`: a missing order is 404, another customer's is 403,
      and one that fails `OrderResponse` validation is answered 500. */
  function GetOrder(st: Store, caller: User, orderId: nat): (r: Result<Order, ApiError>)
    ensures orderId !in st.orders ==> r == Err(CustomerOrderNotFound)
    ensures orderId in st.orders && st.orders[orderId].customerId != caller.id ==> r == Err(NotYourOrder)
    ensures (orderId in st.orders && st.orders[orderId].customerId == caller.id
             && !OrderSerialises(st, st.orders[orderId])) ==> r == Err(ResponseInvalid)
    ensures r.Ok? <==> orderId in st.orders && st.orders[orderId].customerId == caller.id
                       && OrderSerialises(st, st.orders[orderId])
    ensures r.Ok? ==> r.value == st.orders[orderId]
  {
    if orderId !in st.orders then Err(CustomerOrderNotFound)
    else if st.orders[orderId].customerId != caller.id then Err(NotYourOrder)
    else if !OrderSerialises(st, st.orders[orderId]) then Err(ResponseInvalid)
    else Ok(st.orders[orderId])
  }

  /** `GET /orders`: a customer's own orders, newest first; other callers get
      403. The list is validated as a whole, so one order that fails
      `OrderResponse` validation turns the whole reply into a 500. */
  method GetMyOrders(st: Store, caller: User) returns (r: Result<seq<Order>, ApiError>)
    requires forall k :: k in st.orders ==> st.orders[k].id == k
    ensures caller.userType != Customer <==> r == Err(OnlyCustomersView)
    ensures caller.userType == Customer ==>
              (r.Ok? <==> forall o :: o in st.orders.Values && o.customerId == caller.id ==> OrderSerialises(st, o))
    ensures caller.userType == Customer && r.Err? ==> r.error == ResponseInvalid
    ensures r.Ok? ==> NewestFirst(r.value) && DistinctIds(r.value)
    ensures r.Ok? ==> forall o :: o in r.value <==> o in st.orders.Values && o.customerId == caller.id
    ensures r.Ok? ==> forall o :: o in r.value ==> GetOrder(st, caller, o.id) == Ok(o)
    ensures r.Ok? ==> forall k :: k in st.orders ==> (GetOrder(st, caller, k).Ok? <==> st.orders[k] in r.value)
  {
    if caller.userType != Customer {
      return Err(OnlyCustomersView);
    }
    var listing := ListNewestFirst(st.orders, ByCustomer(caller.id));
    if forall o :: o in listing ==> OrderSerialises(st, o) {
      r := Ok(listing);
    } else {
      r := Err(ResponseInvalid);
    }
  }
}

=== FILE: errors.dfy ===
/** The HTTP errors the backend routers raise, one constructor per raise site,
    with the status code each is raised with. */
module Errors {

  datatype ApiError =
      // customer router
    | OnlyCustomersCreate        // 403 "Only customers can create orders"
    | OnlyCustomersView          // 403 "Only customers can view orders"
    | PartnerNotFound            // 404 "Partner not found"
    | ProductNotFound(productId: nat)  // 404 "Product {id} not found"
    | ProductOfOtherPartner      // 400 "Product does not belong to this partner"
    | ProductUnavailable(productId: nat)  // 400 "Product {name} is not available"
    | CustomerOrderNotFound      // 404 "Order not found"
    | NotYourOrder               // 403 "Not your order"
      // partner router
    | OnlyPartners               // 403 "Only partners can access this"
    | ProfileNotFound            // 404 "Partner profile not found"
    | OrderNotFound              // 404 "Order not found"
    | OnlyCompletedDeletable     // 400 "Can only delete completed orders"
    | PartnerProductNotFound     // 404 "Product not found"
    | PromotionNotFound          // 404 "Promotion not found"
      // auth router
    | EmailRegistered            // 400 "Email already registered"
    | UsernameTaken              // 400 "Username already taken"
    | HashingFailed              // 500 "Password hashing failed"
    | OnlyPartnersCreateProfile  // 403 "Only partners can create partner profiles"
    | ProfileExists              // 400 "Partner profile already exists"
      // uploads router
    | InvalidFileType            // 400 "Invalid file type. ..."
    | SaveFailed                 // 500 "Error saving file: ..."
      // database
    | UniqueViolation            // a unique constraint rejected the commit
    | NotNullViolation           // a NOT NULL column rejected the commit
      // framework
    | ResponseInvalid            // 500: the reply fails its `response_model` validation

  /** The HTTP status code the error is raised with. */
  function StatusCode(e: ApiError): (code: nat)
    ensures code in {400, 403, 404, 500}
  {
    match e
    case OnlyCustomersCreate | OnlyCustomersView | NotYourOrder | OnlyPartners | OnlyPartnersCreateProfile => 403
    case PartnerNotFound | ProductNotFound(_) | CustomerOrderNotFound | ProfileNotFound | OrderNotFound
      | PartnerProductNotFound | PromotionNotFound => 404
    case ProductOfOtherPartner | ProductUnavailable(_) | OnlyCompletedDeletable | EmailRegistered
      | UsernameTaken | ProfileExists | InvalidFileType => 400
    case HashingFailed | SaveFailed | UniqueViolation | NotNullViolation | ResponseInvalid => 500
  }
}

=== FILE: frontend.dfy ===
/** Two client-side decisions: how an image URL returned by the backend is
    turned into one the browser can load, and which view a route shows for
    the signed-in user. */
module Frontend {
  import opened Common
  import opened Model
  import opened Uploads

  // ---------------------------------------------------------------------------
  // Image URLs
  // ---------------------------------------------------------------------------

  /** The backend address used when the build sets none. */
  const DefaultApiUrl := "http://localhost:8000"

  /** `API_URL`: the configured value, unless it is missing or empty. */
  function ApiUrl(env: Option<string>): (url: string)
    ensures env.Some? && env.value != "" ==> url == env.value
    ensures env.None? || env.value == "" ==> url == DefaultApiUrl
    ensures url != ""
  {
    if env.Some? && env.value != "" then env.value else DefaultApiUrl
  }

  /** `getImageUrl`: nothing for a missing or empty URL, the backend address
      in front of an uploads path, any other URL as it is. */
  function GetImageUrl(url: Option<string>, apiUrl: string): (r: Option<string>)
    ensures url.None? || url.value == "" ==> r.None?
    ensures url.Some? && StartsWith(url.value, UploadsPrefix) ==> r == Some(apiUrl + url.value)
    ensures url.Some? && url.value != "" && !StartsWith(url.value, UploadsPrefix) ==> r == url
  {
    if url.None? || url.value == "" then None
    else if StartsWith(url.value, UploadsPrefix) then Some(apiUrl + url.value)
    else url
  }

  /** Applying `getImageUrl` twice is applying it once, provided the backend
      address neither starts with the uploads path nor is that path without
      its final slash. */
  lemma GetImageUrlIdempotent(url: Option<string>, apiUrl: string)
    requires !StartsWith(apiUrl, UploadsPrefix) && apiUrl != "/api/uploads"
    ensures GetImageUrl(GetImageUrl(url, apiUrl), apiUrl) == GetImageUrl(url, apiUrl)
  {
    if url.Some? && StartsWith(url.value, UploadsPrefix) {
      if apiUrl == "" {
        assert apiUrl + url.value == url.value;
      } else {
        PrefixedNotUploads(url.value, apiUrl);
      }
    }
  }

  /** The uploads path put behind a non-empty address that is neither the
      uploads path nor its proper extension never starts with the uploads
      path again. */
  lemma PrefixedNotUploads(u: string, apiUrl: string)
    requires StartsWith(u, UploadsPrefix)
    requires apiUrl != "" && !StartsWith(apiUrl, UploadsPrefix) && apiUrl != "/api/uploads"
    ensures !StartsWith(apiUrl + u, UploadsPrefix)
  {
    var r := apiUrl + u;
    var k := |apiUrl|;
    if k >= |UploadsPrefix| {
      assert r[..|UploadsPrefix|] == apiUrl[..|UploadsPrefix|];
    } else if k == 4 {
      assert r[5] == u[1] != UploadsPrefix[5];
    } else if k == 12 {
      assert r[..12] == apiUrl != UploadsPrefix[..12];
    } else {
      assert r[k] == u[0] != UploadsPrefix[k];
    }
  }

  /** The idempotence condition cannot be dropped: with the backend address
      `/api/uploads` a second application adds the address once more. */
  lemma GetImageUrlNotIdempotentUnderUploadsPath()
    ensures var u := Some("/api/uploads/x.png");
            GetImageUrl(GetImageUrl(u, "/api/uploads"), "/api/uploads") != GetImageUrl(u, "/api/uploads")
  {
    var u := "/api/uploads/x.png";
    var once := "/api/uploads" + u;
    assert StartsWith(u, UploadsPrefix);
    assert StartsWith(once, UploadsPrefix) by {
      assert once[..13] == UploadsPrefix;
    }
    assert |"/api/uploads" + once| != |once|;
  }

  /** The URL an upload returns is loaded from the backend address in front of it. */
  lemma UploadedImageUrl(filename: string, uuid: string, writeOk: bool, env: Option<string>)
    requires UploadImage(filename, uuid, writeOk).Ok?
    ensures var url := UploadImage(filename, uuid, writeOk).value.url;
            GetImageUrl(Some(url), ApiUrl(env)) == Some(ApiUrl(env) + url)
  {
    var url := UploadImage(filename, uuid, writeOk).value.url;
    assert url[..|UploadsPrefix|] == UploadsPrefix;
  }

  // ---------------------------------------------------------------------------
  // Routing
  // ---------------------------------------------------------------------------

  /** The signed-in user as the client keeps it; `user_type` is whatever
      string was stored. */
  datatype ClientUser = ClientUser(userType: string)

  /** What a route renders. */
  datatype View = Loading | Redirect(to: string) | Children

  /** The home route of a user type: customers go to `/customer`, anything
      else to `/partner`. */
  function HomeOf(userType: string): (path: string)
    ensures path == "/customer" <==> userType == "customer"
    ensures path == "/customer" || path == "/partner"
  {
    if userType == "customer" then "/customer" else "/partner"
  }

  /** `ProtectedRoute`: a placeholder while the session loads, the login page
      without a user, the user's home when a required type (an empty one
      counts as none) does not match, otherwise the protected page. */
  function ProtectedRoute(loading: bool, user: Option<ClientUser>, required: Option<string>): (v: View)
    ensures loading ==> v == Loading
    ensures !loading && user.None? ==> v == Redirect("/login")
    ensures v == Children <==> !loading && user.Some? && (required.None? || required.value == "" || user.value.userType == required.value)
    ensures v.Redirect? && user.Some? ==> v == Redirect(HomeOf(user.value.userType))
  {
    if loading then Loading
    else if user.None? then Redirect("/login")
    else if required.Some? && required.value != "" && user.value.userType != required.value then
      Redirect(HomeOf(user.value.userType))
    else Children
  }

  /** The user type each protected area requires. */
  function RequiredAt(path: string): Option<string>
  {
    if path == "/customer" then Some("customer")
    else if path == "/partner" then Some("partner")
    else None
  }

  /** The public routes `/`, `/login` and `/register`: the page for a visitor,
      the home route for a signed-in user. */
  function PublicRoute(user: Option<ClientUser>): (v: View)
    ensures user.None? <==> v == Children
    ensures user.Some? ==> v == Redirect(HomeOf(user.value.userType))
  {
    if user.None? then Children else Redirect(HomeOf(user.value.userType))
  }

  /** For a user of either server-side type, a redirect from a protected or a
      public route lands on a route that shows its page: one redirect
      settles. */
  lemma RedirectsSettle(t: UserType, path: string)
    ensures var user := Some(ClientUser(UserTypeValue(t)));
            var v := ProtectedRoute(false, user, RequiredAt(path));
            v.Redirect? ==> ProtectedRoute(false, user, RequiredAt(v.to)) == Children
    ensures var user := Some(ClientUser(UserTypeValue(t)));
            ProtectedRoute(false, user, RequiredAt(PublicRoute(user).to)) == Children
  {
  }

  /** A stored user whose type is neither `customer` nor `partner` is sent
      from `/partner` to `/partner` again, without end. */
  lemma UnknownTypeLoops(userType: string)
    requires userType != "customer" && userType != "partner"
    ensures ProtectedRoute(false, Some(ClientUser(userType)), RequiredAt("/partner")) == Redirect("/partner")
  {
  }
}

=== FILE: models.dfy ===
/** The relational data model of the marketplace backend: the two enums, one
    record per table, the store as maps from primary key to row, the
    integrity constraints the database enforces, and the cascade rules of the
    ORM relationships. */
module Model {
  import opened Common
  import opened Errors

  // ---------------------------------------------------------------------------
  // Enumerations
  // ---------------------------------------------------------------------------

  datatype UserType = Customer | PartnerUser

  /** The string a user type is serialised as in JSON. (The enum column
      itself holds the member name, `CUSTOMER` or `PARTNER`.) */
  function UserTypeValue(t: UserType): (v: string)
    ensures v == "customer" || v == "partner"
    ensures (v == "customer") <==> t.Customer?
  {
    match t
    case Customer => "customer"
    case PartnerUser => "partner"
  }

  datatype OrderStatus = InQueue | InProcess | Ready | Completed | Cancelled

  /** The five serialised status values. */
  const StatusValues: set<string> := {"in_queue", "in_process", "ready", "completed", "cancelled"}

  /** The string a status is serialised as in JSON and sent over the
      websocket. (The enum column itself holds the member name.) */
  function StatusValue(s: OrderStatus): (v: string)
    ensures v in StatusValues
  {
    match s
    case InQueue => "in_queue"
    case InProcess => "in_process"
    case Ready => "ready"
    case Completed => "completed"
    case Cancelled => "cancelled"
  }

  /** Reading a serialised status back; anything outside the five values is
      rejected, as the enum column and the request schema reject it. */
  function ParseStatus(v: string): (r: Option<OrderStatus>)
    ensures r.Some? <==> v in StatusValues
    ensures r.Some? ==> StatusValue(r.value) == v
  {
    if v == "in_queue" then Some(InQueue)
    else if v == "in_process" then Some(InProcess)
    else if v == "ready" then Some(Ready)
    else if v == "completed" then Some(Completed)
    else if v == "cancelled" then Some(Cancelled)
    else None
  }

  /** Serialising then parsing a status gives it back, so the five values are
      pairwise distinct strings. */
  lemma StatusRoundTrip(s: OrderStatus)
    ensures ParseStatus(StatusValue(s)) == Some(s)
    ensures forall t: OrderStatus :: StatusValue(t) == StatusValue(s) ==> t == s
  {
  }

  // ---------------------------------------------------------------------------
  // Rows
  // ---------------------------------------------------------------------------

  datatype User = User(
    id: nat, email: string, username: string, hashedPassword: string,
    userType: UserType, fullName: Option<string>, phone: Option<string>, isActive: bool)

  /** A storefront profile. Latitude and longitude are fixed-point integers. */
  datatype Partner = Partner(
    id: nat, userId: nat, name: string, description: Option<string>,
    latitude: int, longitude: int, address: Option<string>, phone: Option<string>)

  /** A catalog entry; `price` is in minor currency units. The `is_available`
      column is nullable, so the flag is three-valued: a partial update may
      write NULL into it. */
  datatype Product = Product(
    id: nat, partnerId: nat, name: string, description: Option<string>,
    price: int, imageUrl: Option<string>, isAvailable: Option<bool>)

  /** A promotion; `expiresAt` is a timestamp, absent for a promotion that
      never expires. The `is_active` column is nullable like `is_available`. */
  datatype Promotion = Promotion(
    id: nat, partnerId: nat, title: string, description: Option<string>,
    imageUrl: Option<string>, discountPercent: Option<int>, isActive: Option<bool>,
    expiresAt: Option<int>)

  /** The product is orderable and listed: `is_available == True` in SQL and
      `not product.is_available` in Python both treat NULL as unavailable. */
  predicate Available(p: Product)
  {
    p.isAvailable == Some(true)
  }

  /** The promotion is active; NULL counts as inactive in `is_active == True`. */
  predicate Active(p: Promotion)
  {
    p.isActive == Some(true)
  }

  datatype Order = Order(
    id: nat, customerId: nat, partnerId: nat, status: OrderStatus,
    totalAmount: int, qrCode: Option<string>, createdAt: int)

  datatype OrderItem = OrderItem(id: nat, orderId: nat, productId: nat, quantity: int, price: int)

  /** The two user ids an `order_update` event is pushed to: the customer, and
      the id the caller passes for the partner side. */
  datatype Recipients = Recipients(customer: nat, partner: nat)

  /** Column defaults that apply when a row is inserted without the value. */
  const DefaultOrderStatus: OrderStatus := InQueue
  const DefaultItemQuantity: int := 1

  /** The whole database: one map per table, keyed by primary key. */
  datatype Store = Store(
    users: map<nat, User>,
    partners: map<nat, Partner>,
    products: map<nat, Product>,
    promotions: map<nat, Promotion>,
    orders: map<nat, Order>,
    items: map<nat, OrderItem>)

  // ---------------------------------------------------------------------------
  // Row ids
  // ---------------------------------------------------------------------------

  /** Some key of a non-empty set is at least every other key. */
  lemma {:induction false} MaxExists(keys: set<nat>)
    requires keys != {}
    ensures exists m :: m in keys && forall k :: k in keys ==> k <= m
    decreases keys
  {
    var x :| x in keys;
    if keys - {x} == {} {
      assert keys == {x};
      assert forall k :: k in keys ==> k <= x;
    } else {
      MaxExists(keys - {x});
      var m :| m in keys - {x} && forall k :: k in keys - {x} ==> k <= m;
      var top := if x <= m then m else x;
      forall k | k in keys ensures k <= top {
        if k != x {
          assert k in keys - {x};
        }
      }
    }
  }

  /** The largest key of a non-empty set. */
  function MaxKey(keys: set<nat>): (m: nat)
    requires keys != {}
    ensures m in keys && forall k :: k in keys ==> k <= m
  {
    MaxExists(keys);
    var m :| m in keys && forall k :: k in keys ==> k <= m;
    m
  }

  /** The id SQLite gives a new row of a table whose `INTEGER PRIMARY KEY` is
      declared without AUTOINCREMENT: one more than the largest id in the
      table, and 1 in an empty table. Deleting the newest row makes its id
      the next one handed out again. */
  function NextRowId(keys: set<nat>): (id: nat)
    ensures id !in keys && forall k :: k in keys ==> k < id
    ensures keys == {} ==> id == 1
    ensures keys != {} ==> id - 1 in keys
  {
    if keys == {} then 1 else MaxKey(keys) + 1
  }

  /** Adding `n` rows numbered from the next id on, the last of them
      `next + n - 1`, moves the next id on by exactly `n`. */
  lemma NextRowIdAfter(keys: set<nat>, added: set<nat>, n: nat)
    requires forall k :: k in added ==> NextRowId(keys) <= k < NextRowId(keys) + n
    requires n > 0 ==> NextRowId(keys) + n - 1 in added
    ensures NextRowId(keys + added) == NextRowId(keys) + n
  {
    var b := NextRowId(keys);
    var id := NextRowId(keys + added);
    if n == 0 {
      assert added == {};
      assert keys + added == keys;
    } else {
      assert b + n - 1 in keys + added;
      assert forall k :: k in keys + added ==> k < b + n;
      assert id - 1 in keys + added;
    }
  }

  function NextUserId(st: Store): nat { NextRowId(st.users.Keys) }
  function NextPartnerId(st: Store): nat { NextRowId(st.partners.Keys) }
  function NextOrderId(st: Store): nat { NextRowId(st.orders.Keys) }
  function NextItemId(st: Store): nat { NextRowId(st.items.Keys) }

  // ---------------------------------------------------------------------------
  // Integrity constraints
  // ---------------------------------------------------------------------------

  /** `users.email` and `users.username` are unique columns. */
  ghost predicate UsersUnique(users: map<nat, User>)
  {
    forall a, b :: a in users && b in users && a != b ==>
      users[a].email != users[b].email && users[a].username != users[b].username
  }

  /** `partners.user_id` is a unique column: at most one profile per user. */
  ghost predicate ProfilesUnique(partners: map<nat, Partner>)
  {
    forall a, b :: a in partners && b in partners && a != b ==> partners[a].userId != partners[b].userId
  }

  /** `orders.qr_code` is a unique column (NULLs do not collide). */
  ghost predicate QrCodesUnique(orders: map<nat, Order>)
  {
    forall a, b :: a in orders && b in orders && a != b && orders[a].qrCode.Some? ==>
      orders[a].qrCode != orders[b].qrCode
  }

  /** Every order item's `order_id` refers to an existing order. */
  ghost predicate ItemsLinked(st: Store)
  {
    forall k :: k in st.items ==> st.items[k].orderId in st.orders
  }

  /** Each row sits under its own primary key. */
  ghost predicate KeysConsistent(st: Store)
  {
    && (forall k :: k in st.users ==> st.users[k].id == k)
    && (forall k :: k in st.partners ==> st.partners[k].id == k)
    && (forall k :: k in st.products ==> st.products[k].id == k)
    && (forall k :: k in st.promotions ==> st.promotions[k].id == k)
    && (forall k :: k in st.orders ==> st.orders[k].id == k)
    && (forall k :: k in st.items ==> st.items[k].id == k)
  }

  /** Every constraint the database enforces at once. */
  ghost predicate Valid(st: Store)
  {
    && KeysConsistent(st)
    && UsersUnique(st.users)
    && ProfilesUnique(st.partners)
    && QrCodesUnique(st.orders)
    && ItemsLinked(st)
  }

  /** The keys of the items that belong to one order. */
  function ItemsOf(items: map<nat, OrderItem>, orderId: nat): set<nat>
  {
    set k | k in items && items[k].orderId == orderId
  }

  /** Whether an order passes `OrderResponse` validation on the way out. The
      reply nests the partner row and, for every item, the product row as a
      `ProductResponse`, which declares `is_available` a required `bool`: a
      missing row or a NULL flag makes the handler answer 500 instead. */
  predicate OrderSerialises(st: Store, o: Order)
  {
    && o.partnerId in st.partners
    && forall k :: k in st.items && st.items[k].orderId == o.id ==>
         st.items[k].productId in st.products && st.products[st.items[k].productId].isAvailable.Some?
  }

  /** A product whose availability was set to NULL makes every order that has
      an item of it fail response validation. */
  lemma NullAvailabilityBreaksOrder(st: Store, o: Order, itemId: nat)
    requires itemId in st.items && st.items[itemId].orderId == o.id
    requires st.items[itemId].productId in st.products
    requires st.products[st.items[itemId].productId].isAvailable == None
    ensures !OrderSerialises(st, o)
  {
  }

  /** Conversely, an order of a live partner whose items all name products
      with a non-NULL availability is answered normally. */
  lemma FlagsSetOrderSerialises(st: Store, o: Order)
    requires o.partnerId in st.partners
    requires forall k :: k in st.items && st.items[k].orderId == o.id ==> st.items[k].productId in st.products
    requires forall p :: p in st.products ==> st.products[p].isAvailable.Some?
    ensures OrderSerialises(st, o)
  {
  }

  // ---------------------------------------------------------------------------
  // Cascades
  // ---------------------------------------------------------------------------

  /** Deleting an order row; the `delete-orphan` cascade on `Order.items`
      deletes its items with it. */
  function DeleteOrderCascade(st: Store, orderId: nat): (st': Store)
    ensures st'.orders == st.orders - {orderId}
    ensures ItemsOf(st'.items, orderId) == {}
    ensures forall k :: k in st.items && st.items[k].orderId != orderId ==> k in st'.items && st'.items[k] == st.items[k]
    ensures st'.items.Keys <= st.items.Keys
    ensures st'.users == st.users && st'.partners == st.partners
    ensures st'.products == st.products && st'.promotions == st.promotions
  {
    st.(orders := st.orders - {orderId},
        items := map k | k in st.items && st.items[k].orderId != orderId :: st.items[k])
  }

  /** Some order names the partner in its NOT NULL `partner_id`. */
  predicate PartnerHasOrders(st: Store, partnerId: nat)
  {
    exists k :: k in st.orders && st.orders[k].partnerId == partnerId
  }

  /** Some order item names the product in its NOT NULL `product_id`. */
  predicate ProductOrdered(st: Store, productId: nat)
  {
    exists k :: k in st.items && st.items[k].productId == productId
  }

  /** Some order item names a product of the partner. */
  predicate PartnerProductsOrdered(st: Store, partnerId: nat)
  {
    exists k :: k in st.items && st.items[k].productId in st.products
                && st.products[st.items[k].productId].partnerId == partnerId
  }

  /** Deleting a product row. `Product.order_items` has no cascade, so the ORM
      sets `product_id` to NULL on the product's order items, which the NOT
      NULL column rejects, and the whole commit is rolled back. */
  function DeleteProductRow(st: Store, productId: nat): (r: Result<Store, ApiError>)
    ensures r.Err? <==> ProductOrdered(st, productId)
    ensures r.Err? ==> r.error == NotNullViolation
    ensures r.Ok? ==> productId !in r.value.products
    ensures r.Ok? ==> forall k :: k in st.products && k != productId ==> k in r.value.products && r.value.products[k] == st.products[k]
    ensures r.Ok? ==> r.value.orders == st.orders && r.value.items == st.items && r.value.partners == st.partners
    ensures r.Ok? ==> r.value.promotions == st.promotions && r.value.users == st.users
  {
    if ProductOrdered(st, productId) then Err(NotNullViolation)
    else Ok(st.(products := st.products - {productId}))
  }

  /** Deleting a partner row: the `delete-orphan` cascades on `Partner.products`
      and `Partner.promotions` delete its products and promotions. `Partner.orders`
      has no cascade, so the ORM nulls the NOT NULL `orders.partner_id` of its
      orders, and each deleted product nulls the `product_id` of its order
      items; either rejects the commit and nothing is deleted. */
  function DeletePartnerCascade(st: Store, partnerId: nat): (r: Result<Store, ApiError>)
    ensures r.Err? <==> PartnerHasOrders(st, partnerId) || PartnerProductsOrdered(st, partnerId)
    ensures r.Err? ==> r.error == NotNullViolation
    ensures r.Ok? ==> partnerId !in r.value.partners
    ensures r.Ok? ==> forall k :: k in r.value.products ==> r.value.products[k].partnerId != partnerId
    ensures r.Ok? ==> forall k :: k in r.value.promotions ==> r.value.promotions[k].partnerId != partnerId
    ensures r.Ok? ==> forall k :: k in st.products && st.products[k].partnerId != partnerId ==> k in r.value.products && r.value.products[k] == st.products[k]
    ensures r.Ok? ==> forall k :: k in st.promotions && st.promotions[k].partnerId != partnerId ==> k in r.value.promotions && r.value.promotions[k] == st.promotions[k]
    ensures r.Ok? ==> r.value.orders == st.orders && r.value.items == st.items
  {
    if PartnerHasOrders(st, partnerId) || PartnerProductsOrdered(st, partnerId) then Err(NotNullViolation)
    else
      Ok(st.(partners := st.partners - {partnerId},
             products := map k | k in st.products && st.products[k].partnerId != partnerId :: st.products[k],
             promotions := map k | k in st.promotions && st.promotions[k].partnerId != partnerId :: st.promotions[k]))
  }

  /** A partner deletion that commits keeps every database constraint, and
      leaves no order naming the partner and no item naming one of the
      deleted products: the rows that would have been left dangling are
      exactly the ones that make the commit fail. */
  lemma DeletePartnerCascadeValid(st: Store, partnerId: nat)
    requires Valid(st)
    requires DeletePartnerCascade(st, partnerId).Ok?
    ensures Valid(DeletePartnerCascade(st, partnerId).value)
    ensures var st' := DeletePartnerCascade(st, partnerId).value;
            && (forall k :: k in st'.orders ==> st'.orders[k].partnerId != partnerId)
            && (forall k :: k in st'.items && st.items[k].productId in st.products ==>
                  st'.items[k].productId in st'.products)
  {
    var st' := DeletePartnerCascade(st, partnerId).value;
    forall k | k in st'.items && st.items[k].productId in st.products
      ensures st'.items[k].productId in st'.products
    {
      assert st.items[k] == st'.items[k];
    }
  }

  /** A product deletion that commits keeps every database constraint and
      leaves no order item naming the deleted product. */
  lemma DeleteProductRowValid(st: Store, productId: nat)
    requires Valid(st)
    requires DeleteProductRow(st, productId).Ok?
    ensures Valid(DeleteProductRow(st, productId).value)
    ensures forall k :: k in st.items ==> DeleteProductRow(st, productId).value.items[k].productId != productId
  {
    var st' := DeleteProductRow(st, productId).value;
    forall k | k in st.items ensures st'.items[k].productId != productId {
      assert st.items[k] == st'.items[k];
    }
  }

  /** Deleting the newest order hands its id out again: the next order id
      drops to at most the deleted id, and to exactly it when the order below
      it is still there (or it was the first id). */
  lemma DeletedNewestIdReused(st: Store, orderId: nat)
    requires orderId in st.orders && orderId + 1 == NextOrderId(st) && orderId >= 1
    ensures NextOrderId(DeleteOrderCascade(st, orderId)) <= orderId
    ensures (orderId == 1 || orderId - 1 in st.orders) ==> NextOrderId(DeleteOrderCascade(st, orderId)) == orderId
  {
    var after := DeleteOrderCascade(st, orderId).orders.Keys;
    var id := NextRowId(after);
    assert after == st.orders.Keys - {orderId};
    assert forall k :: k in after ==> k < orderId;
    if after != {} {
      assert id - 1 in after;
    }
    if orderId - 1 in st.orders {
      assert orderId - 1 in after;
    }
  }

  /** The order cascade keeps the store valid: no item is left pointing at the
      deleted order. */
  lemma DeleteOrderCascadeValid(st: Store, orderId: nat)
    requires Valid(st)
    ensures Valid(DeleteOrderCascade(st, orderId))
  {
  }

  // ---------------------------------------------------------------------------
  // Listings sorted newest first
  // ---------------------------------------------------------------------------

  /** Whose orders a listing selects. */
  datatype Owner = ByCustomer(customerId: nat) | ByPartner(partnerId: nat)

  predicate Selects(who: Owner, o: Order)
  {
    match who
    case ByCustomer(c) => o.customerId == c
    case ByPartner(p) => o.partnerId == p
  }

  /** `ORDER BY created_at DESC`: no later order comes after an earlier one. */
  predicate NewestFirst(s: seq<Order>)
  {
    forall i, j :: 0 <= i < j < |s| ==> s[i].createdAt >= s[j].createdAt
  }

  /** No order id occurs twice. */
  predicate DistinctIds(s: seq<Order>)
  {
    forall i, j :: 0 <= i < j < |s| ==> s[i].id != s[j].id
  }

  /** Inserting one row into a listing sorted newest first. */
  function InsertNewestFirst(o: Order, s: seq<Order>): (r: seq<Order>)
    requires NewestFirst(s)
    ensures NewestFirst(r)
    ensures |r| == |s| + 1
    ensures forall x :: x in r <==> x == o || x in s
  {
    if |s| == 0 || o.createdAt >= s[0].createdAt then
      ConsNewest(o, s);
      [o] + s
    else
      NewestTail(s);
      var t := InsertNewestFirst(o, s[1..]);
      assert t[0] in t;
      ConsNewest(s[0], t);
      assert s == [s[0]] + s[1..];
      [s[0]] + t
  }

  /** A row no older than the head of a newest-first listing can go in front. */
  lemma ConsNewest(h: Order, s: seq<Order>)
    requires NewestFirst(s) && (|s| > 0 ==> h.createdAt >= s[0].createdAt)
    ensures NewestFirst([h] + s)
  {
    var r := [h] + s;
    forall i, j | 0 <= i < j < |r| ensures r[i].createdAt >= r[j].createdAt {
      assert r[j] == s[j - 1];
      if i > 0 {
        assert r[i] == s[i - 1];
      } else if j > 1 {
        assert s[0].createdAt >= s[j - 1].createdAt;
      }
    }
  }

  /** The tail of a newest-first listing is newest first and no newer than its head. */
  lemma NewestTail(s: seq<Order>)
    requires NewestFirst(s) && |s| > 0
    ensures NewestFirst(s[1..])
    ensures forall x :: x in s[1..] ==> x.createdAt <= s[0].createdAt
  {
    forall i, j | 0 <= i < j < |s[1..]| ensures s[1..][i].createdAt >= s[1..][j].createdAt {
      assert s[1..][i] == s[i + 1] && s[1..][j] == s[j + 1];
    }
    forall x | x in s[1..] ensures x.createdAt <= s[0].createdAt {
      var i :| 0 <= i < |s[1..]| && s[1..][i] == x;
      assert s[i + 1] == x;
    }
  }

  /** Inserting a row whose id is new keeps the ids of a listing distinct. */
  lemma {:induction false} InsertKeepsIdsDistinct(o: Order, s: seq<Order>)
    requires NewestFirst(s) && DistinctIds(s)
    requires forall x :: x in s ==> x.id != o.id
    ensures DistinctIds(InsertNewestFirst(o, s))
  {
    if |s| == 0 || o.createdAt >= s[0].createdAt {
      assert forall i | 1 <= i < |s| + 1 :: ([o] + s)[i] == s[i - 1];
    } else {
      var t := InsertNewestFirst(o, s[1..]);
      InsertKeepsIdsDistinct(o, s[1..]);
      var r := [s[0]] + t;
      assert r == InsertNewestFirst(o, s);
      forall i, j | 0 <= i < j < |r| ensures r[i].id != r[j].id {
        if i == 0 {
          assert r[j] == t[j - 1] && t[j - 1] in t;
          if r[j] != o {
            var m :| 0 <= m < |s[1..]| && s[1..][m] == r[j];
            assert s[m + 1] == r[j];
          }
        } else {
          assert r[i] == t[i - 1] && r[j] == t[j - 1];
        }
      }
    }
  }

  /** The rows of `orders` that `who` selects, sorted by creation time, newest
      first, each exactly once. */
  method ListNewestFirst(orders: map<nat, Order>, who: Owner) returns (r: seq<Order>)
    requires forall k :: k in orders ==> orders[k].id == k
    ensures NewestFirst(r)
    ensures DistinctIds(r)
    ensures forall o :: o in r <==> o in orders.Values && Selects(who, o)
  {
    var remaining := orders.Keys;
    r := [];
    while remaining != {}
      invariant remaining <= orders.Keys
      invariant NewestFirst(r)
      invariant DistinctIds(r)
      invariant forall o :: o in r ==> o.id in orders && orders[o.id] == o && o.id !in remaining
      invariant forall k :: k in orders && k !in remaining && Selects(who, orders[k]) ==> orders[k] in r
      invariant forall o :: o in r ==> Selects(who, o)
      decreases remaining
    {
      var k :| k in remaining;
      if Selects(who, orders[k]) {
        InsertKeepsIdsDistinct(orders[k], r);
        r := InsertNewestFirst(orders[k], r);
      }
      remaining := remaining - {k};
    }
  }
}

=== FILE: notify.dfy ===
/** Order notifications addressed the way the routers address them: the
    customer by user id and the partner side by the user id of the profile
    that owns the order. `Registry.NotifyRecipients` keeps the helper as it is
    written, addressing the partner side by the profile id. */
module Notify {
  import opened Common
  import opened Model
  import opened Registry
  import opened PartnerApi
  import opened CustomerApi

  /** `notify_order_update` with the partner looked up: the order's customer
      and the user behind the order's partner profile; nothing when the
      profile is gone. */
  function NotifyRecipientsFixed(partners: map<nat, Partner>, o: Order): (to: Option<Recipients>)
    ensures to.Some? <==> o.partnerId in partners
    ensures to.Some? ==> to.value.customer == o.customerId
  {
    if o.partnerId in partners then Some(Recipients(o.customerId, partners[o.partnerId].userId)) else None
  }

  /** After a status update the corrected helper addresses exactly the
      recipients the update endpoint notifies. */
  lemma FixedAgreesWithUpdate(st: Store, caller: User, orderId: nat, status: Option<OrderStatus>)
    requires KeysConsistent(st) && ProfilesUnique(st.partners)
    requires UpdateOrder(st, caller, orderId, status).Ok?
    ensures var u := UpdateOrder(st, caller, orderId, status).value;
            NotifyRecipientsFixed(u.store.partners, u.order) == Some(u.notify)
  {
    var p := GetPartnerProfile(st, caller).value;
    var k :| k in st.partners && st.partners[k] == p;
    assert k == p.id;
  }

  /** After an order is created the corrected helper addresses exactly the
      recipients the create endpoint notifies. */
  lemma FixedAgreesWithCreate(st: Store, caller: User, req: OrderRequest, qr: string, now: int)
    requires CreateOrder(st, caller, req, qr, now).Ok?
    ensures var c := CreateOrder(st, caller, req, qr, now).value;
            NotifyRecipientsFixed(c.store.partners, c.order) == Some(c.notify)
  {
  }

  /** With the corrected addressing, a partner connected under its user id
      receives the order's event (unless its send fails); the helper as
      written misses this connection (`Registry.NotifyMissesPartner`). */
  lemma FixedReachesPartner(reg: Connections, partners: map<nat, Partner>, o: Order, c: Conn, fails: set<Conn>)
    requires o.partnerId in partners
    requires c in ConnsOf(reg, partners[o.partnerId].userId) && c !in fails
    ensures var to := NotifyRecipientsFixed(partners, o).value;
            var msg := Message(OrderUpdateKind, DataOf(o));
            Delivery(c, msg) in Delivered(ConnsOf(reg, to.customer), msg, fails) + Delivered(ConnsOf(reg, to.partner), msg, fails)
  {
    var to := NotifyRecipientsFixed(partners, o).value;
    DeliveredMembers(ConnsOf(reg, to.partner), Message(OrderUpdateKind, DataOf(o)), fails);
  }
}

=== FILE: orders_page.dfy ===
/** The partner's order page: the buttons offered for an order, the status
    label shown, and which pushed messages make the page reload. The buttons
    are the only place a forward-only order life cycle exists; the server
    accepts any status. */
module OrdersPage {
  import opened Common
  import opened Model
  import opened Registry
  import opened PartnerApi

  // ---------------------------------------------------------------------------
  // Offered actions
  // ---------------------------------------------------------------------------

  /** A button: move the order to the status `to` (sent as its string), or
      delete the order. */
  datatype Action = Advance(to: string) | Delete

  /** The buttons rendered for an order with the given status string, in
      rendering order: four independent conditionals on the exact string. */
  function Actions(status: string): seq<Action>
  {
    (if status == "in_queue" then [Advance("in_process")] else [])
    + (if status == "in_process" then [Advance("ready")] else [])
    + (if status == "ready" then [Advance("completed")] else [])
    + (if status == "completed" then [Delete] else [])
  }

  /** Reference life cycle: the position of a status on the forward chain
      in_queue, in_process, ready, completed; cancelled is off the chain. */
  function Rank(s: OrderStatus): Option<nat>
  {
    match s
    case InQueue => Some(0)
    case InProcess => Some(1)
    case Ready => Some(2)
    case Completed => Some(3)
    case Cancelled => None
  }

  /** `t` is the step right after `s` on the forward chain. */
  predicate NextOnChain(s: OrderStatus, t: OrderStatus)
  {
    Rank(s).Some? && Rank(t).Some? && Rank(t).value == Rank(s).value + 1
  }

  /** The buttons are exactly the forward chain: each status string is offered
      at most one button; an advance button names a valid status one step
      further along the chain; every step of the chain is offered; delete is
      offered for `completed` alone; `cancelled` and any unknown string get
      nothing. */
  lemma ActionsFollowChain(v: string)
    ensures |Actions(v)| <= 1
    ensures forall a :: a in Actions(v) && a.Advance? ==>
              ParseStatus(v).Some? && ParseStatus(a.to).Some? && NextOnChain(ParseStatus(v).value, ParseStatus(a.to).value)
    ensures forall s, t :: v == StatusValue(s) && NextOnChain(s, t) ==> Actions(v) == [Advance(StatusValue(t))]
    ensures Delete in Actions(v) <==> v == "completed"
    ensures v == "cancelled" || v !in StatusValues ==> Actions(v) == []
  {
    forall s, t | v == StatusValue(s) && NextOnChain(s, t) ensures Actions(v) == [Advance(StatusValue(t))] {
      match s
      case InQueue => assert t == InProcess;
      case InProcess => assert t == Ready;
      case Ready => assert t == Completed;
      case Completed => assert false;
      case Cancelled => assert false;
    }
  }

  /** Never a step backwards: no status is offered a button to itself or to an
      earlier status of the chain. */
  lemma NoBackwardAction(s: OrderStatus, t: OrderStatus)
    requires Rank(s).Some? && Rank(t).Some? && Rank(t).value <= Rank(s).value
    ensures Advance(StatusValue(t)) !in Actions(StatusValue(s))
  {
    if Advance(StatusValue(t)) in Actions(StatusValue(s)) {
      ActionsFollowChain(StatusValue(s));
      StatusRoundTrip(s);
      StatusRoundTrip(t);
      assert false;
    }
  }

  /** Every button is accepted by the server for an order of the caller: an
      advance sets exactly the status it names, a delete removes the order. */
  lemma ServerAcceptsOfferedActions(st: Store, caller: User, orderId: nat, a: Action)
    requires ProfilesUnique(st.partners)
    requires UpdateOrder(st, caller, orderId, None).Ok?
    requires a in Actions(StatusValue(st.orders[orderId].status))
    ensures a.Advance? ==>
              && ParseStatus(a.to).Some?
              && UpdateOrder(st, caller, orderId, ParseStatus(a.to)).Ok?
              && StatusValue(UpdateOrder(st, caller, orderId, ParseStatus(a.to)).value.order.status) == a.to
    ensures a.Delete? ==> DeleteOrder(st, caller, orderId).Ok?
  {
    var v := StatusValue(st.orders[orderId].status);
    ActionsFollowChain(v);
    if a.Advance? {
      UpdateIgnoresTransition(st, caller, orderId, None, ParseStatus(a.to));
    } else {
      assert v == "completed";
      StatusRoundTrip(st.orders[orderId].status);
      assert st.orders[orderId].status == Completed;
    }
  }

  /** The server takes a step the buttons never offer: a completed order of
      the caller can be put back into the queue. */
  lemma ServerAllowsBackwardStep(st: Store, caller: User, orderId: nat)
    requires ProfilesUnique(st.partners)
    requires UpdateOrder(st, caller, orderId, None).Ok?
    requires st.orders[orderId].status == Completed
    ensures Advance(StatusValue(InQueue)) !in Actions(StatusValue(Completed))
    ensures UpdateOrder(st, caller, orderId, Some(InQueue)).Ok?
    ensures UpdateOrder(st, caller, orderId, Some(InQueue)).value.order.status == InQueue
  {
    UpdateIgnoresTransition(st, caller, orderId, None, Some(InQueue));
    NoBackwardAction(Completed, InQueue);
  }

  // ---------------------------------------------------------------------------
  // Status label
  // ---------------------------------------------------------------------------

  /** The label shown for a known status. */
  function Label(s: OrderStatus): string
  {
    match s
    case InQueue => "В очереди"
    case InProcess => "В процессе"
    case Ready => "Готов"
    case Completed => "Завершен"
    case Cancelled => "Отменен"
  }

  /** `getStatusText`: the label of a known status string, any other string as
      it is (every label is non-empty, so `||` never falls through for one). */
  function StatusText(v: string): string
  {
    match ParseStatus(v)
    case Some(s) => Label(s)
    case None => v
  }

  /** Five statuses, five different labels, none of them a status string; so
      the text shown differs from the raw value exactly for the five known
      values, and two different known values are never shown alike. */
  lemma StatusTextFaithful(v: string, w: string)
    ensures StatusText(v) == v <==> v !in StatusValues
    ensures v in StatusValues && w in StatusValues && StatusText(v) == StatusText(w) ==> v == w
    ensures forall s, t :: Label(s) == Label(t) ==> s == t
  {
    forall s, t | Label(s) == Label(t) ensures s == t {
      LabelsDiffer(s, t);
    }
    if v in StatusValues {
      LabelIsNoStatus(ParseStatus(v).value);
    }
    if v in StatusValues && w in StatusValues && StatusText(v) == StatusText(w) {
      LabelsDiffer(ParseStatus(v).value, ParseStatus(w).value);
    }
  }

  /** Different statuses have different labels. */
  lemma LabelsDiffer(s: OrderStatus, t: OrderStatus)
    ensures Label(s) == Label(t) ==> s == t
  {
    if s != t {
      assert Label(s)[0] != Label(t)[0] || Label(s)[|Label(s)| - 1] != Label(t)[|Label(t)| - 1] || |Label(s)| != |Label(t)|;
    }
  }

  /** A label is never itself a status string. */
  lemma LabelIsNoStatus(s: OrderStatus)
    ensures Label(s) !in StatusValues
  {
    assert Label(s)[0] !in "icr";
  }

  // ---------------------------------------------------------------------------
  // Pushed messages
  // ---------------------------------------------------------------------------

  /** `onmessage`: the page reloads its orders for an `order_update` message
      and ignores any other kind. */
  function ShouldRefetch(kind: string): (refetch: bool)
    ensures refetch <==> kind == OrderUpdateKind
  {
    kind == "order_update"
  }

  /** Every message the server's order broadcast hands to a connection makes
      the page reload. */
  lemma BroadcastTriggersRefetch(conns: seq<Conn>, data: OrderData, fails: set<Conn>)
    ensures forall d :: d in Delivered(conns, Message(OrderUpdateKind, data), fails) ==> ShouldRefetch(d.msg.kind)
  {
    DeliveredMembers(conns, Message(OrderUpdateKind, data), fails);
  }
}

=== FILE: partner.dfy ===
/** The partner-facing router: profile resolution, the partner's orders
    (list, status update, delete), partial updates of profile, products and
    promotions, and the statistics view. */
module PartnerApi {
  import opened Common
  import opened Errors
  import opened Model

  // ---------------------------------------------------------------------------
  // Profile resolution
  // ---------------------------------------------------------------------------

  /** The dependency every partner endpoint runs first: the caller must be a
      partner user (403) and must have a profile (404). The profile lookup by
      `user_id` is unambiguous because that column is unique. */
  function GetPartnerProfile(st: Store, caller: User): (r: Result<Partner, ApiError>)
    requires ProfilesUnique(st.partners)
    ensures caller.userType != PartnerUser ==> r == Err(OnlyPartners)
    ensures caller.userType == PartnerUser && (forall k :: k in st.partners ==> st.partners[k].userId != caller.id)
            ==> r == Err(ProfileNotFound)
    ensures r.Ok? <==> caller.userType == PartnerUser && exists k :: k in st.partners && st.partners[k].userId == caller.id
    ensures r.Ok? ==> r.value in st.partners.Values && r.value.userId == caller.id
  {
    if caller.userType != PartnerUser then Err(OnlyPartners)
    else if exists k :: k in st.partners && st.partners[k].userId == caller.id then
      var k :| k in st.partners && st.partners[k].userId == caller.id;
      Ok(st.partners[k])
    else Err(ProfileNotFound)
  }

  /** The order exists and belongs to the partner (`Order.partner_id == partner.id`). */
  predicate Owns(st: Store, partner: Partner, orderId: nat)
  {
    orderId in st.orders && st.orders[orderId].partnerId == partner.id
  }

  /** `GET /orders/{id}` for a partner: another partner's order is
      indistinguishable from a missing one (404), and an order that fails
      `OrderResponse` validation is answered 500. */
  function GetOrder(st: Store, caller: User, orderId: nat): (r: Result<Order, ApiError>)
    requires ProfilesUnique(st.partners)
    ensures GetPartnerProfile(st, caller).Err? ==> r == Err(GetPartnerProfile(st, caller).error)
    ensures GetPartnerProfile(st, caller).Ok? && !Owns(st, GetPartnerProfile(st, caller).value, orderId)
            ==> r == Err(OrderNotFound)
    ensures (GetPartnerProfile(st, caller).Ok? && Owns(st, GetPartnerProfile(st, caller).value, orderId)
             && !OrderSerialises(st, st.orders[orderId])) ==> r == Err(ResponseInvalid)
    ensures r.Ok? <==> GetPartnerProfile(st, caller).Ok? && Owns(st, GetPartnerProfile(st, caller).value, orderId)
                       && OrderSerialises(st, st.orders[orderId])
    ensures r.Ok? ==> r.value == st.orders[orderId] && r.value.partnerId == GetPartnerProfile(st, caller).value.id
  {
    match GetPartnerProfile(st, caller)
    case Err(e) => Err(e)
    case Ok(partner) =>
      if !Owns(st, partner, orderId) then Err(OrderNotFound)
      else if !OrderSerialises(st, st.orders[orderId]) then Err(ResponseInvalid)
      else Ok(st.orders[orderId])
  }

  /** `GET /orders`: the partner's own orders, newest first. As for the
      customer's list, one order failing validation makes the reply a 500. */
  method GetOrders(st: Store, caller: User) returns (r: Result<seq<Order>, ApiError>)
    requires ProfilesUnique(st.partners)
    requires forall k :: k in st.orders ==> st.orders[k].id == k
    ensures GetPartnerProfile(st, caller).Err? ==> r == Err(GetPartnerProfile(st, caller).error)
    ensures GetPartnerProfile(st, caller).Ok? ==>
              (r.Ok? <==> forall o :: o in st.orders.Values && o.partnerId == GetPartnerProfile(st, caller).value.id
                                      ==> OrderSerialises(st, o))
    ensures GetPartnerProfile(st, caller).Ok? && r.Err? ==> r.error == ResponseInvalid
    ensures r.Ok? ==> NewestFirst(r.value) && DistinctIds(r.value)
    ensures r.Ok? ==> forall o :: o in r.value <==>
              o in st.orders.Values && o.partnerId == GetPartnerProfile(st, caller).value.id
    ensures r.Ok? ==> forall o :: o in r.value ==> GetOrder(st, caller, o.id) == Ok(o)
    ensures r.Ok? ==> forall k :: k in st.orders ==> (GetOrder(st, caller, k).Ok? <==> st.orders[k] in r.value)
  {
    match GetPartnerProfile(st, caller)
    case Err(e) => return Err(e);
    case Ok(partner) =>
      var listing := ListNewestFirst(st.orders, ByPartner(partner.id));
      if forall o :: o in listing ==> OrderSerialises(st, o) {
        return Ok(listing);
      }
      return Err(ResponseInvalid);
  }

  // ---------------------------------------------------------------------------
  // Status update and deletion
  // ---------------------------------------------------------------------------

  /** An updated order, the store after the commit, who is notified, and the
      reply: the order, or the 500 its `OrderResponse` validation raises
      after the commit and the broadcast have happened. */
  datatype Updated = Updated(store: Store, order: Order, notify: Recipients, reply: Result<Order, ApiError>)

  /** `PUT /orders/{id}`. After ownership is established the requested status
      is written as is, whatever the current one; an absent status leaves the
      row as it was. No other column changes. The notification goes to the
      order's customer and to the partner's USER id. Only then is the reply
      validated, so an order that fails validation is still committed and
      broadcast, but answered 500. */
  function UpdateOrder(st: Store, caller: User, orderId: nat, status: Option<OrderStatus>): (r: Result<Updated, ApiError>)
    requires ProfilesUnique(st.partners)
    ensures GetPartnerProfile(st, caller).Err? ==> r == Err(GetPartnerProfile(st, caller).error)
    ensures GetPartnerProfile(st, caller).Ok? && !Owns(st, GetPartnerProfile(st, caller).value, orderId)
            ==> r == Err(OrderNotFound)
    ensures r.Ok? <==> GetPartnerProfile(st, caller).Ok? && Owns(st, GetPartnerProfile(st, caller).value, orderId)
    ensures r.Ok? ==>
              var before := st.orders[orderId];
              && r.value.order.status == (if status.Some? then status.value else before.status)
              && r.value.order == before.(status := r.value.order.status)
              && r.value.store == st.(orders := st.orders[orderId := r.value.order])
              && r.value.notify == Recipients(before.customerId, GetPartnerProfile(st, caller).value.userId)
    ensures r.Ok? ==> (r.value.reply.Ok? <==> OrderSerialises(st, st.orders[orderId]))
    ensures r.Ok? && r.value.reply.Ok? ==> r.value.reply.value == r.value.order
    ensures r.Ok? && r.value.reply.Err? ==> r.value.reply.error == ResponseInvalid
  {
    match GetPartnerProfile(st, caller)
    case Err(e) => Err(e)
    case Ok(partner) =>
      if !Owns(st, partner, orderId) then Err(OrderNotFound)
      else
        var before := st.orders[orderId];
        var after := if status.Some? then before.(status := status.value) else before;
        var st' := st.(orders := st.orders[orderId := after]);
        var reply := if OrderSerialises(st', after) then Ok(after) else Err(ResponseInvalid);
        Ok(Updated(st', after, Recipients(before.customerId, partner.userId), reply))
  }

  /** Whether the update is accepted does not depend on the requested status:
      the server checks no transition. */
  lemma UpdateIgnoresTransition(st: Store, caller: User, orderId: nat, s: Option<OrderStatus>, t: Option<OrderStatus>)
    requires ProfilesUnique(st.partners)
    ensures UpdateOrder(st, caller, orderId, s).Ok? == UpdateOrder(st, caller, orderId, t).Ok?
  {
  }

  /** The reply of a status update is what reading the order back returns. */
  lemma UpdateReplyIsRead(st: Store, caller: User, orderId: nat, status: Option<OrderStatus>)
    requires ProfilesUnique(st.partners)
    requires UpdateOrder(st, caller, orderId, status).Ok?
    ensures var u := UpdateOrder(st, caller, orderId, status).value;
            u.reply == GetOrder(u.store, caller, orderId)
  {
    var u := UpdateOrder(st, caller, orderId, status).value;
    assert GetPartnerProfile(u.store, caller) == GetPartnerProfile(st, caller);
  }

  /** A status update keeps every database constraint. */
  lemma UpdateOrderValid(st: Store, caller: User, orderId: nat, status: Option<OrderStatus>)
    requires Valid(st)
    requires UpdateOrder(st, caller, orderId, status).Ok?
    ensures Valid(UpdateOrder(st, caller, orderId, status).value.store)
  {
    var st' := UpdateOrder(st, caller, orderId, status).value.store;
    assert forall k :: k in st'.orders ==> st'.orders[k].qrCode == st.orders[k].qrCode;
  }

  /** `DELETE /orders/{id}`: after ownership, only a `completed` order may be
      deleted (400 otherwise, nothing removed); its items go with it. */
  function DeleteOrder(st: Store, caller: User, orderId: nat): (r: Result<Store, ApiError>)
    requires ProfilesUnique(st.partners)
    ensures GetPartnerProfile(st, caller).Err? ==> r == Err(GetPartnerProfile(st, caller).error)
    ensures GetPartnerProfile(st, caller).Ok? && !Owns(st, GetPartnerProfile(st, caller).value, orderId)
            ==> r == Err(OrderNotFound)
    ensures (GetPartnerProfile(st, caller).Ok? && Owns(st, GetPartnerProfile(st, caller).value, orderId)
             && st.orders[orderId].status != Completed) ==> r == Err(OnlyCompletedDeletable)
    ensures r.Ok? <==> GetPartnerProfile(st, caller).Ok? && Owns(st, GetPartnerProfile(st, caller).value, orderId)
                       && st.orders[orderId].status == Completed
    ensures r.Ok? ==> r.value == DeleteOrderCascade(st, orderId)
    ensures r.Ok? ==> r.value.orders == st.orders - {orderId} && ItemsOf(r.value.items, orderId) == {}
    ensures r.Ok? ==> forall k :: k in st.items && st.items[k].orderId != orderId ==> k in r.value.items && r.value.items[k] == st.items[k]
    ensures r.Ok? ==> r.value.users == st.users && r.value.partners == st.partners
                      && r.value.products == st.products && r.value.promotions == st.promotions
  {
    match GetPartnerProfile(st, caller)
    case Err(e) => Err(e)
    case Ok(partner) =>
      if !Owns(st, partner, orderId) then Err(OrderNotFound)
      else if st.orders[orderId].status != Completed then Err(OnlyCompletedDeletable)
      else Ok(DeleteOrderCascade(st, orderId))
  }

  /** Deletion keeps every database constraint. */
  lemma DeleteOrderValid(st: Store, caller: User, orderId: nat)
    requires Valid(st)
    requires DeleteOrder(st, caller, orderId).Ok?
    ensures Valid(DeleteOrder(st, caller, orderId).value)
  {
    DeleteOrderCascadeValid(st, orderId);
  }

  // ---------------------------------------------------------------------------
  // Partial updates
  // ---------------------------------------------------------------------------

  /** The fields `PUT /profile` may carry; coordinates are not among them.
      Every field of an update request is `Optional`, so each one is absent
      (`Keep`), an explicit `null` (`Set(None)`) or a value (`Set(Some(v))`). */
  datatype PartnerUpdate = PartnerUpdate(
    name: Patch<Option<string>>, description: Patch<Option<string>>,
    address: Patch<Option<string>>, phone: Patch<Option<string>>)

  datatype ProductUpdate = ProductUpdate(
    name: Patch<Option<string>>, description: Patch<Option<string>>, price: Patch<Option<int>>,
    imageUrl: Patch<Option<string>>, isAvailable: Patch<Option<bool>>)

  datatype PromotionUpdate = PromotionUpdate(
    title: Patch<Option<string>>, description: Patch<Option<string>>, imageUrl: Patch<Option<string>>,
    discountPercent: Patch<Option<int>>, isActive: Patch<Option<bool>>, expiresAt: Patch<Option<int>>)

  /** Setting every field present in the request, and only those. A `null`
      for the NOT NULL `name` column makes the commit fail; a `null` for a
      nullable column is stored. */
  function PatchPartner(p: Partner, u: PartnerUpdate): (r: Result<Partner, ApiError>)
    ensures r.Err? <==> SetsNull(u.name)
    ensures r.Err? ==> r.error == NotNullViolation
    ensures r.Ok? ==> r.value.id == p.id && r.value.userId == p.userId
                      && r.value.latitude == p.latitude && r.value.longitude == p.longitude
    ensures r.Ok? && u.name.Keep? ==> r.value.name == p.name
    ensures r.Ok? && u.name.Set? ==> u.name.value == Some(r.value.name)
    ensures r.Ok? && u.description.Keep? ==> r.value.description == p.description
    ensures r.Ok? && u.description.Set? ==> r.value.description == u.description.value
    ensures r.Ok? && u.address.Keep? ==> r.value.address == p.address
    ensures r.Ok? && u.address.Set? ==> r.value.address == u.address.value
    ensures r.Ok? && u.phone.Keep? ==> r.value.phone == p.phone
    ensures r.Ok? && u.phone.Set? ==> r.value.phone == u.phone.value
  {
    if SetsNull(u.name) then Err(NotNullViolation)
    else
      Ok(p.(name := ApplyRequired(u.name, p.name), description := Apply(u.description, p.description),
            address := Apply(u.address, p.address), phone := Apply(u.phone, p.phone)))
  }

  /** `name` and `price` are NOT NULL; `is_available` is nullable and a `null`
      is stored as is. */
  function PatchProduct(p: Product, u: ProductUpdate): (r: Result<Product, ApiError>)
    ensures r.Err? <==> SetsNull(u.name) || SetsNull(u.price)
    ensures r.Err? ==> r.error == NotNullViolation
    ensures r.Ok? ==> r.value.id == p.id && r.value.partnerId == p.partnerId
    ensures r.Ok? && u.name.Keep? ==> r.value.name == p.name
    ensures r.Ok? && u.name.Set? ==> u.name.value == Some(r.value.name)
    ensures r.Ok? && u.description.Keep? ==> r.value.description == p.description
    ensures r.Ok? && u.description.Set? ==> r.value.description == u.description.value
    ensures r.Ok? && u.price.Keep? ==> r.value.price == p.price
    ensures r.Ok? && u.price.Set? ==> u.price.value == Some(r.value.price)
    ensures r.Ok? && u.imageUrl.Keep? ==> r.value.imageUrl == p.imageUrl
    ensures r.Ok? && u.imageUrl.Set? ==> r.value.imageUrl == u.imageUrl.value
    ensures r.Ok? && u.isAvailable.Keep? ==> r.value.isAvailable == p.isAvailable
    ensures r.Ok? && u.isAvailable.Set? ==> r.value.isAvailable == u.isAvailable.value
  {
    if SetsNull(u.name) || SetsNull(u.price) then Err(NotNullViolation)
    else
      Ok(p.(name := ApplyRequired(u.name, p.name), description := Apply(u.description, p.description),
            price := ApplyRequired(u.price, p.price), imageUrl := Apply(u.imageUrl, p.imageUrl),
            isAvailable := Apply(u.isAvailable, p.isAvailable)))
  }

  /** `title` is NOT NULL; `is_active` is nullable and a `null` is stored as is. */
  function PatchPromotion(p: Promotion, u: PromotionUpdate): (r: Result<Promotion, ApiError>)
    ensures r.Err? <==> SetsNull(u.title)
    ensures r.Err? ==> r.error == NotNullViolation
    ensures r.Ok? ==> r.value.id == p.id && r.value.partnerId == p.partnerId
    ensures r.Ok? && u.title.Keep? ==> r.value.title == p.title
    ensures r.Ok? && u.title.Set? ==> u.title.value == Some(r.value.title)
    ensures r.Ok? && u.description.Keep? ==> r.value.description == p.description
    ensures r.Ok? && u.description.Set? ==> r.value.description == u.description.value
    ensures r.Ok? && u.imageUrl.Keep? ==> r.value.imageUrl == p.imageUrl
    ensures r.Ok? && u.imageUrl.Set? ==> r.value.imageUrl == u.imageUrl.value
    ensures r.Ok? && u.discountPercent.Keep? ==> r.value.discountPercent == p.discountPercent
    ensures r.Ok? && u.discountPercent.Set? ==> r.value.discountPercent == u.discountPercent.value
    ensures r.Ok? && u.isActive.Keep? ==> r.value.isActive == p.isActive
    ensures r.Ok? && u.isActive.Set? ==> r.value.isActive == u.isActive.value
    ensures r.Ok? && u.expiresAt.Keep? ==> r.value.expiresAt == p.expiresAt
    ensures r.Ok? && u.expiresAt.Set? ==> r.value.expiresAt == u.expiresAt.value
  {
    if SetsNull(u.title) then Err(NotNullViolation)
    else
      Ok(p.(title := ApplyRequired(u.title, p.title), description := Apply(u.description, p.description),
            imageUrl := Apply(u.imageUrl, p.imageUrl), discountPercent := Apply(u.discountPercent, p.discountPercent),
            isActive := Apply(u.isActive, p.isActive), expiresAt := Apply(u.expiresAt, p.expiresAt)))
  }

  /** The empty request of each kind: every field left out. */
  const NoPartnerChange := PartnerUpdate(Keep, Keep, Keep, Keep)
  const NoProductChange := ProductUpdate(Keep, Keep, Keep, Keep, Keep)
  const NoPromotionChange := PromotionUpdate(Keep, Keep, Keep, Keep, Keep, Keep)

  /** An empty request changes nothing, and sending the same request twice has
      the effect of sending it once: a request accepted once is accepted
      again, and a rejected one is rejected for every row. */
  lemma PatchesIdempotent(p: Partner, u: PartnerUpdate, q: Product, v: ProductUpdate, m: Promotion, w: PromotionUpdate)
    ensures PatchPartner(p, NoPartnerChange) == Ok(p)
    ensures PatchProduct(q, NoProductChange) == Ok(q)
    ensures PatchPromotion(m, NoPromotionChange) == Ok(m)
    ensures PatchPartner(p, u).Ok? ==> PatchPartner(PatchPartner(p, u).value, u) == PatchPartner(p, u)
    ensures PatchProduct(q, v).Ok? ==> PatchProduct(PatchProduct(q, v).value, v) == PatchProduct(q, v)
    ensures PatchPromotion(m, w).Ok? ==> PatchPromotion(PatchPromotion(m, w).value, w) == PatchPromotion(m, w)
  {
  }

  /** `PUT /profile`: the caller's own profile row is patched. */
  function UpdateProfile(st: Store, caller: User, u: PartnerUpdate): (r: Result<Store, ApiError>)
    requires ProfilesUnique(st.partners)
    ensures GetPartnerProfile(st, caller).Err? ==> r == Err(GetPartnerProfile(st, caller).error)
    ensures GetPartnerProfile(st, caller).Ok? && SetsNull(u.name) ==> r == Err(NotNullViolation)
    ensures r.Ok? <==> GetPartnerProfile(st, caller).Ok? && !SetsNull(u.name)
    ensures r.Ok? ==>
              var p := GetPartnerProfile(st, caller).value;
              r.value == st.(partners := st.partners[p.id := PatchPartner(p, u).value])
  {
    match GetPartnerProfile(st, caller)
    case Err(e) => Err(e)
    case Ok(p) =>
      match PatchPartner(p, u)
      case Err(e) => Err(e)
      case Ok(p') => Ok(st.(partners := st.partners[p.id := p']))
  }

  /** The product exists and belongs to the partner. */
  predicate OwnsProduct(st: Store, partner: Partner, productId: nat)
  {
    productId in st.products && st.products[productId].partnerId == partner.id
  }

  /** The promotion exists and belongs to the partner. */
  predicate OwnsPromotion(st: Store, partner: Partner, promotionId: nat)
  {
    promotionId in st.promotions && st.promotions[promotionId].partnerId == partner.id
  }

  /** `PUT /products/{id}`: another partner's product is a 404 and nothing changes. */
  function UpdateProduct(st: Store, caller: User, productId: nat, u: ProductUpdate): (r: Result<Store, ApiError>)
    requires ProfilesUnique(st.partners)
    ensures GetPartnerProfile(st, caller).Err? ==> r == Err(GetPartnerProfile(st, caller).error)
    ensures GetPartnerProfile(st, caller).Ok? && !OwnsProduct(st, GetPartnerProfile(st, caller).value, productId)
            ==> r == Err(PartnerProductNotFound)
    ensures (GetPartnerProfile(st, caller).Ok? && OwnsProduct(st, GetPartnerProfile(st, caller).value, productId)
             && (SetsNull(u.name) || SetsNull(u.price))) ==> r == Err(NotNullViolation)
    ensures r.Ok? <==> GetPartnerProfile(st, caller).Ok? && OwnsProduct(st, GetPartnerProfile(st, caller).value, productId)
                       && !SetsNull(u.name) && !SetsNull(u.price)
    ensures r.Ok? ==> r.value == st.(products := st.products[productId := PatchProduct(st.products[productId], u).value])
  {
    match GetPartnerProfile(st, caller)
    case Err(e) => Err(e)
    case Ok(p) =>
      if !OwnsProduct(st, p, productId) then Err(PartnerProductNotFound)
      else
        match PatchProduct(st.products[productId], u)
        case Err(e) => Err(e)
        case Ok(q) => Ok(st.(products := st.products[productId := q]))
  }

  /** `PUT /promotions/{id}`: another partner's promotion is a 404 and nothing changes. */
  function UpdatePromotion(st: Store, caller: User, promotionId: nat, u: PromotionUpdate): (r: Result<Store, ApiError>)
    requires ProfilesUnique(st.partners)
    ensures GetPartnerProfile(st, caller).Err? ==> r == Err(GetPartnerProfile(st, caller).error)
    ensures GetPartnerProfile(st, caller).Ok? && !OwnsPromotion(st, GetPartnerProfile(st, caller).value, promotionId)
            ==> r == Err(PromotionNotFound)
    ensures (GetPartnerProfile(st, caller).Ok? && OwnsPromotion(st, GetPartnerProfile(st, caller).value, promotionId)
             && SetsNull(u.title)) ==> r == Err(NotNullViolation)
    ensures r.Ok? <==> GetPartnerProfile(st, caller).Ok? && OwnsPromotion(st, GetPartnerProfile(st, caller).value, promotionId)
                       && !SetsNull(u.title)
    ensures r.Ok? ==> r.value == st.(promotions := st.promotions[promotionId := PatchPromotion(st.promotions[promotionId], u).value])
  {
    match GetPartnerProfile(st, caller)
    case Err(e) => Err(e)
    case Ok(p) =>
      if !OwnsPromotion(st, p, promotionId) then Err(PromotionNotFound)
      else
        match PatchPromotion(st.promotions[promotionId], u)
        case Err(e) => Err(e)
        case Ok(m) => Ok(st.(promotions := st.promotions[promotionId := m]))
  }

  /** An explicit `null` for `is_available` commits, and the product then
      drops out of every customer listing and can no longer be ordered, since
      both treat NULL as unavailable. */
  lemma NullAvailabilityHidesProduct(st: Store, caller: User, productId: nat, u: ProductUpdate)
    requires ProfilesUnique(st.partners)
    requires u.isAvailable == Set(None)
    requires UpdateProduct(st, caller, productId, u).Ok?
    ensures productId in UpdateProduct(st, caller, productId, u).value.products
    ensures !Available(UpdateProduct(st, caller, productId, u).value.products[productId])
  {
  }

  /** Nulling the availability of a product that an order item names breaks
      every later read of that order: the partner's lookup and status update
      answer 500, and so does the customer's, whose contract turns on the same
      validation. */
  lemma NullAvailabilityBreaksOrderReads(st: Store, caller: User, productId: nat, u: ProductUpdate,
                                         orderId: nat, itemId: nat, reader: User, s: Option<OrderStatus>)
    requires ProfilesUnique(st.partners)
    requires u.isAvailable == Set(None)
    requires UpdateProduct(st, caller, productId, u).Ok?
    requires orderId in st.orders && st.orders[orderId].id == orderId
    requires itemId in st.items && st.items[itemId].orderId == orderId && st.items[itemId].productId == productId
    ensures var st' := UpdateProduct(st, caller, productId, u).value;
            && orderId in st'.orders
            && !OrderSerialises(st', st'.orders[orderId])
            && !GetOrder(st', reader, orderId).Ok?
            && (UpdateOrder(st', reader, orderId, s).Ok? ==> UpdateOrder(st', reader, orderId, s).value.reply == Err(ResponseInvalid))
  {
    var st' := UpdateProduct(st, caller, productId, u).value;
    NullAvailabilityHidesProduct(st, caller, productId, u);
    NullAvailabilityBreaksOrder(st', st'.orders[orderId], itemId);
  }

  // ---------------------------------------------------------------------------
  // Product and promotion deletion
  // ---------------------------------------------------------------------------

  /** `DELETE /products/{id}`: another partner's product is a 404; a product
      that some order item names cannot be deleted (the commit fails on the
      NOT NULL `product_id`), and nothing changes. */
  function DeleteProduct(st: Store, caller: User, productId: nat): (r: Result<Store, ApiError>)
    requires ProfilesUnique(st.partners)
    ensures GetPartnerProfile(st, caller).Err? ==> r == Err(GetPartnerProfile(st, caller).error)
    ensures GetPartnerProfile(st, caller).Ok? && !OwnsProduct(st, GetPartnerProfile(st, caller).value, productId)
            ==> r == Err(PartnerProductNotFound)
    ensures (GetPartnerProfile(st, caller).Ok? && OwnsProduct(st, GetPartnerProfile(st, caller).value, productId)
             && ProductOrdered(st, productId)) ==> r == Err(NotNullViolation)
    ensures r.Ok? <==> GetPartnerProfile(st, caller).Ok? && OwnsProduct(st, GetPartnerProfile(st, caller).value, productId)
                       && !ProductOrdered(st, productId)
    ensures r.Ok? ==> r.value == DeleteProductRow(st, productId).value
  {
    match GetPartnerProfile(st, caller)
    case Err(e) => Err(e)
    case Ok(p) =>
      if !OwnsProduct(st, p, productId) then Err(PartnerProductNotFound)
      else DeleteProductRow(st, productId)
  }

  /** `DELETE /promotions/{id}`: another partner's promotion is a 404; nothing
      references a promotion, so an owned one is always removed, alone. */
  function DeletePromotion(st: Store, caller: User, promotionId: nat): (r: Result<Store, ApiError>)
    requires ProfilesUnique(st.partners)
    ensures GetPartnerProfile(st, caller).Err? ==> r == Err(GetPartnerProfile(st, caller).error)
    ensures GetPartnerProfile(st, caller).Ok? && !OwnsPromotion(st, GetPartnerProfile(st, caller).value, promotionId)
            ==> r == Err(PromotionNotFound)
    ensures r.Ok? <==> GetPartnerProfile(st, caller).Ok? && OwnsPromotion(st, GetPartnerProfile(st, caller).value, promotionId)
    ensures r.Ok? ==> promotionId !in r.value.promotions
                      && (forall k :: k in st.promotions && k != promotionId ==>
                            k in r.value.promotions && r.value.promotions[k] == st.promotions[k])
                      && r.value.promotions.Keys <= st.promotions.Keys
    ensures r.Ok? ==> r.value.products == st.products && r.value.orders == st.orders && r.value.items == st.items
                      && r.value.partners == st.partners && r.value.users == st.users
  {
    match GetPartnerProfile(st, caller)
    case Err(e) => Err(e)
    case Ok(p) =>
      if !OwnsPromotion(st, p, promotionId) then Err(PromotionNotFound)
      else Ok(st.(promotions := st.promotions - {promotionId}))
  }

  // ---------------------------------------------------------------------------
  // Statistics
  // ---------------------------------------------------------------------------

  datatype Statistics = Statistics(
    totalOrders: nat, completedOrders: nat, totalRevenue: int, activePromotions: nat, totalProducts: nat)

  /** The keys of a partner's orders. */
  function OrdersOf(orders: map<nat, Order>, partnerId: nat): set<nat>
  {
    set k | k in orders && orders[k].partnerId == partnerId
  }

  /** The keys of a partner's completed orders. */
  function CompletedOf(orders: map<nat, Order>, partnerId: nat): set<nat>
  {
    set k | k in orders && orders[k].partnerId == partnerId && orders[k].status == Completed
  }

  /** The sum of `total_amount` over the orders with the given keys. */
  ghost function Revenue(orders: map<nat, Order>, ks: set<nat>): int
    requires ks <= orders.Keys
    decreases ks
  {
    if ks == {} then 0
    else
      var k :| k in ks;
      orders[k].totalAmount + Revenue(orders, ks - {k})
  }

  /** The sum does not depend on which key is taken out first. */
  lemma {:induction false} RevenueRemove(orders: map<nat, Order>, ks: set<nat>, k: nat)
    requires ks <= orders.Keys && k in ks
    ensures Revenue(orders, ks) == orders[k].totalAmount + Revenue(orders, ks - {k})
    decreases ks
  {
    var j :| j in ks && Revenue(orders, ks) == orders[j].totalAmount + Revenue(orders, ks - {j});
    if j != k {
      RevenueRemove(orders, ks - {j}, k);
      RevenueRemove(orders, ks - {k}, j);
      assert ks - {j} - {k} == ks - {k} - {j};
    }
  }

  /** Orders outside the summed keys do not affect the sum. */
  lemma {:induction false} RevenueFrame(orders: map<nat, Order>, orders': map<nat, Order>, ks: set<nat>)
    requires ks <= orders.Keys && ks <= orders'.Keys
    requires forall k :: k in ks ==> orders[k].totalAmount == orders'[k].totalAmount
    ensures Revenue(orders, ks) == Revenue(orders', ks)
    decreases ks
  {
    if ks != {} {
      var k :| k in ks && Revenue(orders, ks) == orders[k].totalAmount + Revenue(orders, ks - {k});
      RevenueRemove(orders', ks, k);
      RevenueFrame(orders, orders', ks - {k});
    }
  }

  /** The revenue sum, computed by a loop over the keys. */
  method SumRevenue(orders: map<nat, Order>, ks: set<nat>) returns (total: int)
    requires ks <= orders.Keys
    ensures total == Revenue(orders, ks)
  {
    total := 0;
    var remaining := ks;
    while remaining != {}
      invariant remaining <= ks
      invariant total + Revenue(orders, remaining) == Revenue(orders, ks)
      decreases remaining
    {
      var k :| k in remaining;
      RevenueRemove(orders, remaining, k);
      total := total + orders[k].totalAmount;
      remaining := remaining - {k};
    }
  }

  /** `GET /statistics`: order counts, the revenue of completed orders (0 when
      there are none), active promotions and products, all of the caller's
      partner. */
  method GetStatistics(st: Store, caller: User) returns (r: Result<Statistics, ApiError>)
    requires ProfilesUnique(st.partners)
    ensures r.Err? <==> GetPartnerProfile(st, caller).Err?
    ensures r.Err? ==> r.error == GetPartnerProfile(st, caller).error
    ensures r.Ok? ==>
              var pid := GetPartnerProfile(st, caller).value.id;
              && r.value.totalOrders == |OrdersOf(st.orders, pid)|
              && r.value.completedOrders == |CompletedOf(st.orders, pid)|
              && r.value.completedOrders <= r.value.totalOrders
              && r.value.totalRevenue == Revenue(st.orders, CompletedOf(st.orders, pid))
              && (CompletedOf(st.orders, pid) == {} ==> r.value.totalRevenue == 0)
              && r.value.activePromotions == |set k | k in st.promotions && st.promotions[k].partnerId == pid && Active(st.promotions[k])|
              && r.value.totalProducts == |set k | k in st.products && st.products[k].partnerId == pid|
  {
    match GetPartnerProfile(st, caller)
    case Err(e) => return Err(e);
    case Ok(partner) =>
      var pid := partner.id;
      var all := OrdersOf(st.orders, pid);
      var done := CompletedOf(st.orders, pid);
      assert done <= all;
      CardinalityMonotone(done, all);
      var revenue := SumRevenue(st.orders, done);
      var promos := |set k | k in st.promotions && st.promotions[k].partnerId == pid && Active(st.promotions[k])|;
      var products := |set k | k in st.products && st.products[k].partnerId == pid|;
      return Ok(Statistics(|all|, |done|, revenue, promos, products));
  }

  lemma CardinalityMonotone(a: set<nat>, b: set<nat>)
    requires a <= b
    ensures |a| <= |b|
  {
    assert b == a + (b - a);
  }

  /** Completing an order of the partner through `UpdateOrder` raises the
      partner's revenue by exactly that order's total. */
  lemma CompletingAddsRevenue(st: Store, caller: User, orderId: nat)
    requires ProfilesUnique(st.partners)
    requires UpdateOrder(st, caller, orderId, Some(Completed)).Ok?
    requires st.orders[orderId].status != Completed
    ensures var pid := GetPartnerProfile(st, caller).value.id;
            var st' := UpdateOrder(st, caller, orderId, Some(Completed)).value.store;
            Revenue(st'.orders, CompletedOf(st'.orders, pid))
              == Revenue(st.orders, CompletedOf(st.orders, pid)) + st.orders[orderId].totalAmount
  {
    var pid := GetPartnerProfile(st, caller).value.id;
    var st' := UpdateOrder(st, caller, orderId, Some(Completed)).value.store;
    var before := CompletedOf(st.orders, pid);
    var after := CompletedOf(st'.orders, pid);
    assert after == before + {orderId};
    RevenueRemove(st'.orders, after, orderId);
    assert after - {orderId} == before;
    RevenueFrame(st.orders, st'.orders, before);
  }
}

=== FILE: uploads.dfy ===
/** Image uploads: the extension whitelist, the stored file name and the URL
    handed back. File names follow the POSIX path rules of `pathlib`. */
module Uploads {
  import opened Common
  import opened Errors

  /** The accepted extensions, lower case, dot included. */
  const AllowedExtensions: set<string> := {".jpg", ".jpeg", ".png", ".gif", ".webp"}

  /** The path the stored files are served under. */
  const UploadsPrefix := "/api/uploads/"

  // ---------------------------------------------------------------------------
  // Strings
  // ---------------------------------------------------------------------------

  /** `str.lower` on one character, restricted to ASCII letters. */
  function LowerChar(c: char): char
  {
    if 'A' <= c <= 'Z' then (c as int + 32) as char else c
  }

  /** `str.lower`, restricted to ASCII letters. */
  function AsciiLower(s: string): (r: string)
    ensures |r| == |s| && forall i :: 0 <= i < |s| ==> r[i] == LowerChar(s[i])
  {
    seq(|s|, i requires 0 <= i < |s| => LowerChar(s[i]))
  }

  /** A character that is no letter is its own lower case, and no other
      character lowers to it. */
  predicate Caseless(c: char)
  {
    !('A' <= c <= 'Z') && !('a' <= c <= 'z')
  }

  /** `str.rfind`: the position of the last occurrence of `c`. */
  function LastIndex(s: string, c: char): (r: Option<nat>)
    ensures r.None? <==> c !in s
    ensures r.Some? ==> r.value < |s| && s[r.value] == c && c !in s[r.value + 1..]
  {
    if |s| == 0 then None
    else if s[|s| - 1] == c then Some(|s| - 1)
    else
      var r := LastIndex(s[..|s| - 1], c);
      assert s == s[..|s| - 1] + [s[|s| - 1]];
      r
  }

  /** The last occurrence is the one after which the character no longer occurs. */
  lemma LastIndexUnique(s: string, c: char, i: nat)
    requires i < |s| && s[i] == c && c !in s[i + 1..]
    ensures LastIndex(s, c) == Some(i)
  {
  }

  /** `c` does not occur from position `from` on. */
  lemma AbsentFrom(s: string, c: char, from: nat)
    requires from <= |s|
    requires forall j :: from <= j < |s| ==> s[j] != c
    ensures c !in s[from..]
  {
  }

  // ---------------------------------------------------------------------------
  // pathlib
  // ---------------------------------------------------------------------------

  /** `PurePosixPath(s).name`: the last component, ignoring trailing slashes
      and `.` components; empty when there is none. */
  function BaseName(s: string): (name: string)
    ensures '/' !in name && name != "."
    decreases |s|
  {
    if |s| == 0 then ""
    else if s[|s| - 1] == '/' then BaseName(s[..|s| - 1])
    else
      match LastIndex(s, '/')
      case None => if s == "." then "" else s
      case Some(i) => if s[i + 1..] == "." then BaseName(s[..i]) else s[i + 1..]
  }

  /** `PurePath.suffix`: from the last dot of the name, provided that dot is
      neither the first nor the last character; otherwise empty. */
  function Suffix(name: string): (ext: string)
    ensures ext != [] ==>
              && 2 <= |ext| < |name| && ext == name[|name| - |ext|..]
              && ext[0] == '.' && '.' !in ext[1..]
  {
    match LastIndex(name, '.')
    case None => ""
    case Some(i) =>
      if 0 < i < |name| - 1 then
        assert name[i..][1..] == name[i + 1..];
        name[i..]
      else ""
  }

  /** `is_allowed_file`. */
  predicate IsAllowedFile(filename: string)
  {
    AsciiLower(Suffix(BaseName(filename))) in AllowedExtensions
  }

  // ---------------------------------------------------------------------------
  // Whitelist properties
  // ---------------------------------------------------------------------------

  /** Every accepted extension is a dot followed by at least one character
      and no further dot. */
  lemma ExtensionsShape(e: string)
    requires e in AllowedExtensions
    ensures |e| >= 2 && e[0] == '.' && '.' !in e[1..]
  {
  }

  /** The name is longer than some accepted extension and ends with it, in
      any letter case. */
  predicate EndsWithExtension(name: string)
  {
    exists e :: e in AllowedExtensions && |e| < |name| && AsciiLower(name[|name| - |e|..]) == e
  }

  /** The whitelist without `rfind`: a file is accepted exactly when its
      name ends with an accepted extension and is longer than it. A name
      that is only an extension, such as `.png`, is therefore refused. */
  lemma AllowedIffEndsWithExtension(filename: string)
    ensures IsAllowedFile(filename) <==> EndsWithExtension(BaseName(filename))
  {
    var name := BaseName(filename);
    if IsAllowedFile(filename) {
      AllowedEndsWithExtension(name);
    }
    if EndsWithExtension(name) {
      var e :| e in AllowedExtensions && |e| < |name| && AsciiLower(name[|name| - |e|..]) == e;
      EndingIsSuffix(name, e);
    }
  }

  /** An accepted name ends with its accepted suffix. */
  lemma AllowedEndsWithExtension(name: string)
    requires AsciiLower(Suffix(name)) in AllowedExtensions
    ensures EndsWithExtension(name)
  {
    var ext := Suffix(name);
    var e := AsciiLower(ext);
    assert ext != [];
    assert name[|name| - |e|..] == ext;
    assert e in AllowedExtensions && |e| < |name| && AsciiLower(name[|name| - |e|..]) == e;
  }

  /** A name longer than an accepted extension it ends with has that
      extension, in its own letter case, as suffix. */
  lemma EndingIsSuffix(name: string, e: string)
    requires e in AllowedExtensions && |e| < |name| && AsciiLower(name[|name| - |e|..]) == e
    ensures Suffix(name) == name[|name| - |e|..]
  {
    ExtensionsShape(e);
    var i := |name| - |e|;
    var t := name[i..];
    assert t[0] == '.' by {
      assert LowerChar(t[0]) == e[0];
    }
    forall j | i + 1 <= j < |name| ensures name[j] != '.' {
      assert name[j] == t[j - i];
      assert LowerChar(t[j - i]) == e[j - i] && e[j - i] in e[1..];
    }
    AbsentFrom(name, '.', i + 1);
    LastIndexUnique(name, '.', i);
  }

  /** A hidden file named only by an extension is refused. */
  lemma HiddenFileRefused()
    ensures !IsAllowedFile(".png")
  {
    assert '/' !in ".png";
    assert BaseName(".png") == ".png";
    LastIndexUnique(".png", '.', 0);
  }

  /** An upper-case extension is accepted. */
  lemma UpperCaseAccepted()
    ensures IsAllowedFile("a.PNG")
  {
    assert '/' !in "a.PNG";
    assert BaseName("a.PNG") == "a.PNG";
    LastIndexUnique("a.PNG", '.', 1);
    assert AsciiLower(".PNG") == ".png";
  }

  /** Only the last extension counts. */
  lemma LastExtensionCounts()
    ensures !IsAllowedFile("a.png.exe")
  {
    assert '/' !in "a.png.exe";
    assert BaseName("a.png.exe") == "a.png.exe";
    LastIndexUnique("a.png.exe", '.', 5);
    assert AsciiLower(".exe") == ".exe";
  }

  /** Lowering twice is lowering once. */
  lemma LowerIdempotent(s: string)
    ensures AsciiLower(AsciiLower(s)) == AsciiLower(s)
  {
  }

  /** Lowering does not move a character that has no case. */
  lemma LastIndexLower(s: string, c: char)
    requires Caseless(c)
    ensures LastIndex(AsciiLower(s), c) == LastIndex(s, c)
  {
    assert forall x :: LowerChar(x) == c <==> x == c;
    var l := AsciiLower(s);
    if c in s {
      var i := LastIndex(s, c).value;
      assert l[i] == c;
      forall j | i + 1 <= j < |l| ensures l[j] != c {
        assert s[j] in s[i + 1..];
      }
      AbsentFrom(l, c, i + 1);
      LastIndexUnique(l, c, i);
    } else {
      assert c !in l by {
        forall j | 0 <= j < |l| ensures l[j] != c {
          assert s[j] != c;
        }
      }
    }
  }

  /** Taking the name commutes with lowering. */
  lemma {:induction false} BaseNameLower(s: string)
    ensures BaseName(AsciiLower(s)) == AsciiLower(BaseName(s))
    decreases |s|
  {
    if |s| > 0 {
      if s[|s| - 1] == '/' {
        BaseNameLower(s[..|s| - 1]);
        BaseNameLowerTrailing(s);
      } else {
        match LastIndex(s, '/')
        case None =>
          BaseNameLowerPlain(s);
        case Some(i) =>
          BaseNameLower(s[..i]);
          BaseNameLowerLast(s, i);
      }
    }
  }

  /** `BaseNameLower` for a path ending in `/`, given it for the path without
      that slash. */
  lemma BaseNameLowerTrailing(s: string)
    requires |s| > 0 && s[|s| - 1] == '/'
    requires BaseName(AsciiLower(s[..|s| - 1])) == AsciiLower(BaseName(s[..|s| - 1]))
    ensures BaseName(AsciiLower(s)) == AsciiLower(BaseName(s))
  {
    LowerSlice(s, |s| - 1);
  }

  /** `BaseNameLower` for a path without any `/`. */
  lemma BaseNameLowerPlain(s: string)
    requires |s| > 0 && '/' !in s
    ensures BaseName(AsciiLower(s)) == AsciiLower(BaseName(s))
  {
    var l := AsciiLower(s);
    LastIndexLower(s, '/');
    assert l[|l| - 1] != '/';
    LowerIsDot(s);
  }

  /** `BaseNameLower` for a path whose last `/` is at `i` and is not its last
      character, given it for the part before that slash. */
  lemma BaseNameLowerLast(s: string, i: nat)
    requires |s| > 0 && s[|s| - 1] != '/' && LastIndex(s, '/') == Some(i)
    requires BaseName(AsciiLower(s[..i])) == AsciiLower(BaseName(s[..i]))
    ensures BaseName(AsciiLower(s)) == AsciiLower(BaseName(s))
  {
    var l := AsciiLower(s);
    LastIndexLower(s, '/');
    assert l[|l| - 1] != '/';
    LowerSlice(s, i + 1);
    LowerIsDot(s[i + 1..]);
    LowerSlice(s, i);
    if s[i + 1..] == "." {
      assert BaseName(s) == BaseName(s[..i]);
      assert BaseName(l) == BaseName(l[..i]);
    } else {
      assert BaseName(s) == s[i + 1..];
      assert BaseName(l) == l[i + 1..];
    }
  }

  /** Lowering a prefix or a suffix is cutting the lowered string there. */
  lemma LowerSlice(s: string, i: nat)
    requires i <= |s|
    ensures AsciiLower(s)[..i] == AsciiLower(s[..i])
    ensures AsciiLower(s)[i..] == AsciiLower(s[i..])
  {
  }

  /** Only `.` lowers to `.`. */
  lemma LowerIsDot(s: string)
    ensures AsciiLower(s) == "." <==> s == "."
  {
    if |s| == 1 {
      assert AsciiLower(s)[0] == LowerChar(s[0]);
    }
  }

  /** Taking the suffix commutes with lowering. */
  lemma SuffixLower(name: string)
    ensures Suffix(AsciiLower(name)) == AsciiLower(Suffix(name))
  {
    LastIndexLower(name, '.');
    match LastIndex(name, '.')
    case None =>
    case Some(i) =>
      LowerSlice(name, i);
  }

  /** The whitelist ignores letter case: two names that lower alike are both
      accepted or both refused. */
  lemma AllowedIgnoresCase(f: string, g: string)
    requires AsciiLower(f) == AsciiLower(g)
    ensures IsAllowedFile(f) == IsAllowedFile(g)
  {
    forall h | h == f || h == g ensures IsAllowedFile(h) == IsAllowedFile(AsciiLower(h)) {
      BaseNameLower(h);
      SuffixLower(BaseName(h));
      LowerIdempotent(Suffix(BaseName(h)));
    }
  }

  // ---------------------------------------------------------------------------
  // Upload
  // ---------------------------------------------------------------------------

  /** A stored upload: the file name on disk and the URL returned. */
  datatype Stored = Stored(fileName: string, url: string)

  /** `POST /image`: a refused name is rejected before a name is generated or
      anything is written; otherwise the file is written under the fresh
      `uuid` followed by the original suffix (letter case kept), and a failed
      write is a 500. */
  function UploadImage(filename: string, uuid: string, writeOk: bool): (r: Result<Stored, ApiError>)
    ensures !IsAllowedFile(filename) ==> r == Err(InvalidFileType)
    ensures IsAllowedFile(filename) && !writeOk ==> r == Err(SaveFailed)
    ensures r.Ok? <==> IsAllowedFile(filename) && writeOk
    ensures r.Ok? ==> StartsWith(r.value.fileName, uuid) && r.value.url == UploadsPrefix + r.value.fileName
  {
    if !IsAllowedFile(filename) then Err(InvalidFileType)
    else
      var stored := uuid + Suffix(BaseName(filename));
      if !writeOk then Err(SaveFailed)
      else
        assert stored[..|uuid|] == uuid;
        Ok(Stored(stored, UploadsPrefix + stored))
  }

  /** With a uuid free of dots and slashes, the stored name is a plain name
      whose suffix is the uploaded file's suffix, so it passes the whitelist
      again. */
  lemma StoredNameKeepsSuffix(filename: string, uuid: string, writeOk: bool)
    requires UploadImage(filename, uuid, writeOk).Ok?
    requires |uuid| > 0 && '.' !in uuid && '/' !in uuid
    ensures var name := UploadImage(filename, uuid, writeOk).value.fileName;
            && BaseName(name) == name
            && Suffix(name) == Suffix(BaseName(filename))
            && IsAllowedFile(name)
  {
    var ext := Suffix(BaseName(filename));
    UploadedName(filename, uuid, writeOk);
    SuffixHasNoSlash(BaseName(filename));
    PlainNameWithSuffix(uuid, ext);
    SameSuffixAllowed(uuid + ext, filename);
  }

  /** A stored name is the uuid followed by the non-empty suffix of the upload. */
  lemma UploadedName(filename: string, uuid: string, writeOk: bool)
    requires UploadImage(filename, uuid, writeOk).Ok?
    ensures UploadImage(filename, uuid, writeOk).value.fileName == uuid + Suffix(BaseName(filename))
    ensures Suffix(BaseName(filename)) != []
  {
    assert AsciiLower(Suffix(BaseName(filename))) in AllowedExtensions;
  }

  /** A plain name with an accepted file's suffix is accepted too. */
  lemma SameSuffixAllowed(name: string, filename: string)
    requires IsAllowedFile(filename)
    requires BaseName(name) == name && Suffix(name) == Suffix(BaseName(filename))
    ensures IsAllowedFile(name)
  {
  }

  /** A suffix has no slash, as the name it comes from has none. */
  lemma SuffixHasNoSlash(name: string)
    requires '/' !in name
    ensures '/' !in Suffix(name)
  {
    var ext := Suffix(name);
    forall j | 0 <= j < |ext| ensures ext[j] != '/' {
      assert ext[j] == name[|name| - |ext| + j];
    }
  }

  /** A name made of a dot-free, slash-free stem and a slash-free suffix is
      its own base name, and its suffix is that suffix. */
  lemma PlainNameWithSuffix(stem: string, ext: string)
    requires |stem| > 0 && '.' !in stem && '/' !in stem
    requires ext != [] && 2 <= |ext| && ext[0] == '.' && '.' !in ext[1..] && '/' !in ext
    ensures BaseName(stem + ext) == stem + ext && Suffix(stem + ext) == ext
  {
    var name := stem + ext;
    forall j | 0 <= j < |name| ensures name[j] != '/' {
      if j < |stem| {
        assert name[j] == stem[j];
      } else {
        assert name[j] == ext[j - |stem|];
      }
    }
    assert '/' !in name;
    assert name[|name| - 1] == ext[|ext| - 1];
    assert name[|stem|..] == ext;
    forall j | |stem| + 1 <= j < |name| ensures name[j] != '.' {
      assert name[j] == ext[j - |stem|] && ext[j - |stem|] in ext[1..];
    }
    AbsentFrom(name, '.', |stem| + 1);
    LastIndexUnique(name, '.', |stem|);
  }
}

=== FILE: websocket.dfy ===
/** The in-memory connection registry behind the order-update push channel:
    user id to the list of that user's open connections, with connect,
    disconnect, best-effort fan-out and the order-update broadcast. */
module Registry {
  import opened Common
  import opened Model

  /** An open connection, identified by an opaque handle. */
  type Conn = nat

  /** `active_connections`: each user id to its open connections, in connect order. */
  type Connections = map<int, seq<Conn>>

  /** The registry invariant: a user with no open connection has no entry. */
  ghost predicate NoEmptyLists(reg: Connections)
  {
    forall u :: u in reg ==> |reg[u]| > 0
  }

  /** The connections a user has, empty when the user has no entry. */
  function ConnsOf(reg: Connections, userId: int): seq<Conn>
  {
    if userId in reg then reg[userId] else []
  }

  /** `connect`: append the connection to the user's list, creating the list
      for a user that had none. No credential is examined. */
  function Connect(reg: Connections, userId: int, c: Conn): (reg': Connections)
    ensures userId in reg' && reg'[userId] == ConnsOf(reg, userId) + [c]
    ensures forall u :: u != userId ==> (u in reg' <==> u in reg) && (u in reg ==> reg'[u] == reg[u])
    ensures NoEmptyLists(reg) ==> NoEmptyLists(reg')
  {
    reg[userId := ConnsOf(reg, userId) + [c]]
  }

  /** The position of the first occurrence of `c`. */
  function IndexOf(s: seq<Conn>, c: Conn): (i: nat)
    requires c in s
    ensures i < |s| && s[i] == c && c !in s[..i]
  {
    if s[0] == c then 0
    else
      var j := IndexOf(s[1..], c);
      assert s[..j + 1] == [s[0]] + s[1..][..j];
      j + 1
  }

  /** Python's `list.remove`: drop the first occurrence. */
  function RemoveFirst(s: seq<Conn>, c: Conn): (r: seq<Conn>)
    requires c in s
    ensures |r| == |s| - 1
    ensures multiset(r) == multiset(s) - multiset{c}
    ensures r == s[..IndexOf(s, c)] + s[IndexOf(s, c) + 1..]
  {
    var i := IndexOf(s, c);
    assert s == s[..i] + [s[i]] + s[i + 1..];
    s[..i] + s[i + 1..]
  }

  /** Why disconnecting can fail: the list has no such connection, so
      `list.remove` raises `ValueError`. */
  datatype DisconnectError = ConnectionNotInList

  /** `disconnect`: a user without an entry is left alone; otherwise the
      connection is removed from the user's list and the entry is deleted
      once the list is empty. */
  function Disconnect(reg: Connections, userId: int, c: Conn): (r: Result<Connections, DisconnectError>)
    ensures userId !in reg ==> r == Ok(reg)
    ensures userId in reg && c !in reg[userId] ==> r == Err(ConnectionNotInList)
    ensures r.Ok? <==> userId !in reg || c in reg[userId]
    ensures r.Ok? && userId in reg ==>
              && ConnsOf(r.value, userId) == RemoveFirst(reg[userId], c)
              && multiset(ConnsOf(r.value, userId)) == multiset(reg[userId]) - multiset{c}
              && (userId in r.value <==> |reg[userId]| > 1)
    ensures r.Ok? ==> forall u :: u != userId ==> (u in r.value <==> u in reg) && (u in reg ==> r.value[u] == reg[u])
    ensures r.Ok? && NoEmptyLists(reg) ==> NoEmptyLists(r.value)
  {
    if userId !in reg then Ok(reg)
    else if c !in reg[userId] then Err(ConnectionNotInList)
    else
      var rest := RemoveFirst(reg[userId], c);
      if |rest| == 0 then Ok(reg - {userId}) else Ok(reg[userId := rest])
  }

  /** Removing a connection that was appended to a list without it gives the list back. */
  lemma RemoveAppended(l: seq<Conn>, c: Conn)
    requires c !in l
    ensures RemoveFirst(l + [c], c) == l
  {
    var i := IndexOf(l + [c], c);
    assert (l + [c])[..|l|] == l;
  }

  /** Connecting then disconnecting the same fresh connection restores the registry. */
  lemma ConnectDisconnectRoundTrip(reg: Connections, userId: int, c: Conn)
    requires NoEmptyLists(reg)
    requires c !in ConnsOf(reg, userId)
    ensures Disconnect(Connect(reg, userId, c), userId, c) == Ok(reg)
  {
    var l := ConnsOf(reg, userId);
    RemoveAppended(l, c);
    if |l| == 0 {
      DropAdded(reg, userId, l + [c]);
    } else {
      PutBack(reg, userId, l + [c]);
    }
  }

  /** Adding a key and removing it again gives the map back. */
  lemma DropAdded(reg: Connections, k: int, v: seq<Conn>)
    requires k !in reg
    ensures reg[k := v] - {k} == reg
  {
  }

  /** Overwriting a key and writing its old value back gives the map back. */
  lemma PutBack(reg: Connections, k: int, v: seq<Conn>)
    requires k in reg
    ensures reg[k := v][k := reg[k]] == reg
  {
  }

  // ---------------------------------------------------------------------------
  // Fan-out
  // ---------------------------------------------------------------------------

  /** The fields of an order that are pushed with an update. */
  datatype OrderData = OrderData(id: nat, status: string, customerId: nat, partnerId: nat, totalAmount: int)

  /** A pushed message: `{"type": kind, "data": data}`. */
  datatype Message = Message(kind: string, data: OrderData)

  /** One message handed to one connection's send. */
  datatype Delivery = Delivery(conn: Conn, msg: Message)

  /** Reference definition: every connection in list order, except those
      whose send fails, receives the message. */
  function Delivered(conns: seq<Conn>, msg: Message, fails: set<Conn>): seq<Delivery>
  {
    if |conns| == 0 then []
    else (if conns[0] in fails then [] else [Delivery(conns[0], msg)]) + Delivered(conns[1..], msg, fails)
  }

  /** `send_personal_message`: try every connection of the user in order; a
      failing send (modelled by `fails`) is swallowed and the loop goes on. A
      user without an entry receives nothing. */
  method SendPersonalMessage(reg: Connections, msg: Message, userId: int, fails: set<Conn>) returns (sent: seq<Delivery>)
    ensures sent == Delivered(ConnsOf(reg, userId), msg, fails)
    ensures userId !in reg ==> sent == []
    ensures forall d :: d in sent <==> d.msg == msg && d.conn in ConnsOf(reg, userId) && d.conn !in fails
  {
    sent := [];
    if userId !in reg {
      return;
    }
    var conns := reg[userId];
    var i := 0;
    while i < |conns|
      invariant 0 <= i <= |conns|
      invariant sent + Delivered(conns[i..], msg, fails) == Delivered(conns, msg, fails)
    {
      assert conns[i..][1..] == conns[i + 1..];
      if conns[i] !in fails {
        sent := sent + [Delivery(conns[i], msg)];
      }
      i := i + 1;
    }
    DeliveredMembers(conns, msg, fails);
  }

  /** Who receives a delivery: exactly the non-failing connections. */
  lemma {:induction false} DeliveredMembers(conns: seq<Conn>, msg: Message, fails: set<Conn>)
    ensures forall d :: d in Delivered(conns, msg, fails) <==> d.msg == msg && d.conn in conns && d.conn !in fails
  {
    if |conns| > 0 {
      DeliveredMembers(conns[1..], msg, fails);
      assert forall x :: x in conns <==> x == conns[0] || x in conns[1..] by {
        assert conns == [conns[0]] + conns[1..];
      }
    }
  }

  /** The kind of every order event. */
  const OrderUpdateKind := "order_update"

  /** `broadcast_order_update`: the same `order_update` message, first to the
      customer's connections, then to the connections of the id given for the
      partner. */
  method BroadcastOrderUpdate(reg: Connections, data: OrderData, to: Recipients, fails: set<Conn>)
    returns (sent: seq<Delivery>)
    ensures var msg := Message(OrderUpdateKind, data);
            sent == Delivered(ConnsOf(reg, to.customer), msg, fails) + Delivered(ConnsOf(reg, to.partner), msg, fails)
    ensures forall d :: d in sent ==> d.msg == Message(OrderUpdateKind, data) && d.conn !in fails
  {
    var msg := Message(OrderUpdateKind, data);
    var first := SendPersonalMessage(reg, msg, to.customer, fails);
    var second := SendPersonalMessage(reg, msg, to.partner, fails);
    sent := first + second;
  }

  /** The pushed fields of an order row. */
  function DataOf(o: Order): OrderData
  {
    OrderData(o.id, StatusValue(o.status), o.customerId, o.partnerId, o.totalAmount)
  }

  /** `notify_order_update` addresses the partner side by the order's
      `partner_id`, a partner-profile id, whereas the routers address it by
      the partner's user id. */
  function NotifyRecipients(o: Order): Recipients
  {
    Recipients(o.customerId, o.partnerId)
  }

  /** The websocket endpoint: whatever credential accompanies the request, the
      connection is registered under the user id taken from the path. */
  function Endpoint(reg: Connections, pathUserId: int, c: Conn, credential: Option<string>): (reg': Connections)
    ensures ConnsOf(reg', pathUserId) == ConnsOf(reg, pathUserId) + [c]
    ensures forall u :: u != pathUserId ==> ConnsOf(reg', u) == ConnsOf(reg, u)
    ensures NoEmptyLists(reg) ==> NoEmptyLists(reg')
  {
    Connect(reg, pathUserId, c)
  }

  /** Anyone can listen to anyone's events: a connection registered under some
      user id with any (or no) credential is handed every later message for
      that user whose send does not fail. */
  lemma NoCredentialNeeded(reg: Connections, victim: int, c: Conn, msg: Message, credential: Option<string>, fails: set<Conn>)
    requires c !in fails
    ensures Delivery(c, msg) in Delivered(ConnsOf(Endpoint(reg, victim, c, credential), victim), msg, fails)
  {
    DeliveredMembers(ConnsOf(Endpoint(reg, victim, c, credential), victim), msg, fails);
  }

  /** When a partner's profile id differs from its user id, a partner
      connected under its user id receives nothing from `notify_order_update`
      for an order of a different customer. */
  lemma NotifyMissesPartner(reg: Connections, o: Order, partnerUserId: int, c: Conn, fails: set<Conn>)
    requires ConnsOf(reg, partnerUserId) == [c] && c !in fails
    requires partnerUserId != o.partnerId && partnerUserId != o.customerId
    requires forall u :: u in reg && u != partnerUserId ==> c !in reg[u]
    ensures var to := NotifyRecipients(o);
            var msg := Message(OrderUpdateKind, DataOf(o));
            Delivery(c, msg) !in Delivered(ConnsOf(reg, to.customer), msg, fails) + Delivered(ConnsOf(reg, to.partner), msg, fails)
    ensures var msg := Message(OrderUpdateKind, DataOf(o));
            Delivery(c, msg) in Delivered(ConnsOf(reg, partnerUserId), msg, fails)
  {
    var msg := Message(OrderUpdateKind, DataOf(o));
    DeliveredMembers(ConnsOf(reg, o.customerId), msg, fails);
    DeliveredMembers(ConnsOf(reg, o.partnerId), msg, fails);
    DeliveredMembers(ConnsOf(reg, partnerUserId), msg, fails);
  }
}
